=== FILE: README.md ===
# Weekly report system: server handlers in Dafny

This project models the Express/Prisma server of a weekly-report system.
Staff upload a PDF report per week. A head of department (HOD) approves or
rejects reports. Admin and HR manage users and departments. Every user has
a notification inbox. A dashboard aggregates report counts.

The database is an immutable `Db.Store`. It holds one sequence per table
(users, departments, reports, comments, notifications, audit log), in
ascending id order, plus the id counters and the settings map. Each route
handler is a pure function. It takes the store, the caller's claims
`{ id, role }` and the request's inputs, and returns a `Step`: the reply
(`Ok(code, value)` or `Fail(code, error)`) and the store after the call.
The `Db.Valid` invariant bundles these facts:

- ids are unique, ascending and below their counters;
- usernames, emails, department names and department heads are unique;
- no row points at a missing user, department or report.

Every handler that writes has a lemma proving it keeps `Valid`.

External collaborators are parameters:

- bcrypt (`hash`, `matches`);
- jwt (`sign`, `verify`);
- the time/random filename prefix (`unique`);
- whether the audit-log insert succeeds (`writeOk`);
- whether a report's `createdAt` falls in the dashboard period (`inPeriod`);
- whether `new Date` accepts a submitted `weekEnding` (`isDate`).

Modules:

- `Wrappers`: `Option`.
- `Seqs`: generic sequence helpers and their lemmas.
- `Db`: the store, its invariant, and frame lemmas for rewriting one table.
- `Paging`: the `page`/`limit` arithmetic shared by the listing routes.
- `Middleware`: `middleware/auth.js`.
- One module per router: `AuthRoutes`, `ReportRoutes`, `HodRoutes`, `AdminRoutes`, `DepartmentRoutes`, `NotificationRoutes`, `DashboardRoutes`.
- `Server`: the request dispatch of `index.js`. It mounts only the auth, reports and HOD routers, so only those are reachable through `Server.Serve`. The other routers are modelled as plain handlers.

JavaScript truthiness is modelled explicitly:

- A string field counts as given when it is present and non-empty (`Given`).
- An id counts as given when it is present and non-zero (`IdGiven`).

Prisma errors the handlers catch become the handler's 500 reply. Examples:

- updating a missing report;
- a negative `skip`;
- an unknown enum value;
- a unique-column clash the handler did not check for.

## Model

| member | source | states |
|---|---|---|
| Middleware.BearerToken | server/src/middleware/auth.js:6-7 | A token is extracted exactly when the header starts with "Bearer "; prefixing "Bearer " to it gives back the header |
| Middleware.BearerRoundTrip | server/src/middleware/auth.js:6-7 | Extracting the token from "Bearer " + t gives t back |
| Middleware.Authenticate | server/src/middleware/auth.js:5-16 | 401 "Missing token" exactly when there is no non-empty bearer token; 401 "Invalid token" exactly when the verifier rejects it; otherwise the caller is the verified payload |
| Middleware.RequireRole | server/src/middleware/auth.js:18-24 | 401 without a user, 403 "Forbidden" exactly when the role differs, pass exactly when it is equal |
| Middleware.RequireRoles | server/src/middleware/auth.js:26-34 | 401 without a user, 403 "Insufficient permissions" exactly when the role is not listed, pass exactly when it is |
| Middleware.RoleGuardsAgree | server/src/middleware/auth.js:18-34 | A single-role guard and a one-element role list admit the same callers with the same status codes, but differ in the 403 message |
| Middleware.AdminIsNotHod | server/src/middleware/auth.js:21 | An ADMIN is refused by the HOD guard: the role check is an equality, not a hierarchy |
| Middleware.RequireActiveUser | server/src/middleware/auth.js:66-82 | 403 "Account is inactive" exactly when the user is missing or inactive; otherwise it yields that user's row |
| Middleware.AuditLog | server/src/middleware/auth.js:36-51 | Only the audit table can change; exactly one entry with the given action, details, actor and metadata is appended when the insert succeeds and the actor exists, else nothing |
| Middleware.AuditLogValid | server/src/middleware/auth.js:36-51 | Appending an audit entry keeps the store valid |
| Middleware.WithAudit | server/src/middleware/auth.js:53-64 | The store is unchanged unless the status is below 400, the write succeeds and the actor exists; then exactly one entry recording the response is appended |
| Middleware.WithAuditValid | server/src/middleware/auth.js:53-64 | Recording a response keeps the store valid |
| Db.UserById | server/src/middleware/auth.js:68-71 | The lookup by primary key finds a row exactly when a user with that id exists, and it is that user |
| Db.Empty | server/src/index.js:44-46 | The empty database satisfies the store invariant |
| AuthRoutes.RegisteredRole | server/src/routes/auth.js:19 | The account is HOD exactly when the requested role is the lower-case string "hod"; otherwise it is STAFF |
| AuthRoutes.RegisteredRoleExamples | server/src/routes/auth.js:19 | "HOD", "admin", "ADMIN" and an absent role all register as STAFF; only "hod" gives HOD |
| AuthRoutes.Register | server/src/routes/auth.js:9-25 | 400 on a missing field, 409 when the username or email is taken, and success exactly otherwise; success appends one user with the next id, the hashed password and the derived role, and answers 201 with that id |
| AuthRoutes.RegisterValid | server/src/routes/auth.js:9-25 | Registration keeps the store valid, so usernames and emails stay unique |
| AuthRoutes.Login | server/src/routes/auth.js:27-40 | Never changes the store; 400 "Missing credentials" on a missing field, 401 "Invalid credentials" for an unknown user or a wrong password; success signs `{ id, role }` of the matching account and returns its public profile |
| AuthRoutes.LoginFindsAccount | server/src/routes/auth.js:31-36 | For an existing account, login succeeds exactly when the password matches its hash, with that account's token and profile |
| ReportRoutes.ExtName | server/src/routes/reports.js:18 | The extension is empty or starts with its only dot and contains no slash; it is a suffix of the name once trailing slashes are dropped; a name without a dot has none |
| ReportRoutes.ExtNameAfterLastDot | server/src/routes/reports.js:18 | For every non-empty base without "/" (inner or leading dots allowed) and every ext without "." or "/", the extension of "base.ext" is ".ext": the suffix from the last dot |
| ReportRoutes.ExtNameOfDotFile | server/src/routes/reports.js:18 | A leading-dot name such as ".pdf" has no extension |
| ReportRoutes.StoredFilename | server/src/routes/reports.js:16-20 | The stored name is the unique prefix, then the original extension, or ".pdf" when there is none |
| ReportRoutes.UploadError | server/src/routes/reports.js:25-29 | An upload is accepted exactly when it is a PDF of at most 10 MiB; a non-PDF gets "Only PDF allowed" and an oversize PDF gets "File too large" |
| ReportRoutes.Submit | server/src/routes/reports.js:46-62 | A rejected upload answers 500 with its error, then a missing weekEnding or file answers 400, then a weekEnding `new Date` rejects or a caller whose row is gone answers 500 "Failed to submit report", each with the store unchanged; success exactly otherwise appends one report with the next id, the caller as staff, the original file name and the `/uploads/` path |
| ReportRoutes.SubmitValid | server/src/routes/reports.js:46-62 | Submitting keeps the store valid |
| ReportRoutes.WithStaffResolves | server/src/routes/reports.js:36 | In a valid store, every listed report's `staff` include resolves to its uploader |
| ReportRoutes.ListAll | server/src/routes/reports.js:33-43 | Lists every report in reverse insertion order, each paired with the user row its `staffId` names, and changes nothing |
| ReportRoutes.ListAllOrder | server/src/routes/reports.js:37 | The listing is strictly descending by id |
| ReportRoutes.Mine | server/src/routes/reports.js:64-71 | /mine answers 200 without changing the store, and every item is a stored report of the caller |
| ReportRoutes.MineExactly | server/src/routes/reports.js:64-71 | /mine lists exactly the caller's reports, newest first |
| HodRoutes.Reports | server/src/routes/hod.js:7-14 | Non-HOD callers get 403; HODs see the same listing as GET /api/reports |
| HodRoutes.UpdateStatus | server/src/routes/hod.js:19 | Fails exactly when no report has the id; otherwise only that report's status changes, and the stored row with the new status is returned |
| HodRoutes.Approve | server/src/routes/hod.js:16-24 | 403 for non-HOD callers, 500 "Failed to approve report" for a missing report, and success exactly otherwise, returning the stored report with status APPROVED and every other field as it was |
| HodRoutes.RejectReport | server/src/routes/hod.js:26-34 | 403 for non-HOD callers, 500 "Failed to reject report" for a missing report, and success exactly otherwise, returning the stored report with status REJECTED and every other field as it was |
| HodRoutes.ApproveOverwrites | server/src/routes/hod.js:16-24 | Approval sets the status whatever it was (DRAFT, REJECTED, …) and leaves every other report alone |
| HodRoutes.RejectOverwrites | server/src/routes/hod.js:26-34 | Rejection sets the status whatever it was and leaves every other report alone |
| HodRoutes.LastDecisionWins | server/src/routes/hod.js:16-34 | Approving then rejecting a report leaves it REJECTED: no transition rule protects a decided report |
| HodRoutes.ApproveIdempotent | server/src/routes/hod.js:16-24 | Approving twice gives the same store as approving once |
| HodRoutes.DecisionsValid | server/src/routes/hod.js:16-34 | Approval and rejection keep the store valid |
| HodRoutes.Staff | server/src/routes/hod.js:36-43 | 403 for non-HOD callers; HODs get exactly the STAFF-role users of the whole system |
| Paging.Pages | server/src/routes/admin.js:64-71 | `Math.ceil(total / limit)` exactly: for a positive limit the least page count covering the total; for a negative limit the least integer not below the negative quotient, so never positive; null (JSON for Infinity/NaN) for a zero limit |
| Paging.Paginate | server/src/routes/admin.js:36-71 | Fails exactly on a negative skip; otherwise, for a non-negative limit, the items are exactly the matches from the skip to the skip plus the limit, cut at the end, so a partial last page holds the remaining rows and a page past the end is empty; every page, negative limits included, is the contiguous run of matches the skip and limit select; page 1 with a limit at least the total is all of them |
| AdminRoutes.SanitizeForgetsOnlyHash | server/src/routes/admin.js:58-62 | Two users look the same after sanitising exactly when they differ at most in the password hash |
| AdminRoutes.DepartmentOf | server/src/routes/admin.js:45-46 | The included department is present exactly when the user's departmentId names an existing department, and it is that row |
| AdminRoutes.ListUsers | server/src/routes/admin.js:9-77 | 403 for non-ADMIN/HR; 500 for an unknown role or a negative skip; success exactly otherwise; the total counts the matching users, and the items are exactly the page at the skip of the matching users, newest first, each sanitised with its department, at most `limit` of them |
| AdminRoutes.ListUsersComplete | server/src/routes/admin.js:22-34 | Every user matching the role, department, active and search filters appears on a large enough first page |
| AdminRoutes.ListUsersNewestFirst | server/src/routes/admin.js:37-44 | The page is strictly descending by id |
| AdminRoutes.CreatedRole | server/src/routes/admin.js:110 | A valid requested role is used verbatim; no role means STAFF |
| Db.IdField | server/src/routes/admin.js:111 | An optional id field (a user's departmentId here, a department's hodId alike) is stored exactly when a non-zero id is given, and then unchanged |
| AdminRoutes.CreateUser | server/src/routes/admin.js:80-129 | 403, 400 missing fields, 400 invalid role, 409 duplicate and 400 invalid department, in that order, with the store unchanged, and success exactly when none applies; success appends exactly the described user (hashed password, role, department, active flag), answers 201 with the sanitised user, and may audit USER_CREATE |
| AdminRoutes.CreateUserValid | server/src/routes/admin.js:80-129 | Creating a user keeps the store valid |
| AdminRoutes.ChangedKeys | server/src/routes/admin.js:178 | The audited change list names each of the six fields exactly when the body carries it, names nothing else, and names each once |
| AdminRoutes.UpdateUser | server/src/routes/admin.js:132-187 | 403, 404, 400 invalid role, 409 email in use by another user, 400 invalid department, then 500 for an empty role or an empty email another user holds, in order, with the store unchanged; success exactly otherwise answers 200, rewrites only the target user, and each given field replaces the old value; an absent departmentId clears the department; the reply is the stored user after the update, without its hash and with its department; the audit entry, when written, is USER_UPDATE with the username, which the update never changes, the updater and the changed keys |
| AdminRoutes.ChangedEmailsDistinct | server/src/routes/admin.js:148-154 | An email no other user holds keeps the email column unique after the update |
| AdminRoutes.UpdateUserValid | server/src/routes/admin.js:132-187 | Updating a user keeps the store valid |
| AdminRoutes.RemoveUser | server/src/routes/admin.js:211-214 | Deletes exactly the user's comments, notifications, audit entries and row, and nulls `hodId` on the department the user headed |
| AdminRoutes.RemoveUserHasUser | server/src/routes/admin.js:211-214 | After the removal, exactly the other users remain |
| AdminRoutes.DeleteUser | server/src/routes/admin.js:190-226 | 403 for non-ADMIN, 404, 400 self-delete and 400 existing reports, in order; success exactly otherwise, removes the user with the cascade and audits with the pre-delete username |
| AdminRoutes.ReportsByCounted | server/src/routes/admin.js:203-208 | The handler's report-count guard is positive exactly when the user owns a report |
| AdminRoutes.DeleteUserValid | server/src/routes/admin.js:190-226 | Deleting a user keeps the store valid: reports block the delete, and everything else that pointed at the user goes with it |
| AdminRoutes.ResetPassword | server/src/routes/admin.js:229-257 | 403, then 400 for a password whose JavaScript length (UTF-16 code units) is under 8, checked before the user lookup, then 404; success exactly otherwise rewrites only the target's hash and audits USER_UPDATE "Password reset for" the username |
| AdminRoutes.Utf16Length | server/src/routes/admin.js:233 | The `length` the check reads lies between the character count and twice it; it equals the character count exactly when no character is above U+FFFF, and twice it exactly when every character is |
| AdminRoutes.ShortPasswordBeforeLookup | server/src/routes/admin.js:233-238 | A password that is too short gets the same reply whatever the store holds, because the length check comes before the user lookup |
| AdminRoutes.AstralPasswordLongEnough | server/src/routes/admin.js:233 | Four emoji are four characters but length 8, so they pass the check and the reset succeeds exactly when the user exists |
| AdminRoutes.ResetPasswordValid | server/src/routes/admin.js:229-257 | Resetting a password keeps the store valid |
| AdminRoutes.AuditLogs | server/src/routes/admin.js:260-315 | 403 for non-ADMIN, 500 on a negative skip, success exactly otherwise; the total counts the entries matching action and user, the pagination echoes page and limit (defaults 1 and 50) with pages = `Paging.Pages(total, limit)`, and the items are exactly the page at the skip of the matching entries, newest first, at most `limit` of them |
| AdminRoutes.NewestAuditFirst | server/src/routes/admin.js:284-299 | An audit entry that is written and matches the query is the first item of the first page, and the total grows by one |
| AdminRoutes.ReadSettings | server/src/routes/admin.js:318-338 | 403 for non-ADMIN; otherwise a map with the same keys, each key's value and description |
| AdminRoutes.UpsertAll | server/src/routes/admin.js:345-360 | Only entries with a value write; the keys afterwards are the old keys plus the written ones; untouched keys keep their setting; the last writing entry for a key sets its value and updater, and its description when given; a key given once without a description keeps the old one, or null when created |
| AdminRoutes.UpdateSettings | server/src/routes/admin.js:341-374 | 403 for non-ADMIN; 500 "Failed to update settings" exactly when some entry has no value, without an audit entry; otherwise 200; for ADMIN the settings are upserted as above either way, and success audits SETTINGS_UPDATE with the list of keys |
| AdminRoutes.UpdateSettingsValid | server/src/routes/admin.js:341-374 | Updating settings keeps the store valid |
| AdminRoutes.ReadAfterUpdate | server/src/routes/admin.js:318-374 | After updating settings, GET /settings shows each written key with the value of its last entry and the description it gave |
| AdminRoutes.AuditNeverDecides | server/src/middleware/auth.js:36-51 | Whether the audit insert succeeds changes neither the reply of creating or updating a user nor any table but the audit log |
| AdminRoutes.AuditNeverDecidesElsewhere | server/src/routes/admin.js:216-219 | The same for deleting a user and for resetting a password |
| AdminRoutes.SettingsAuditNeverDecides | server/src/routes/admin.js:364-369 | The same for updating settings |
| DepartmentRoutes.HeadErrorExact | server/src/routes/departments.js:78-89 | 400 "Invalid HOD user" exactly when the id is not an HOD-role user; 409 exactly when it is one but already heads another department |
| DepartmentRoutes.CreateDepartment | server/src/routes/departments.js:67-103 | 403, 400 missing name, 409 duplicate name, 400 when the head is not an HOD-role user, 409 when the head already heads a department, in that order, with the store unchanged; success exactly otherwise appends one department with the next id and the given name, description and head, answering 201 |
| DepartmentRoutes.CreateDepartmentValid | server/src/routes/departments.js:67-103 | Creating a department keeps names and heads unique and the store valid |
| DepartmentRoutes.UpdateDepartment | server/src/routes/departments.js:106-151 | 403, 404, 409 name held by another department, 400 head not an HOD-role user, 409 head of another department, then 500 for an empty name another department holds, in order, with the store unchanged; success exactly otherwise changes only the target department: name and description take the given values or stay, the head becomes the given id or null; the reply is the stored department after the update with its head; the audit entry, when written, names the new name |
| DepartmentRoutes.EditedUnique | server/src/routes/departments.js:115-136 | A new name nobody else uses and a head nobody else has keep names and heads unique |
| DepartmentRoutes.UpdateDepartmentValid | server/src/routes/departments.js:106-151 | Updating a department keeps the store valid |
| DepartmentRoutes.DeleteDepartment | server/src/routes/departments.js:154-189 | 403 for non-ADMIN, 404, 400 with assigned staff, 400 with reports, in order, with the store unchanged; success exactly when none applies, removing exactly that department and auditing USER_DELETE with its name |
| DepartmentRoutes.UnoccupiedCounts | server/src/routes/departments.js:158-178 | The two `_count`s the delete checks are both zero exactly when no user is assigned to the department and no report is filed under it |
| DepartmentRoutes.DeleteDepartmentValid | server/src/routes/departments.js:154-189 | Deleting a department keeps the store valid, because the guards leave nothing pointing at it |
| DepartmentRoutes.GetDepartment | server/src/routes/departments.js:30-64 | 404 exactly when the department is missing; otherwise it returns that row, its head exactly when `hodId` names an existing user, exactly the users assigned to it, and the number of reports filed under it |
| DepartmentRoutes.DetailPredictsDelete | server/src/routes/departments.js:154-189 | For an ADMIN and an existing department, the delete succeeds exactly when the detail view lists no staff and counts no reports |
| DepartmentRoutes.AssignStaff | server/src/routes/departments.js:192-230 | 403, 400 without an id array, 404 missing department, 400 "Some staff members not found" when the found users are not as many as the ids, in order; success moves exactly the listed users into the department, answers with the number of ids and audits the department and ids |
| DepartmentRoutes.CountListed | server/src/routes/departments.js:205-208 | The number of users found for the id list is the size of the intersection of its ids with the user ids |
| DepartmentRoutes.StaffFoundExactly | server/src/routes/departments.js:210-212 | The found-count equals the list length exactly when the list has no duplicates and every id is a user |
| DepartmentRoutes.AssignStaffAccepts | server/src/routes/departments.js:192-230 | Assignment succeeds exactly for a manager, an existing department, and a duplicate-free list of existing users; a manager naming an existing department and any other list gets 400 "Some staff members not found" |
| DepartmentRoutes.AssignStaffValid | server/src/routes/departments.js:192-230 | Assigning staff keeps the store valid |
| DepartmentRoutes.RemoveStaff | server/src/routes/departments.js:233-263 | 403, 404 department, 404 staff member, in order; success clears only that user's department and audits the department and the user |
| DepartmentRoutes.RemoveStaffChecksMembership | server/src/routes/departments.js:244-246 | For an existing user, removal succeeds exactly when the user belongs to this department; otherwise 400 "Staff member is not assigned to this department" |
| DepartmentRoutes.RemoveStaffValid | server/src/routes/departments.js:233-263 | Removing staff keeps the store valid |
| NotificationRoutes.List | server/src/routes/notifications.js:8-47 | 500 exactly on a negative skip; otherwise the unread count, the filtered total, page and limit (defaults 1/20) with pages = `Paging.Pages(total, limit)`, and items that are exactly the page at the skip of the caller's notifications passing the filter (unread only when `unreadOnly` is "true"), newest first, at most `limit` of them |
| NotificationRoutes.ListComplete | server/src/routes/notifications.js:12-13 | Every notification of the caller that passes the filter appears on a large enough first page |
| NotificationRoutes.ListNewestFirst | server/src/routes/notifications.js:22 | The page is newest first |
| NotificationRoutes.MarkRead | server/src/routes/notifications.js:50-65 | Succeeds exactly when the caller owns the notification, marking only it as read and returning that row with isRead true and every other field as it was; any other id answers 500 and changes nothing |
| NotificationRoutes.MarkReadCount | server/src/routes/notifications.js:50-65 | Marking one of one's notifications lowers the unread count by one exactly when it was unread |
| NotificationRoutes.MarkAllRead | server/src/routes/notifications.js:68-80 | All of the caller's notifications become read; everyone else's are untouched |
| NotificationRoutes.MarkAllReadClears | server/src/routes/notifications.js:68-80 | Afterwards the caller has no unread notification, and any other user's unread count is unchanged |
| NotificationRoutes.MarkAllReadIdempotent | server/src/routes/notifications.js:68-80 | Marking all read twice is the same as once |
| NotificationRoutes.Delete | server/src/routes/notifications.js:83-97 | Succeeds exactly when the caller owns the notification; afterwards it is gone and every other notification remains |
| NotificationRoutes.DeleteValid | server/src/routes/notifications.js:83-97 | Deleting a notification keeps the store valid |
| NotificationRoutes.UnreadCount | server/src/routes/notifications.js:100-111 | The count is the number of the caller's unread notifications, so it is zero exactly when there are none |
| DashboardRoutes.StatusPartition | server/src/routes/dashboard.js:61-65 | The report counts per status add up to the total, and "pending" in the performance metrics is SUBMITTED plus UNDER_REVIEW |
| DashboardRoutes.ApprovalRate | server/src/routes/dashboard.js:154 | The rate is 0 with no reports; otherwise it is approved/total·100 rounded to the nearest integer, at most 100, and exactly 100 when all are approved |
| DashboardRoutes.AnalyticsFilter | server/src/routes/dashboard.js:34-49 | STAFF see only their own reports; an HOD defaults to their own department; a departmentId query overrides it; an HOD whose row is missing makes the handler fail |
| DashboardRoutes.GetAnalytics | server/src/routes/dashboard.js:8-172 | 500 exactly in the missing-HOD case; otherwise per-status counts of the filtered reports, the approval rate as `ApprovalRate` of the approved and total counts (rounded half up, 0 with no reports), user and department totals only for ADMIN, and as recent activity the ten newest matching reports (all of them when fewer), newest first |
| DashboardRoutes.AnalyticsPartition | server/src/routes/dashboard.js:61-65 | Total = DRAFT + submitted + under review + approved + rejected |
| DashboardRoutes.StaffSeesOwnReports | server/src/routes/dashboard.js:35-36 | For a STAFF caller the analytics succeed and count no more reports than the caller owns, whatever departmentId is asked for |
| DashboardRoutes.MetricsFor | server/src/routes/dashboard.js:223-242 | A department's staff count, its report counts per status in the period, rate ≤ 100, approved + pending + rejected ≤ total, and rate and average 0 when it has no reports |
| DashboardRoutes.DepartmentPerformance | server/src/routes/dashboard.js:175-253 | 403 "Insufficient permissions" outside HOD/ADMIN/HR; otherwise one metrics entry per department, in order |
| DashboardRoutes.NullSizesAverageZero | server/src/routes/dashboard.js:240 | With no file sizes recorded (null adds as 0), the average file size is 0 |
| Server.Serve | server/src/index.js:44-46 | Outside the auth router, a request reaches its handler only through authentication, with the verified claims |
| Server.ProtectedNeedsToken | server/src/middleware/auth.js:6-8 | Every protected route without a bearer token answers 401 "Missing token" and changes nothing |
| Server.ProtectedNeedsValidToken | server/src/middleware/auth.js:9-15 | A token the verifier rejects answers 401 "Invalid token" and changes nothing |
| Server.HodRoutesRefuseOthers | server/src/routes/hod.js:7-43 | Every HOD route refuses any other role, ADMIN included, with 403 "Forbidden" and no change |
| Server.ReadsChangeNothing | server/src/index.js:44-46 | Login and the GET routes never change the store |
| Server.ServeValid | server/src/index.js:44-46 | Every request keeps a valid store valid |
| Server.LoginTokenAuthenticates | server/src/routes/auth.js:35-36 | When `verify` inverts `sign`, the token login returns authenticates as that account's id and role |

## Left out

- I/O, Express wiring, CORS, static file serving and the global error handler are not modelled. A multer error becomes the 500 reply, as that handler answers.
- The file system is not modelled: the upload directory and the written file. The time/random filename prefix is a parameter.
- bcrypt and jwt are function parameters; token expiry is not modelled.
- Dates are not modelled. `weekEnding` is kept as the given string. The dashboard period and the audit-log `dateFrom`/`dateTo` filters become the predicate `inPeriod`, or are dropped.
- `createdAt` ordering is modelled as insertion order: ids ascend with creation.
- `parseInt` of malformed ids and of page/limit queries (NaN) is not modelled: ids are integers, and queries are integers or absent.
- The request body may only carry the fields the handler reads. `null` values are modelled as absent.
- Schema facts absent from the source are assumptions:
  - a report starts SUBMITTED;
  - `fileSize` is never set;
  - a user is active by default;
  - deleting a department head sets `hodId` to null.
- Prisma's database failures (connection loss, timeouts) and the generic "Failed to …" 500 replies they cause are not modelled. The failures the inputs themselves cause are, including a `weekEnding` that `new Date` rejects (through `isDate`).
- Concurrency between requests is not modelled: each handler is one atomic step.
- The `include`/`select` projections of related rows are not modelled. Listings return the rows, or the rows with their staff user.
- The HOD report listing includes the full staff row, password hash included. The model returns the whole `User`, as the source does.
- GET /departments (the ordered department list with counts) is not modelled.
- GET /admin/stats is not modelled.
- GET /dashboard/activity is not modelled.
- The dashboard charts (reports by status, by department, monthly trends, top performers) are not modelled. They are groupBy aggregates over dates.
- `sortBy`/`sortOrder` of the audit-log listing are not modelled; the default newest-first order is used.
- AdminRoutes.ListUsers: the `sortBy`/`sortOrder` queries (admin.js:18-19, 37) are not modelled; the default newest-first order is used, so AdminRoutes.ListUsersNewestFirst speaks only of that order.
- The `search` filter of the user listing folds ASCII letters only.
- `Math.round` of a floating-point quotient is modelled as exact rounding half up, without floating-point error.
- AdminRoutes.ChangedKeys: states which fields are named, each once, but not their order in `Object.keys`.
- AdminRoutes.UpdateUserError: its own contract states only that a valid role passed. AdminRoutes.UpdateUser states each reply and when it is given.
- DepartmentRoutes.AssignStaff: a list naming the same user twice is refused with "Some staff members not found", because the handler compares the count of distinct found users with the list length. AssignStaff states the 400 in terms of that count; AssignStaffAccepts restates it as "duplicate-free list of existing users".
- Audit metadata beyond action, details, actor and the given fields is not modelled (IP address, user agent).
- DashboardRoutes.GetAnalytics: gives the replies the handler would send if its monthly-trends raw query (dashboard.js:86-98) succeeded. As written, that query interpolates an empty string, or a nested `$queryRaw` promise, into the SQL text as a bound parameter; on reading it fails for every caller, so the handler would answer 500 "Failed to fetch dashboard analytics".
- AdminRoutes.UpdateSettings: the Prisma schema is not part of this model. An entry without `value` is taken to be rejected whatever its key, because the same `data.value` feeds the upsert's create half, where `value` is taken to be a required column. The other upserts of the body are taken to land, since `Promise.all` does not cancel them.

=== FILE: admin_routes.dfy ===
/**
 * server/src/routes/admin.js: user administration (list, create, update,
 * delete, password reset), the audit-log listing and the system settings.
 *
 * Every route is behind `requireAuth` and `requireRoles`: ADMIN or HR for
 * the user routes except delete, ADMIN alone for delete, the audit log and
 * the settings. bcrypt is the oracle `hash`; whether the best-effort audit
 * write succeeds is the input `writeOk`.
 */
module AdminRoutes {
  import opened Wrappers
  import opened Seqs
  import opened Db
  import opened Paging
  import Middleware
  import AuthRoutes
  import ReportRoutes

  const USER_MANAGERS: seq<Role> := [ADMIN, HR]
  const ADMINS_ONLY: seq<Role> := [ADMIN]
  const FORBIDDEN: string := "Insufficient permissions"
  const MIN_PASSWORD_LENGTH: nat := 8

  /**
   * The `length` of a JavaScript string: its count of UTF-16 code units, in
   * which a character above U+FFFF takes two.
   */
  function Utf16Length(s: string): (n: nat)
    ensures |s| <= n <= 2 * |s|
    ensures n == |s| <==> forall i :: 0 <= i < |s| ==> s[i] as int <= 0xFFFF
    ensures n == 2 * |s| <==> forall i :: 0 <= i < |s| ==> s[i] as int > 0xFFFF
  {
    if |s| == 0 then 0
    else (if s[0] as int > 0xFFFF then 2 else 1) + Utf16Length(s[1..])
  }

  function Gate(caller: Claims, roles: seq<Role>): Middleware.Verdict<()>
  {
    Middleware.RequireRoles(Some(caller), roles)
  }

  // ----- the user object of a response: every column but the hash -----

  datatype Account = Account(
    id: Id,
    name: string,
    username: string,
    email: string,
    role: Role,
    departmentId: Option<Id>,
    phone: Option<string>,
    isActive: bool)

  function Sanitize(u: User): Account
  {
    Account(u.id, u.name, u.username, u.email, u.role, u.departmentId, u.phone, u.isActive)
  }

  /** Sanitising forgets the password hash and nothing else. */
  lemma SanitizeForgetsOnlyHash(u: User, v: User)
    ensures Sanitize(u) == Sanitize(v) <==> u.(passwordHash := v.passwordHash) == v
  {
    if Sanitize(u) == Sanitize(v) {
      assert u.id == v.id && u.name == v.name && u.username == v.username && u.email == v.email;
    }
  }

  /** `include: { department: true }`: the user's department row, if any. */
  function DepartmentOf(s: Store, u: User): (r: Option<Department>)
    ensures r.Some? <==> u.departmentId.Some? && HasDepartment(s, u.departmentId.value)
    ensures r.Some? ==> r.value in s.departments && r.value.id == u.departmentId.value
  {
    if u.departmentId.Some? then DepartmentById(s, u.departmentId.value) else None
  }

  /** A user as it appears in a single-user response. */
  datatype Profile = Profile(account: Account, department: Option<Department>)

  function ProfileOf(s: Store, u: User): Profile
  {
    Profile(Sanitize(u), DepartmentOf(s, u))
  }

  // ----- GET /users -----

  datatype UserQuery = UserQuery(
    page: Option<int>,
    limit: Option<int>,
    role: Option<string>,
    departmentId: Option<Id>,
    isActive: Option<string>,
    search: Option<string>)

  /** A listed user: the sanitised row, its department and its two `_count`s. */
  datatype UserView = UserView(account: Account, department: Option<Department>, reportCount: nat, unreadCount: nat)

  function View(s: Store, u: User): UserView
  {
    UserView(Sanitize(u), DepartmentOf(s, u), Count(s.reports, ReportRoutes.OwnedBy(u.id)), Count(s.notifications, UnreadOf(u.id)))
  }

  function ViewIn(s: Store): User -> UserView
  {
    (u: User) => View(s, u)
  }

  function ViewKey(v: UserView): int
  {
    v.account.id
  }

  /** The role filter of the query, when the query names a valid role. */
  function QueryRole(q: UserQuery): Option<Role>
  {
    if Given(q.role) then ParseRole(q.role.value) else None
  }

  /** The name, username or email contains `needle`, ignoring case. */
  predicate SearchHit(u: User, needle: string)
  {
    ContainsIgnoringCase(u.name, needle) || ContainsIgnoringCase(u.username, needle) || ContainsIgnoringCase(u.email, needle)
  }

  /** The `where` of the user listing. */
  function UserFilter(q: UserQuery, role: Option<Role>): User -> bool
  {
    (u: User) =>
      && (role.None? || u.role == role.value)
      && (q.departmentId.None? || u.departmentId == q.departmentId)
      && (q.isActive.None? || u.isActive == (q.isActive.value == "true"))
      && (!Given(q.search) || SearchHit(u, q.search.value))
  }

  /**
   * GET /users: the matching users, newest first, one page of them. An
   * unknown role name reaches Prisma as an invalid enum value and a negative
   * skip is rejected by Prisma: both answer 500.
   */
  function ListUsers(s: Store, caller: Claims, q: UserQuery): (r: Step<Listing<UserView>>)
    ensures r.store == s
    ensures caller.role !in USER_MANAGERS ==> r.reply == Fail(403, FORBIDDEN)
    ensures caller.role in USER_MANAGERS && Given(q.role) && ParseRole(q.role.value).None? ==>
              r.reply == Fail(500, "Failed to fetch users")
    ensures r.reply.Fail? ==> r.reply.code in {403, 500}
    ensures r.reply.Ok? <==>
              caller.role in USER_MANAGERS && !(Given(q.role) && ParseRole(q.role.value).None?) &&
              Skip(q.page.GetOr(1), q.limit.GetOr(20)) >= 0
    ensures r.reply.Ok? ==>
              var l := r.reply.value;
              && l.pagination.total == Count(s.users, UserFilter(q, QueryRole(q)))
              && l.pagination.pages == Pages(l.pagination.total, q.limit.GetOr(20))
              && (q.limit.GetOr(20) >= 0 ==> |l.items| <= q.limit.GetOr(20))
              && forall i :: 0 <= i < |l.items| ==> ViewOfMatch(s, UserFilter(q, QueryRole(q)), l.items[i])
    ensures r.reply.Ok? ==>
              ViewsOfPage(s, Matching(s, q), Skip(q.page.GetOr(1), q.limit.GetOr(20)), q.limit.GetOr(20), r.reply.value.items)
  {
    if Gate(caller, USER_MANAGERS).Deny? then Reject(s, 403, FORBIDDEN)
    else if Given(q.role) && ParseRole(q.role.value).None? then Reject(s, 500, "Failed to fetch users")
    else
      var matching := Matching(s, q);
      match Paginate(matching, q.page.GetOr(1), q.limit.GetOr(20))
      case None => Reject(s, 500, "Failed to fetch users")
      case Some(l) =>
        ViewsOfMatches(s, l.items, matching, UserFilter(q, QueryRole(q)));
        PageViewed(s, matching, Skip(q.page.GetOr(1), q.limit.GetOr(20)), q.limit.GetOr(20), l.items);
        Step(Ok(200, Listing(Map(l.items, ViewIn(s)), l.pagination)), s)
  }

  /** The users the query selects, newest first: the rows a page is cut from. */
  function Matching(s: Store, q: UserQuery): seq<User>
  {
    Reverse(Filter(s.users, UserFilter(q, QueryRole(q))))
  }

  /**
   * `views` shows, in order, the page of the ordered users `m` that skips
   * `skip` rows and takes `limit`.
   */
  ghost predicate ViewsOfPage(s: Store, m: seq<User>, skip: int, limit: int, views: seq<UserView>)
  {
    && skip >= 0
    && |views| == PageLength(|m|, skip, limit)
    && forall i :: 0 <= i < |views| ==>
         0 <= PageStart(|m|, skip, limit) + i < |m| && views[i] == View(s, m[PageStart(|m|, skip, limit) + i])
  }

  lemma PageViewed(s: Store, m: seq<User>, skip: int, limit: int, items: seq<User>)
    requires IsPage(m, skip, limit, items)
    ensures ViewsOfPage(s, m, skip, limit, Map(items, ViewIn(s)))
  {
    var start := PageStart(|m|, skip, limit);
    forall i | 0 <= i < |items|
      ensures 0 <= start + i < |m| && Map(items, ViewIn(s))[i] == View(s, m[start + i])
    {
      assert items[i] == m[start + i];
    }
  }

  /** `v` shows a stored user that passes the filter. */
  ghost predicate ViewOfMatch(s: Store, p: User -> bool, v: UserView)
  {
    exists u :: u in s.users && p(u) && v == View(s, u)
  }

  /** Every view of a page drawn from the matching users is the view of a matching user. */
  lemma ViewsOfMatches(s: Store, items: seq<User>, matching: seq<User>, p: User -> bool)
    requires matching == Reverse(Filter(s.users, p))
    requires forall x :: x in items ==> x in matching
    ensures forall i :: 0 <= i < |items| ==> ViewOfMatch(s, p, Map(items, ViewIn(s))[i])
  {
    forall i | 0 <= i < |items|
      ensures ViewOfMatch(s, p, Map(items, ViewIn(s))[i])
    {
      assert items[i] in matching;
      assert items[i] in Filter(s.users, p);
    }
  }

  /** A first page at least as long as the result lists every matching user. */
  lemma ListUsersComplete(s: Store, caller: Claims, q: UserQuery, u: User)
    requires caller.role in USER_MANAGERS && !(Given(q.role) && ParseRole(q.role.value).None?)
    requires q.page.GetOr(1) == 1 && q.limit.GetOr(20) >= Count(s.users, UserFilter(q, QueryRole(q)))
    requires u in s.users && UserFilter(q, QueryRole(q))(u)
    ensures ListUsers(s, caller, q).reply.Ok?
    ensures View(s, u) in ListUsers(s, caller, q).reply.value.items
  {
    var f := Filter(s.users, UserFilter(q, QueryRole(q)));
    var m := Matching(s, q);
    var k :| 0 <= k < |s.users| && s.users[k] == u;
    assert u in f;
    var j :| 0 <= j < |f| && f[j] == u;
    assert m[|f| - 1 - j] == u;
    var items := ListUsers(s, caller, q).reply.value.items;
    assert ViewsOfPage(s, m, 0, q.limit.GetOr(20), items);
    assert PageStart(|m|, 0, q.limit.GetOr(20)) == 0;
    assert items[|f| - 1 - j] == View(s, u);
  }

  /** The listing is newest first: ids strictly descend. */
  lemma ListUsersNewestFirst(s: Store, caller: Claims, q: UserQuery)
    requires Ordered(s)
    requires ListUsers(s, caller, q).reply.Ok?
    ensures Descending(ListUsers(s, caller, q).reply.value.items, ViewKey)
  {
    var f := Filter(s.users, UserFilter(q, QueryRole(q)));
    var matching := Reverse(f);
    assert Descending(matching, UserKey) by {
      FilterAscending(s.users, UserFilter(q, QueryRole(q)), UserKey);
      ReverseAscending(f, UserKey);
    }
    var l := Paginate(matching, q.page.GetOr(1), q.limit.GetOr(20)).value;
    assert ListUsers(s, caller, q).reply.value.items == Map(l.items, ViewIn(s));
    var lo, hi :| 0 <= lo <= hi <= |matching| && l.items == matching[lo..hi];
    DescendingSlice(matching, lo, hi, UserKey);
    DescendingViews(s, l.items);
  }

  lemma DescendingViews(s: Store, users: seq<User>)
    requires Descending(users, UserKey)
    ensures Descending(Map(users, ViewIn(s)), ViewKey)
  {
    var vs := Map(users, ViewIn(s));
    forall i, j | 0 <= i < j < |vs|
      ensures ViewKey(vs[i]) > ViewKey(vs[j])
    {
      assert UserKey(users[i]) > UserKey(users[j]);
    }
  }

  // ----- POST /users -----

  datatype NewUserBody = NewUserBody(
    name: Option<string>,
    username: Option<string>,
    email: Option<string>,
    password: Option<string>,
    role: Option<string>,
    departmentId: Option<Id>,
    phone: Option<string>,
    isActive: Option<bool>)

  predicate NewUserFieldsGiven(b: NewUserBody)
  {
    Given(b.name) && Given(b.username) && Given(b.email) && Given(b.password)
  }

  /** `role || 'STAFF'`, for a role that passed validation. */
  function CreatedRole(requested: Option<string>): (r: Role)
    requires Given(requested) ==> ParseRole(requested.value).Some?
    ensures Given(requested) ==> RoleName(r) == requested.value
    ensures !Given(requested) ==> r == STAFF
  {
    if Given(requested) then ParseRole(requested.value).value else STAFF
  }

  /** The validations of POST /users, in their order: the first failure wins. */
  function CreateUserError(s: Store, caller: Claims, b: NewUserBody): Option<(int, string)>
  {
    if Gate(caller, USER_MANAGERS).Deny? then Some((403, FORBIDDEN))
    else if !NewUserFieldsGiven(b) then Some((400, "Name, username, email, and password are required"))
    else if Given(b.role) && ParseRole(b.role.value).None? then Some((400, "Invalid role"))
    else if AuthRoutes.UsernameOrEmailTaken(s, b.username.value, b.email.value) then Some((409, "User already exists"))
    else if IdGiven(b.departmentId) && !HasDepartment(s, b.departmentId.value) then Some((400, "Invalid department"))
    else None
  }

  function CreateUser(s: Store, caller: Claims, b: NewUserBody, hash: string -> string, writeOk: bool): (r: Step<Profile>)
    ensures caller.role !in USER_MANAGERS ==> r == Reject(s, 403, FORBIDDEN)
    ensures caller.role in USER_MANAGERS && !NewUserFieldsGiven(b) ==>
              r == Reject(s, 400, "Name, username, email, and password are required")
    ensures caller.role in USER_MANAGERS && NewUserFieldsGiven(b) && Given(b.role) && ParseRole(b.role.value).None? ==>
              r == Reject(s, 400, "Invalid role")
    ensures caller.role in USER_MANAGERS && NewUserFieldsGiven(b) && !(Given(b.role) && ParseRole(b.role.value).None?) &&
            AuthRoutes.UsernameOrEmailTaken(s, b.username.value, b.email.value) ==>
              r == Reject(s, 409, "User already exists")
    ensures caller.role in USER_MANAGERS && NewUserFieldsGiven(b) && !(Given(b.role) && ParseRole(b.role.value).None?) &&
            !AuthRoutes.UsernameOrEmailTaken(s, b.username.value, b.email.value) &&
            IdGiven(b.departmentId) && !HasDepartment(s, b.departmentId.value) ==>
              r == Reject(s, 400, "Invalid department")
    ensures r.reply.Ok? <==>
              && caller.role in USER_MANAGERS
              && NewUserFieldsGiven(b)
              && !(Given(b.role) && ParseRole(b.role.value).None?)
              && !AuthRoutes.UsernameOrEmailTaken(s, b.username.value, b.email.value)
              && (IdGiven(b.departmentId) ==> HasDepartment(s, b.departmentId.value))
    ensures r.reply.Fail? ==> r.store == s
    ensures r.reply.Ok? ==>
              && r.reply.code == 201
              && |r.store.users| == |s.users| + 1
              && r.store.users[..|s.users|] == s.users
              && var u := r.store.users[|s.users|];
              && u.id == s.nextUserId && u.username == b.username.value && u.email == b.email.value
              && u.name == b.name.value && u.passwordHash == hash(b.password.value)
              && (Given(b.role) ==> RoleName(u.role) == b.role.value)
              && (!Given(b.role) ==> u.role == STAFF)
              && u.departmentId == IdField(b.departmentId)
              && u.phone == b.phone
              && u.isActive == b.isActive.GetOr(true)
              && r.reply.value.account == Sanitize(u)
              && r.store.(users := s.users, nextUserId := s.nextUserId, audit := s.audit) == s
              && r.store.nextUserId == s.nextUserId + 1
              && (r.store.audit == s.audit ||
                  r.store.audit == s.audit + [AuditEntry("USER_CREATE", "User created: " + u.username, caller.id,
                                                         map["userId" := Num(u.id), "createdBy" := Num(caller.id)])])
  {
    match CreateUserError(s, caller, b)
    case Some((code, error)) => Reject(s, code, error)
    case None =>
      var created := User(s.nextUserId, b.name.value, b.username.value, b.email.value, hash(b.password.value),
                          CreatedRole(b.role), IdField(b.departmentId), b.phone, b.isActive.GetOr(true));
      var t := s.(users := s.users + [created], nextUserId := s.nextUserId + 1);
      var logged := Middleware.AuditLog(t, "USER_CREATE", "User created: " + created.username, caller.id,
                                        map["userId" := Num(created.id), "createdBy" := Num(caller.id)], writeOk);
      assert logged.users == t.users;
      Step(Ok(201, ProfileOf(t, created)), logged)
  }

  lemma CreateUserValid(s: Store, caller: Claims, b: NewUserBody, hash: string -> string, writeOk: bool)
    requires Valid(s)
    ensures Valid(CreateUser(s, caller, b, hash, writeOk).store)
  {
    if CreateUserError(s, caller, b).None? {
      var created := User(s.nextUserId, b.name.value, b.username.value, b.email.value, hash(b.password.value),
                          CreatedRole(b.role), IdField(b.departmentId), b.phone, b.isActive.GetOr(true));
      var t := s.(users := s.users + [created], nextUserId := s.nextUserId + 1);
      var meta := map["userId" := Num(created.id), "createdBy" := Num(caller.id)];
      assert CreateUser(s, caller, b, hash, writeOk).store ==
             Middleware.AuditLog(t, "USER_CREATE", "User created: " + created.username, caller.id, meta, writeOk);
      assert Valid(t) by { AuthRoutes.AppendUserValid(s, created, t); }
      Middleware.AuditLogValid(t, "USER_CREATE", "User created: " + created.username, caller.id, meta, writeOk);
    }
  }

  // ----- PUT /users/:id -----

  /** The body of an update; an absent field is None. */
  datatype UserChanges = UserChanges(
    name: Option<string>,
    email: Option<string>,
    role: Option<string>,
    departmentId: Option<Id>,
    phone: Option<string>,
    isActive: Option<bool>)

  /** The fields an update body can carry. */
  datatype Field = NameField | EmailField | RoleField | DepartmentField | PhoneField | ActiveField

  /** The JSON key of a field. */
  function FieldName(f: Field): string
  {
    match f
    case NameField => "name"
    case EmailField => "email"
    case RoleField => "role"
    case DepartmentField => "departmentId"
    case PhoneField => "phone"
    case ActiveField => "isActive"
  }

  /** No two fields share a key: their keys already differ in the first letter. */
  lemma FieldNamesDiffer(f: Field, g: Field)
    ensures FieldName(f) == FieldName(g) <==> f == g
  {
    if FieldName(f) == FieldName(g) {
      assert FieldName(f)[0] == FieldName(g)[0];
    }
  }

  /** Every field, in the order the handler destructures them. */
  const FIELDS: seq<Field> := [NameField, EmailField, RoleField, DepartmentField, PhoneField, ActiveField]

  lemma FieldsDistinct()
    ensures Distinct(FIELDS, FieldName)
  {
    forall i, j | 0 <= i < |FIELDS| && 0 <= j < |FIELDS| && i != j
      ensures FieldName(FIELDS[i]) != FieldName(FIELDS[j])
    {
      FieldNamesDiffer(FIELDS[i], FIELDS[j]);
    }
  }

  lemma EveryFieldListed()
    ensures forall f :: f in FIELDS
  {
    forall f: Field ensures f in FIELDS {
      match f
      case NameField => assert FIELDS[0] == f;
      case EmailField => assert FIELDS[1] == f;
      case RoleField => assert FIELDS[2] == f;
      case DepartmentField => assert FIELDS[3] == f;
      case PhoneField => assert FIELDS[4] == f;
      case ActiveField => assert FIELDS[5] == f;
    }
  }

  predicate Carries(b: UserChanges, f: Field)
  {
    match f
    case NameField => b.name.Some?
    case EmailField => b.email.Some?
    case RoleField => b.role.Some?
    case DepartmentField => b.departmentId.Some?
    case PhoneField => b.phone.Some?
    case ActiveField => b.isActive.Some?
  }

  /** The fields the body carries, each once. */
  function Carried(b: UserChanges): (r: seq<Field>)
    ensures forall f :: f in r <==> Carries(b, f)
    ensures Distinct(r, FieldName)
  {
    FieldsDistinct();
    FilterDistinct(FIELDS, (f: Field) => Carries(b, f), FieldName);
    EveryFieldListed();
    FilterMembers(FIELDS, (f: Field) => Carries(b, f));
    Filter(FIELDS, (f: Field) => Carries(b, f))
  }

  /** The keys of distinct fields name exactly those fields, each once. */
  lemma NamesOfFields(fields: seq<Field>)
    requires Distinct(fields, FieldName)
    ensures forall f :: FieldName(f) in Map(fields, FieldName) <==> f in fields
    ensures NoDuplicates(Map(fields, FieldName))
  {
    var keys := Map(fields, FieldName);
    forall f | FieldName(f) in keys ensures f in fields {
      var i :| 0 <= i < |keys| && keys[i] == FieldName(f);
      FieldNamesDiffer(f, fields[i]);
    }
    forall f | f in fields ensures FieldName(f) in keys {
      var i :| 0 <= i < |fields| && fields[i] == f;
      assert keys[i] == FieldName(f);
    }
  }

  /** `Object.keys(req.body)` of the fields the body carries. */
  function ChangedKeys(b: UserChanges): (r: seq<string>)
    ensures "name" in r <==> b.name.Some?
    ensures "email" in r <==> b.email.Some?
    ensures "role" in r <==> b.role.Some?
    ensures "departmentId" in r <==> b.departmentId.Some?
    ensures "phone" in r <==> b.phone.Some?
    ensures "isActive" in r <==> b.isActive.Some?
    ensures NoDuplicates(r)
    ensures forall k :: k in r ==> exists f :: FieldName(f) == k
  {
    var keys := Map(Carried(b), FieldName);
    NamesOfFields(Carried(b));
    assert FieldName(NameField) == "name" && FieldName(EmailField) == "email" && FieldName(RoleField) == "role";
    assert FieldName(DepartmentField) == "departmentId" && FieldName(PhoneField) == "phone" && FieldName(ActiveField) == "isActive";
    keys
  }

  /** Some user other than `id` has this email. */
  predicate EmailHeldByOther(s: Store, email: string, id: Id)
  {
    exists i :: 0 <= i < |s.users| && s.users[i].email == email && s.users[i].id != id
  }

  /** The body names a new email that another user of the existing `userId` already holds. */
  predicate EmailClash(s: Store, userId: Id, b: UserChanges)
    requires HasUser(s, userId)
  {
    Given(b.email) && b.email.value != UserById(s, userId).value.email && EmailHeldByOther(s, b.email.value, userId)
  }

  /**
   * The row after `prisma.user.update`: an undefined field keeps its value,
   * except `departmentId`, which the handler always writes.
   */
  function Changed(b: UserChanges): User -> User
    requires b.role.Some? ==> ParseRole(b.role.value).Some?
  {
    (u: User) =>
      u.(name := b.name.GetOr(u.name),
         email := b.email.GetOr(u.email),
         role := if b.role.Some? then ParseRole(b.role.value).value else u.role,
         departmentId := IdField(b.departmentId),
         phone := if b.phone.Some? then b.phone else u.phone,
         isActive := b.isActive.GetOr(u.isActive))
  }

  /**
   * The validations of PUT /users/:id in their order. The last two are
   * Prisma failures the handler does not foresee: an empty role string
   * skips the role check and is not an enum value, and an empty email skips
   * the duplicate check and can violate the unique email column.
   */
  function UpdateUserError(s: Store, caller: Claims, userId: Id, b: UserChanges): (r: Option<(int, string)>)
    ensures r.None? ==> b.role.Some? ==> ParseRole(b.role.value).Some?
  {
    if Gate(caller, USER_MANAGERS).Deny? then Some((403, FORBIDDEN))
    else if !HasUser(s, userId) then Some((404, "User not found"))
    else if Given(b.role) && ParseRole(b.role.value).None? then Some((400, "Invalid role"))
    else if EmailClash(s, userId, b) then Some((409, "Email already in use"))
    else if IdGiven(b.departmentId) && !HasDepartment(s, b.departmentId.value) then Some((400, "Invalid department"))
    else if b.role == Some("") then Some((500, "Failed to update user"))
    else if b.email == Some("") && EmailHeldByOther(s, "", userId) then Some((500, "Failed to update user"))
    else None
  }

  function UpdateUser(s: Store, caller: Claims, userId: Id, b: UserChanges, writeOk: bool): (r: Step<Profile>)
    ensures caller.role !in USER_MANAGERS ==> r == Reject(s, 403, FORBIDDEN)
    ensures caller.role in USER_MANAGERS && !HasUser(s, userId) ==> r == Reject(s, 404, "User not found")
    ensures caller.role in USER_MANAGERS && HasUser(s, userId) && Given(b.role) && ParseRole(b.role.value).None? ==>
              r == Reject(s, 400, "Invalid role")
    ensures caller.role in USER_MANAGERS && HasUser(s, userId) && !(Given(b.role) && ParseRole(b.role.value).None?) &&
            EmailClash(s, userId, b) ==>
              r == Reject(s, 409, "Email already in use")
    ensures caller.role in USER_MANAGERS && HasUser(s, userId) && !(Given(b.role) && ParseRole(b.role.value).None?) &&
            !EmailClash(s, userId, b) && IdGiven(b.departmentId) && !HasDepartment(s, b.departmentId.value) ==>
              r == Reject(s, 400, "Invalid department")
    ensures caller.role in USER_MANAGERS && HasUser(s, userId) && !(Given(b.role) && ParseRole(b.role.value).None?) &&
            !EmailClash(s, userId, b) && (IdGiven(b.departmentId) ==> HasDepartment(s, b.departmentId.value)) &&
            (b.role == Some("") || (b.email == Some("") && EmailHeldByOther(s, "", userId))) ==>
              r == Reject(s, 500, "Failed to update user")
    ensures r.reply.Ok? <==>
              && caller.role in USER_MANAGERS
              && HasUser(s, userId)
              && (b.role.Some? ==> ParseRole(b.role.value).Some?)
              && !EmailClash(s, userId, b)
              && (IdGiven(b.departmentId) ==> HasDepartment(s, b.departmentId.value))
              && !(b.email == Some("") && EmailHeldByOther(s, "", userId))
    ensures r.reply.Fail? ==> r.store == s
    ensures r.reply.Ok? ==> r.reply.code == 200
    ensures r.reply.Ok? ==>
              && r.store.(users := s.users, audit := s.audit) == s
              && UsersUpdated(s.users, r.store.users, userId, b)
    ensures r.reply.Ok? ==>
              && UserById(r.store, userId).Some?
              && r.reply.value == ProfileOf(r.store, UserById(r.store, userId).value)
    ensures r.reply.Ok? ==>
              r.store.audit == s.audit ||
              r.store.audit == s.audit + [AuditEntry("USER_UPDATE", "User updated: " + UserById(s, userId).value.username, caller.id,
                                                     map["userId" := Num(userId), "updatedBy" := Num(caller.id), "changes" := Words(ChangedKeys(b))])]
  {
    match UpdateUserError(s, caller, userId, b)
    case Some((code, error)) => Reject(s, code, error)
    case None =>
      var users := MapWhere(s.users, WithId(userId), Changed(b));
      var updated := Changed(b)(UserById(s, userId).value);
      var t := s.(users := users);
      var logged := Middleware.AuditLog(t, "USER_UPDATE", "User updated: " + updated.username, caller.id,
                                        map["userId" := Num(userId), "updatedBy" := Num(caller.id), "changes" := Words(ChangedKeys(b))],
                                        writeOk);
      assert logged.users == users && logged.departments == s.departments;
      ChangedAsAsked(s.users, userId, b);
      FindMapWhere(s.users, WithId(userId), Changed(b));
      Step(Ok(200, ProfileOf(t, updated)), logged)
  }

  /**
   * `after` is `before` with the row of `userId` rewritten by the body: the
   * fields the body carries take its values, the rest keep theirs, the
   * department is always written, and every other row is untouched.
   */
  ghost predicate UsersUpdated(before: seq<User>, after: seq<User>, userId: Id, b: UserChanges)
  {
    && |after| == |before|
    && (forall i :: 0 <= i < |before| && before[i].id != userId ==> after[i] == before[i])
    && forall i :: 0 <= i < |before| && before[i].id == userId ==>
         var (old_, new_) := (before[i], after[i]);
         && new_.id == old_.id && new_.username == old_.username && new_.passwordHash == old_.passwordHash
         && new_.name == b.name.GetOr(old_.name)
         && new_.email == b.email.GetOr(old_.email)
         && (b.role.None? ==> new_.role == old_.role)
         && (b.role.Some? ==> RoleName(new_.role) == b.role.value)
         && (IdGiven(b.departmentId) ==> new_.departmentId == b.departmentId)
         && (!IdGiven(b.departmentId) ==> new_.departmentId.None?)
         && new_.phone == (if b.phone.Some? then b.phone else old_.phone)
         && new_.isActive == b.isActive.GetOr(old_.isActive)
  }

  lemma ChangedAsAsked(users: seq<User>, userId: Id, b: UserChanges)
    requires b.role.Some? ==> ParseRole(b.role.value).Some?
    ensures UsersUpdated(users, MapWhere(users, WithId(userId), Changed(b)), userId, b)
  {
  }

  /** The updated store, before the audit entry. */
  lemma UpdatedUsersValid(s: Store, caller: Claims, userId: Id, b: UserChanges)
    requires Valid(s) && UpdateUserError(s, caller, userId, b).None?
    ensures Valid(s.(users := MapWhere(s.users, WithId(userId), Changed(b))))
  {
    assert HasUser(s, userId) && !EmailClash(s, userId, b);
    assert IdGiven(b.departmentId) ==> HasDepartment(s, b.departmentId.value);
    var t := s.(users := MapWhere(s.users, WithId(userId), Changed(b)));
    var old_ := UserById(s, userId).value;
    assert b.email.None? || b.email.value == old_.email || !EmailHeldByOther(s, b.email.value, userId);
    assert Distinct(t.users, Email) by { ChangedEmailsDistinct(s, userId, b, old_); }
    ChangedDepartmentsExist(s, userId, b);
    UsersRewritten(s, t);
  }

  /** The rewritten row names a department only when the body gave an existing one. */
  lemma ChangedDepartmentsExist(s: Store, userId: Id, b: UserChanges)
    requires NoDangling(s)
    requires b.role.Some? ==> ParseRole(b.role.value).Some?
    requires IdGiven(b.departmentId) ==> HasDepartment(s, b.departmentId.value)
    ensures var us := MapWhere(s.users, WithId(userId), Changed(b));
            forall i :: 0 <= i < |us| && us[i].departmentId.Some? ==> HasDepartment(s, us[i].departmentId.value)
  {
    var us := MapWhere(s.users, WithId(userId), Changed(b));
    forall i | 0 <= i < |us| && us[i].departmentId.Some?
      ensures HasDepartment(s, us[i].departmentId.value)
    {
      if s.users[i].id == userId {
        assert us[i].departmentId == IdField(b.departmentId);
      } else {
        assert us[i] == s.users[i];
      }
    }
  }

  /** An email that no other user holds keeps the email column unique. */
  lemma ChangedEmailsDistinct(s: Store, userId: Id, b: UserChanges, old_: User)
    requires Distinct(s.users, Email) && Ascending(s.users, UserKey)
    requires b.role.Some? ==> ParseRole(b.role.value).Some?
    requires old_ in s.users && old_.id == userId
    requires b.email.None? || b.email.value == old_.email || !EmailHeldByOther(s, b.email.value, userId)
    ensures Distinct(MapWhere(s.users, WithId(userId), Changed(b)), Email)
  {
    var us := MapWhere(s.users, WithId(userId), Changed(b));
    AscendingDistinct(s.users, UserKey);
    var k :| 0 <= k < |s.users| && s.users[k] == old_;
    forall i, j | 0 <= i < |us| && 0 <= j < |us| && i != j
      ensures Email(us[i]) != Email(us[j])
    {
      assert UserKey(s.users[i]) != UserKey(s.users[j]);
      assert Email(s.users[i]) != Email(s.users[j]);
      if s.users[i].id == userId {
        assert i == k by { assert UserKey(s.users[i]) == UserKey(s.users[k]); }
      } else if s.users[j].id == userId {
        assert j == k by { assert UserKey(s.users[j]) == UserKey(s.users[k]); }
      }
    }
  }

  lemma UpdateUserValid(s: Store, caller: Claims, userId: Id, b: UserChanges, writeOk: bool)
    requires Valid(s)
    ensures Valid(UpdateUser(s, caller, userId, b, writeOk).store)
  {
    if UpdateUserError(s, caller, userId, b).None? {
      var t := s.(users := MapWhere(s.users, WithId(userId), Changed(b)));
      var updated := Changed(b)(UserById(s, userId).value);
      var meta := map["userId" := Num(userId), "updatedBy" := Num(caller.id), "changes" := Words(ChangedKeys(b))];
      assert UpdateUser(s, caller, userId, b, writeOk).store ==
             Middleware.AuditLog(t, "USER_UPDATE", "User updated: " + updated.username, caller.id, meta, writeOk);
      assert Valid(t) by { UpdatedUsersValid(s, caller, userId, b); }
      Middleware.AuditLogValid(t, "USER_UPDATE", "User updated: " + updated.username, caller.id, meta, writeOk);
    }
  }

  // ----- DELETE /users/:id -----

  function NotUser(id: Id): User -> bool { (u: User) => u.id != id }
  function NotAuthoredBy(id: Id): Comment -> bool { (c: Comment) => c.authorId != id }
  function NotAddressedTo(id: Id): Notification -> bool { (n: Notification) => n.userId != id }
  function NotActor(id: Id): AuditEntry -> bool { (e: AuditEntry) => e.userId != id }
  function HeadedBy(id: Id): Department -> bool { (d: Department) => d.hodId == Some(id) }
  function ClearHead(d: Department): Department { d.(hodId := None) }

  /**
   * The deletes of the handler, in order: the user's comments, notifications
   * and audit entries, then the row itself, whose deletion sets the `hodId`
   * of a department it headed to null.
   */
  function RemoveUser(s: Store, id: Id): (t: Store)
    ensures t.(users := s.users, departments := s.departments, comments := s.comments,
               notifications := s.notifications, audit := s.audit) == s
    ensures forall i :: 0 <= i < |t.users| ==> t.users[i] in s.users && t.users[i].id != id
    ensures forall i :: 0 <= i < |s.users| && s.users[i].id != id ==> s.users[i] in t.users
    ensures forall i :: 0 <= i < |t.comments| ==> t.comments[i] in s.comments && t.comments[i].authorId != id
    ensures forall i :: 0 <= i < |s.comments| && s.comments[i].authorId != id ==> s.comments[i] in t.comments
    ensures forall i :: 0 <= i < |t.notifications| ==> t.notifications[i] in s.notifications && t.notifications[i].userId != id
    ensures forall i :: 0 <= i < |s.notifications| && s.notifications[i].userId != id ==> s.notifications[i] in t.notifications
    ensures forall i :: 0 <= i < |t.audit| ==> t.audit[i] in s.audit && t.audit[i].userId != id
    ensures forall i :: 0 <= i < |s.audit| && s.audit[i].userId != id ==> s.audit[i] in t.audit
    ensures |t.departments| == |s.departments|
    ensures forall i :: 0 <= i < |s.departments| ==>
              t.departments[i] == if s.departments[i].hodId == Some(id) then s.departments[i].(hodId := None) else s.departments[i]
  {
    s.(comments := Filter(s.comments, NotAuthoredBy(id)),
       notifications := Filter(s.notifications, NotAddressedTo(id)),
       audit := Filter(s.audit, NotActor(id)),
       users := Filter(s.users, NotUser(id)),
       departments := MapWhere(s.departments, HeadedBy(id), ClearHead))
  }

  /** After the removal exactly the other users remain. */
  lemma RemoveUserHasUser(s: Store, id: Id, x: Id)
    ensures HasUser(RemoveUser(s, id), x) <==> HasUser(s, x) && x != id
  {
    var t := RemoveUser(s, id);
    if HasUser(s, x) && x != id {
      var i :| 0 <= i < |s.users| && s.users[i].id == x;
      assert s.users[i] in t.users;
    }
    if HasUser(t, x) {
      var i :| 0 <= i < |t.users| && t.users[i].id == x;
      assert t.users[i] in s.users;
    }
  }

  /** A report by `staffId` exists. */
  predicate HasReportsBy(s: Store, staffId: Id)
  {
    exists i :: 0 <= i < |s.reports| && s.reports[i].staffId == staffId
  }

  function DeleteUser(s: Store, caller: Claims, userId: Id, writeOk: bool): (r: Step<string>)
    ensures caller.role != ADMIN ==> r == Reject(s, 403, FORBIDDEN)
    ensures caller.role == ADMIN && !HasUser(s, userId) ==> r == Reject(s, 404, "User not found")
    ensures caller.role == ADMIN && HasUser(s, userId) && userId == caller.id ==>
              r == Reject(s, 400, "Cannot delete your own account")
    ensures caller.role == ADMIN && HasUser(s, userId) && userId != caller.id && HasReportsBy(s, userId) ==>
              r == Reject(s, 400, "Cannot delete user with existing reports. Deactivate instead.")
    ensures r.reply.Fail? ==> r.store == s
    ensures r.reply.Ok? <==> caller.role == ADMIN && HasUser(s, userId) && userId != caller.id && !HasReportsBy(s, userId)
    ensures r.reply.Ok? ==>
              && r.reply == Ok(200, "User deleted successfully")
              && r.store.(audit := s.audit) == RemoveUser(s, userId).(audit := s.audit)
              && !HasUser(r.store, userId)
              && var removed := RemoveUser(s, userId).audit;
              && (r.store.audit == removed ||
                  r.store.audit == removed + [AuditEntry("USER_DELETE", "User deleted: " + UserById(s, userId).value.username,
                                                         caller.id, map["deletedUserId" := Num(userId), "deletedBy" := Num(caller.id)])])
  {
    if Gate(caller, ADMINS_ONLY).Deny? then Reject(s, 403, FORBIDDEN)
    else
      match UserById(s, userId)
      case None => Reject(s, 404, "User not found")
      case Some(u) =>
        ReportsByCounted(s, userId);
        if userId == caller.id then Reject(s, 400, "Cannot delete your own account")
        else if Count(s.reports, ReportRoutes.OwnedBy(userId)) > 0 then
          Reject(s, 400, "Cannot delete user with existing reports. Deactivate instead.")
        else
          RemoveUserHasUser(s, userId, userId);
          Step(Ok(200, "User deleted successfully"),
               Middleware.AuditLog(RemoveUser(s, userId), "USER_DELETE", "User deleted: " + u.username, caller.id,
                                   map["deletedUserId" := Num(userId), "deletedBy" := Num(caller.id)], writeOk))
  }

  /** The count guard of the handler and the existence of a report agree. */
  lemma ReportsByCounted(s: Store, userId: Id)
    ensures HasReportsBy(s, userId) <==> Count(s.reports, ReportRoutes.OwnedBy(userId)) > 0
  {
    CountZero(s.reports, ReportRoutes.OwnedBy(userId));
    if HasReportsBy(s, userId) {
      var i :| 0 <= i < |s.reports| && s.reports[i].staffId == userId;
      assert ReportRoutes.OwnedBy(userId)(s.reports[i]);
    }
  }

  lemma RemoveUserOrdered(s: Store, id: Id)
    requires IdsBelowCounters(s) && Ordered(s)
    ensures IdsBelowCounters(RemoveUser(s, id)) && Ordered(RemoveUser(s, id))
  {
    var t := RemoveUser(s, id);
    FilterAscending(s.users, NotUser(id), UserKey);
    FilterAscending(s.comments, NotAuthoredBy(id), CommentKey);
    FilterAscending(s.notifications, NotAddressedTo(id), NotificationKey);
    forall i, j | 0 <= i < j < |t.departments|
      ensures DepartmentKey(t.departments[i]) < DepartmentKey(t.departments[j])
    {
      assert DepartmentKey(s.departments[i]) < DepartmentKey(s.departments[j]);
    }
    forall i | 0 <= i < |t.users|
      ensures 0 < t.users[i].id < t.nextUserId
    {
      assert t.users[i] in s.users;
    }
    forall i | 0 <= i < |t.departments|
      ensures 0 < t.departments[i].id < t.nextDepartmentId
    {
      assert t.departments[i].id == s.departments[i].id;
    }
  }

  lemma RemoveUserUnique(s: Store, id: Id)
    requires UniqueColumns(s)
    ensures UniqueColumns(RemoveUser(s, id))
  {
    var t := RemoveUser(s, id);
    FilterDistinct(s.users, NotUser(id), Username);
    FilterDistinct(s.users, NotUser(id), Email);
    forall i, j | 0 <= i < |t.departments| && 0 <= j < |t.departments| && i != j
      ensures DepartmentName(t.departments[i]) != DepartmentName(t.departments[j])
    {
      assert DepartmentName(s.departments[i]) != DepartmentName(s.departments[j]);
    }
    forall i, j | 0 <= i < |t.departments| && 0 <= j < |t.departments| && i != j && t.departments[i].hodId.Some?
      ensures t.departments[i].hodId != t.departments[j].hodId
    {
      assert s.departments[i].hodId != s.departments[j].hodId;
    }
  }

  lemma RemoveUserRefs(s: Store, id: Id)
    requires NoDangling(s) && !HasReportsBy(s, id)
    ensures NoDangling(RemoveUser(s, id))
  {
    var t := RemoveUser(s, id);
    forall x | HasUser(s, x) && x != id
      ensures HasUser(t, x)
    {
      RemoveUserHasUser(s, id, x);
    }
    forall x | HasDepartment(s, x)
      ensures HasDepartment(t, x)
    {
      var i :| 0 <= i < |s.departments| && s.departments[i].id == x;
      assert t.departments[i].id == x;
    }
    forall i | 0 <= i < |t.users| && t.users[i].departmentId.Some?
      ensures HasDepartment(t, t.users[i].departmentId.value)
    {
      assert t.users[i] in s.users;
    }
    forall i | 0 <= i < |t.comments|
      ensures HasUser(t, t.comments[i].authorId) && HasReport(t, t.comments[i].reportId)
    {
      assert t.comments[i] in s.comments;
    }
    forall i | 0 <= i < |t.notifications|
      ensures HasUser(t, t.notifications[i].userId)
    {
      assert t.notifications[i] in s.notifications;
    }
    forall i | 0 <= i < |t.audit|
      ensures HasUser(t, t.audit[i].userId)
    {
      assert t.audit[i] in s.audit;
    }
    forall i | 0 <= i < |t.departments| && t.departments[i].hodId.Some?
      ensures HasUser(t, t.departments[i].hodId.value)
    {
      assert t.departments[i].hodId == s.departments[i].hodId;
    }
  }

  /**
   * A successful delete leaves a valid store: no report can point at the
   * removed user, and everything else that did went with it.
   */
  lemma DeleteUserValid(s: Store, caller: Claims, userId: Id, writeOk: bool)
    requires Valid(s)
    ensures Valid(DeleteUser(s, caller, userId, writeOk).store)
  {
    var r := DeleteUser(s, caller, userId, writeOk);
    if r.reply.Ok? {
      var u := UserById(s, userId).value;
      ReportsByCounted(s, userId);
      assert Count(s.reports, ReportRoutes.OwnedBy(userId)) == 0 && userId != caller.id;
      var t := RemoveUser(s, userId);
      var meta := map["deletedUserId" := Num(userId), "deletedBy" := Num(caller.id)];
      assert r.store == Middleware.AuditLog(t, "USER_DELETE", "User deleted: " + u.username, caller.id, meta, writeOk);
      RemoveUserValid(s, userId);
      Middleware.AuditLogValid(t, "USER_DELETE", "User deleted: " + u.username, caller.id, meta, writeOk);
    }
  }

  lemma RemoveUserValid(s: Store, id: Id)
    requires Valid(s) && !HasReportsBy(s, id)
    ensures Valid(RemoveUser(s, id))
  {
    RemoveUserOrdered(s, id);
    RemoveUserUnique(s, id);
    RemoveUserRefs(s, id);
  }

  // ----- POST /users/:id/reset-password -----

  function SetHash(h: string): User -> User
  {
    (u: User) => u.(passwordHash := h)
  }

  function ResetPassword(s: Store, caller: Claims, userId: Id, newPassword: Option<string>, hash: string -> string, writeOk: bool): (r: Step<string>)
    ensures caller.role !in USER_MANAGERS ==> r == Reject(s, 403, FORBIDDEN)
    ensures caller.role in USER_MANAGERS && (newPassword.None? || Utf16Length(newPassword.value) < MIN_PASSWORD_LENGTH) ==>
              r == Reject(s, 400, "New password must be at least 8 characters")
    ensures caller.role in USER_MANAGERS && newPassword.Some? && Utf16Length(newPassword.value) >= MIN_PASSWORD_LENGTH && !HasUser(s, userId) ==>
              r == Reject(s, 404, "User not found")
    ensures r.reply.Fail? ==> r.store == s
    ensures r.reply.Ok? <==>
              caller.role in USER_MANAGERS && newPassword.Some? && Utf16Length(newPassword.value) >= MIN_PASSWORD_LENGTH && HasUser(s, userId)
    ensures r.reply.Ok? ==>
              && r.reply == Ok(200, "Password reset successfully")
              && r.store.(users := s.users, audit := s.audit) == s
              && |r.store.users| == |s.users|
              && (forall i :: 0 <= i < |s.users| ==>
                    r.store.users[i] == if s.users[i].id == userId then s.users[i].(passwordHash := hash(newPassword.value)) else s.users[i])
              && (r.store.audit == s.audit ||
                  r.store.audit == s.audit + [AuditEntry("USER_UPDATE", "Password reset for: " + UserById(s, userId).value.username, caller.id,
                                                         map["userId" := Num(userId), "resetBy" := Num(caller.id)])])
  {
    if Gate(caller, USER_MANAGERS).Deny? then Reject(s, 403, FORBIDDEN)
    else if newPassword.None? || Utf16Length(newPassword.value) < MIN_PASSWORD_LENGTH then
      Reject(s, 400, "New password must be at least 8 characters")
    else
      match UserById(s, userId)
      case None => Reject(s, 404, "User not found")
      case Some(u) =>
        var t := s.(users := MapWhere(s.users, WithId(userId), SetHash(hash(newPassword.value))));
        Step(Ok(200, "Password reset successfully"),
             Middleware.AuditLog(t, "USER_UPDATE", "Password reset for: " + u.username, caller.id,
                                 map["userId" := Num(userId), "resetBy" := Num(caller.id)], writeOk))
  }

  /** A too-short password is refused whatever the store holds. */
  lemma ShortPasswordBeforeLookup(s: Store, s': Store, caller: Claims, userId: Id, password: string,
                                  hash: string -> string, writeOk: bool)
    requires caller.role in USER_MANAGERS && Utf16Length(password) < MIN_PASSWORD_LENGTH
    ensures ResetPassword(s, caller, userId, Some(password), hash, writeOk).reply ==
            ResetPassword(s', caller, userId, Some(password), hash, writeOk).reply
  {
  }

  /**
   * Four characters outside the Basic Multilingual Plane make a string of
   * length 8, so they pass the length check and the reset goes through
   * whenever the user exists.
   */
  lemma AstralPasswordLongEnough(s: Store, caller: Claims, userId: Id, hash: string -> string, writeOk: bool)
    requires caller.role in USER_MANAGERS
    ensures var password := "\U{1F600}\U{1F600}\U{1F600}\U{1F600}";
            && |password| == 4
            && (ResetPassword(s, caller, userId, Some(password), hash, writeOk).reply.Ok? <==> HasUser(s, userId))
  {
    var password := "\U{1F600}\U{1F600}\U{1F600}\U{1F600}";
    assert Utf16Length(password) == 2 * |password|;
  }

  lemma ResetPasswordValid(s: Store, caller: Claims, userId: Id, newPassword: Option<string>, hash: string -> string, writeOk: bool)
    requires Valid(s)
    ensures Valid(ResetPassword(s, caller, userId, newPassword, hash, writeOk).store)
  {
    var r := ResetPassword(s, caller, userId, newPassword, hash, writeOk);
    if r.reply.Ok? {
      var t := s.(users := MapWhere(s.users, WithId(userId), SetHash(hash(newPassword.value))));
      var u := UserById(s, userId).value;
      var meta := map["userId" := Num(userId), "resetBy" := Num(caller.id)];
      assert r.store == Middleware.AuditLog(t, "USER_UPDATE", "Password reset for: " + u.username, caller.id, meta, writeOk);
      assert Valid(t) by { HashesRewrittenValid(s, t, userId, hash(newPassword.value)); }
      Middleware.AuditLogValid(t, "USER_UPDATE", "Password reset for: " + u.username, caller.id, meta, writeOk);
    }
  }

  lemma HashesRewrittenValid(s: Store, t: Store, userId: Id, h: string)
    requires Valid(s) && t == s.(users := MapWhere(s.users, WithId(userId), SetHash(h)))
    ensures Valid(t)
  {
    forall i, j | 0 <= i < |t.users| && 0 <= j < |t.users| && i != j
      ensures Email(t.users[i]) != Email(t.users[j])
    {
      assert Email(s.users[i]) != Email(s.users[j]);
    }
    UsersRewritten(s, t);
  }

  // ----- GET /audit-logs -----

  datatype AuditQuery = AuditQuery(page: Option<int>, limit: Option<int>, action: Option<string>, userId: Option<Id>)

  function AuditFilter(q: AuditQuery): AuditEntry -> bool
  {
    (e: AuditEntry) => (!Given(q.action) || e.action == q.action.value) && (q.userId.None? || e.userId == q.userId.value)
  }

  /** The entries the audit listing pages through: the matching ones, newest first. */
  function AuditMatching(s: Store, q: AuditQuery): seq<AuditEntry>
  {
    Reverse(Filter(s.audit, AuditFilter(q)))
  }

  /** GET /audit-logs: the matching entries, newest first, one page of them. */
  function AuditLogs(s: Store, caller: Claims, q: AuditQuery): (r: Step<Listing<AuditEntry>>)
    ensures r.store == s
    ensures caller.role != ADMIN ==> r.reply == Fail(403, FORBIDDEN)
    ensures r.reply.Ok? <==> caller.role == ADMIN && Skip(q.page.GetOr(1), q.limit.GetOr(50)) >= 0
    ensures r.reply.Fail? && caller.role == ADMIN ==> r.reply == Fail(500, "Failed to fetch audit logs")
    ensures r.reply.Ok? ==>
              && r.reply.value.pagination.total == Count(s.audit, AuditFilter(q))
              && r.reply.value.pagination ==
                   Pagination(q.page.GetOr(1), q.limit.GetOr(50), r.reply.value.pagination.total,
                              Pages(r.reply.value.pagination.total, q.limit.GetOr(50)))
              && (q.limit.GetOr(50) >= 0 ==> |r.reply.value.items| <= q.limit.GetOr(50))
              && forall i :: 0 <= i < |r.reply.value.items| ==>
                   r.reply.value.items[i] in s.audit && AuditFilter(q)(r.reply.value.items[i])
    ensures r.reply.Ok? ==> IsPage(AuditMatching(s, q), Skip(q.page.GetOr(1), q.limit.GetOr(50)), q.limit.GetOr(50), r.reply.value.items)
  {
    if Gate(caller, ADMINS_ONLY).Deny? then Reject(s, 403, FORBIDDEN)
    else
      var matching := AuditMatching(s, q);
      assert forall x :: x in matching ==> x in Filter(s.audit, AuditFilter(q));
      match Paginate(matching, q.page.GetOr(1), q.limit.GetOr(50))
      case None => Reject(s, 500, "Failed to fetch audit logs")
      case Some(l) => Step(Ok(200, l), s)
  }

  /**
   * An audit write that succeeds and matches the query is the first row of
   * the first page of GET /audit-logs, and the total grows by one.
   */
  lemma NewestAuditFirst(s: Store, caller: Claims, q: AuditQuery, action: string, details: string, actor: Id, metadata: Metadata)
    requires caller.role == ADMIN && HasUser(s, actor)
    requires q.page.GetOr(1) == 1 && q.limit.GetOr(50) > 0
    requires AuditFilter(q)(AuditEntry(action, details, actor, metadata))
    ensures var after := AuditLogs(Middleware.AuditLog(s, action, details, actor, metadata, true), caller, q).reply;
            && after.Ok? && |after.value.items| > 0
            && after.value.items[0] == AuditEntry(action, details, actor, metadata)
            && after.value.pagination.total == Count(s.audit, AuditFilter(q)) + 1
  {
    var e := AuditEntry(action, details, actor, metadata);
    var t := Middleware.AuditLog(s, action, details, actor, metadata, true);
    assert t.audit == s.audit + [e];
    FilterAppend(s.audit, e, AuditFilter(q));
    var m := AuditMatching(t, q);
    assert m[0] == e;
    var limit := q.limit.GetOr(50);
    assert PageStart(|m|, 0, limit) == 0;
    assert PageLength(|m|, 0, limit) > 0;
  }

  // ----- GET and PUT /settings -----

  /** A setting as GET /settings shows it. */
  datatype SettingView = SettingView(value: string, description: Option<string>)

  function ReadSettings(s: Store, caller: Claims): (r: Step<map<string, SettingView>>)
    ensures r.store == s
    ensures caller.role != ADMIN ==> r.reply == Fail(403, FORBIDDEN)
    ensures caller.role == ADMIN ==> r.reply.Ok? && r.reply.code == 200
    ensures r.reply.Ok? ==>
              && r.reply.value.Keys == s.settings.Keys
              && forall k :: k in s.settings ==>
                   r.reply.value[k] == SettingView(s.settings[k].value, s.settings[k].description)
  {
    if Gate(caller, ADMINS_ONLY).Deny? then Reject(s, 403, FORBIDDEN)
    else Step(Ok(200, map k | k in s.settings :: SettingView(s.settings[k].value, s.settings[k].description)), s)
  }

  /** One `data` of the settings body; either of its fields may be absent. */
  datatype SettingInput = SettingInput(value: Option<string>, description: Option<string>)

  /**
   * Whether the entry gives a value. The upsert passes `data.value` to its
   * create half, where the column is required, so an entry without one is
   * rejected and writes nothing.
   */
  predicate Valued(e: (string, SettingInput))
  {
    e.1.value.Some?
  }

  /** Whether every entry gives a value, so that no upsert is rejected. */
  predicate AllValued(entries: seq<(string, SettingInput)>)
  {
    forall i :: 0 <= i < |entries| ==> Valued(entries[i])
  }

  function EntryKeys(entries: seq<(string, SettingInput)>): (r: seq<string>)
    ensures |r| == |entries|
    ensures forall i :: 0 <= i < |entries| ==> r[i] == entries[i].0 && entries[i].0 in r
  {
    Map(entries, (e: (string, SettingInput)) => e.0)
  }

  /** The keys the upserts write: those of the entries that give a value. */
  function WrittenKeys(entries: seq<(string, SettingInput)>): seq<string>
  {
    EntryKeys(Filter(entries, Valued))
  }

  /** A key is written exactly when some entry giving a value has it. */
  lemma WrittenKeysMembers(entries: seq<(string, SettingInput)>)
    ensures forall i :: 0 <= i < |entries| && Valued(entries[i]) ==> entries[i].0 in WrittenKeys(entries)
    ensures forall k :: k in WrittenKeys(entries) ==> exists i :: 0 <= i < |entries| && Valued(entries[i]) && entries[i].0 == k
  {
    var given := Filter(entries, Valued);
    var r := WrittenKeys(entries);
    assert forall i :: 0 <= i < |entries| && Valued(entries[i]) ==> entries[i] in given;
    forall k | k in r ensures exists i :: 0 <= i < |entries| && Valued(entries[i]) && entries[i].0 == k {
      var j :| 0 <= j < |r| && r[j] == k;
      assert given[j] in entries;
    }
  }

  /** No later entry that writes has the same key as entry `i`. */
  predicate LastFor(entries: seq<(string, SettingInput)>, i: int)
    requires 0 <= i < |entries|
  {
    forall j :: i < j < |entries| && Valued(entries[j]) ==> entries[j].0 != entries[i].0
  }

  /** No other entry has the same key as entry `i`, as in a JSON object. */
  predicate OnlyFor(entries: seq<(string, SettingInput)>, i: int)
    requires 0 <= i < |entries|
  {
    forall j :: 0 <= j < |entries| && j != i ==> entries[j].0 != entries[i].0
  }

  lemma WrittenKeysSnoc(entries: seq<(string, SettingInput)>)
    requires |entries| > 0
    ensures var n := |entries| - 1;
            WrittenKeys(entries) == WrittenKeys(entries[..n]) + if Valued(entries[n]) then [entries[n].0] else []
  {
    var n := |entries| - 1;
    assert entries == entries[..n] + [entries[n]];
    FilterAppend(entries[..n], entries[n], Valued);
  }

  /**
   * `systemSettings.upsert` for one entry: nothing without a value;
   * otherwise an update keeps the old description when none is given and a
   * create stores null.
   */
  function Upsert(settings: map<string, Setting>, key: string, input: SettingInput, actor: Id): map<string, Setting>
  {
    if input.value.None? then settings
    else
      var description := if input.description.Some? then input.description
                         else if key in settings then settings[key].description else None;
      settings[key := Setting(input.value.value, description, actor)]
  }

  /**
   * `r` is what upserting every entry into `settings` must give: the keys of
   * both, untouched keys as they were, the last entry for a key deciding its
   * value and updater, and a key given once without a description keeping
   * the old one (null when it is created).
   */
  ghost predicate Upserted(settings: map<string, Setting>, entries: seq<(string, SettingInput)>, actor: Id, r: map<string, Setting>)
  {
    UpsertedKeys(settings, entries, r) && UpsertedLast(entries, actor, r) && UpsertedOnly(settings, entries, r)
  }

  ghost predicate UpsertedKeys(settings: map<string, Setting>, entries: seq<(string, SettingInput)>, r: map<string, Setting>)
  {
    && (forall k :: k in r <==> k in settings || k in WrittenKeys(entries))
    && (forall k :: k in settings && k !in WrittenKeys(entries) ==> r[k] == settings[k])
    && (forall i :: 0 <= i < |entries| && Valued(entries[i]) ==> entries[i].0 in r)
  }

  ghost predicate UpsertedLast(entries: seq<(string, SettingInput)>, actor: Id, r: map<string, Setting>)
  {
    forall i :: 0 <= i < |entries| && Valued(entries[i]) && LastFor(entries, i) && entries[i].0 in r ==>
      && r[entries[i].0].value == entries[i].1.value.value
      && r[entries[i].0].updatedBy == actor
      && (entries[i].1.description.Some? ==> r[entries[i].0].description == entries[i].1.description)
  }

  ghost predicate UpsertedOnly(settings: map<string, Setting>, entries: seq<(string, SettingInput)>, r: map<string, Setting>)
  {
    forall i :: 0 <= i < |entries| && Valued(entries[i]) && OnlyFor(entries, i) && entries[i].1.description.None? && entries[i].0 in r ==>
      r[entries[i].0].description == if entries[i].0 in settings then settings[entries[i].0].description else None
  }

  /** Every upsert of the body, in order; a key given twice ends with its last entry that writes. */
  function UpsertAll(settings: map<string, Setting>, entries: seq<(string, SettingInput)>, actor: Id): (r: map<string, Setting>)
    ensures Upserted(settings, entries, actor, r)
    decreases |entries|
  {
    if |entries| == 0 then settings
    else
      var n := |entries| - 1;
      var before := UpsertAll(settings, entries[..n], actor);
      UpsertKeysStep(settings, entries, actor, before);
      UpsertLastStep(entries, actor, before);
      UpsertOnlyStep(settings, entries, actor, before);
      Upsert(before, entries[n].0, entries[n].1, actor)
  }

  /** One more upsert adds its key, if it writes, and touches no other. */
  lemma UpsertKeysStep(settings: map<string, Setting>, entries: seq<(string, SettingInput)>, actor: Id, before: map<string, Setting>)
    requires |entries| > 0 && UpsertedKeys(settings, entries[..|entries| - 1], before)
    ensures UpsertedKeys(settings, entries, Upsert(before, entries[|entries| - 1].0, entries[|entries| - 1].1, actor))
  {
    var n := |entries| - 1;
    var init := entries[..n];
    var r := Upsert(before, entries[n].0, entries[n].1, actor);
    WrittenKeysSnoc(entries);
    forall i | 0 <= i < |entries| && Valued(entries[i]) ensures entries[i].0 in r {
      if i < n {
        assert init[i] == entries[i];
      }
    }
  }

  /** The entry upserted last decides its key; earlier last entries keep theirs. */
  lemma UpsertLastStep(entries: seq<(string, SettingInput)>, actor: Id, before: map<string, Setting>)
    requires |entries| > 0 && UpsertedLast(entries[..|entries| - 1], actor, before)
    ensures UpsertedLast(entries, actor, Upsert(before, entries[|entries| - 1].0, entries[|entries| - 1].1, actor))
  {
    var n := |entries| - 1;
    var init := entries[..n];
    var r := Upsert(before, entries[n].0, entries[n].1, actor);
    forall i | 0 <= i < n && Valued(entries[i]) && LastFor(entries, i) && entries[i].0 in r
      ensures r[entries[i].0] == before[init[i].0] && Valued(init[i]) && LastFor(init, i) && init[i].0 in before
    {
      assert Valued(entries[n]) ==> entries[n].0 != entries[i].0;
    }
  }

  /** A key given only once keeps the description it had when none is given. */
  lemma UpsertOnlyStep(settings: map<string, Setting>, entries: seq<(string, SettingInput)>, actor: Id, before: map<string, Setting>)
    requires |entries| > 0
    requires UpsertedKeys(settings, entries[..|entries| - 1], before) && UpsertedOnly(settings, entries[..|entries| - 1], before)
    ensures UpsertedOnly(settings, entries, Upsert(before, entries[|entries| - 1].0, entries[|entries| - 1].1, actor))
  {
    var n := |entries| - 1;
    var init := entries[..n];
    var r := Upsert(before, entries[n].0, entries[n].1, actor);
    forall i | 0 <= i < n && Valued(entries[i]) && OnlyFor(entries, i) && entries[i].0 in r
      ensures r[entries[i].0] == before[init[i].0] && Valued(init[i]) && OnlyFor(init, i) && init[i].0 in before
    {
      assert entries[n].0 != entries[i].0;
    }
    if OnlyFor(entries, n) {
      WrittenKeysMembers(init);
      forall i | 0 <= i < n && Valued(init[i]) ensures init[i].0 != entries[n].0 {
        assert init[i] == entries[i];
      }
      assert entries[n].0 !in WrittenKeys(init);
    }
  }

  /**
   * PUT /settings. The upserts run side by side under `Promise.all`: one
   * rejected for a missing value makes the reply 500 and skips the audit
   * write, while the others still land.
   */
  function UpdateSettings(s: Store, caller: Claims, entries: seq<(string, SettingInput)>, writeOk: bool): (r: Step<string>)
    ensures caller.role != ADMIN ==> r == Reject(s, 403, FORBIDDEN)
    ensures r.reply.Ok? <==> caller.role == ADMIN && AllValued(entries)
    ensures r.reply.Ok? ==> r.reply == Ok(200, "Settings updated successfully")
    ensures caller.role == ADMIN && !AllValued(entries) ==>
              r.reply == Fail(500, "Failed to update settings") && r.store.audit == s.audit
    ensures caller.role == ADMIN ==>
              && r.store.(settings := s.settings, audit := s.audit) == s
              && (forall k :: k in r.store.settings <==> k in s.settings || k in WrittenKeys(entries))
              && (forall k :: k in s.settings && k !in WrittenKeys(entries) ==> r.store.settings[k] == s.settings[k])
              && (forall i :: 0 <= i < |entries| && Valued(entries[i]) && LastFor(entries, i) ==>
                    && r.store.settings[entries[i].0].value == entries[i].1.value.value
                    && r.store.settings[entries[i].0].updatedBy == caller.id
                    && (entries[i].1.description.Some? ==> r.store.settings[entries[i].0].description == entries[i].1.description))
    ensures r.reply.Ok? ==>
              r.store.audit == s.audit ||
              r.store.audit == s.audit + [AuditEntry("SETTINGS_UPDATE", "System settings updated", caller.id,
                                                     map["updatedBy" := Num(caller.id), "settings" := Words(EntryKeys(entries))])]
  {
    if Gate(caller, ADMINS_ONLY).Deny? then Reject(s, 403, FORBIDDEN)
    else
      var t := s.(settings := UpsertAll(s.settings, entries, caller.id));
      if !AllValued(entries) then Step(Fail(500, "Failed to update settings"), t)
      else
        Step(Ok(200, "Settings updated successfully"),
             Middleware.AuditLog(t, "SETTINGS_UPDATE", "System settings updated", caller.id,
                                 map["updatedBy" := Num(caller.id), "settings" := Words(EntryKeys(entries))], writeOk))
  }

  /** Settings refer to no other table, so PUT /settings keeps a valid store valid. */
  lemma UpdateSettingsValid(s: Store, caller: Claims, entries: seq<(string, SettingInput)>, writeOk: bool)
    requires Valid(s)
    ensures Valid(UpdateSettings(s, caller, entries, writeOk).store)
  {
    if caller.role == ADMIN {
      var t := s.(settings := UpsertAll(s.settings, entries, caller.id));
      SettingsFree(s, t.settings);
      if AllValued(entries) {
        var meta := map["updatedBy" := Num(caller.id), "settings" := Words(EntryKeys(entries))];
        assert UpdateSettings(s, caller, entries, writeOk).store ==
               Middleware.AuditLog(t, "SETTINGS_UPDATE", "System settings updated", caller.id, meta, writeOk);
        Middleware.AuditLogValid(t, "SETTINGS_UPDATE", "System settings updated", caller.id, meta, writeOk);
      }
    }
  }

  /**
   * GET /settings after PUT /settings shows, for each key written, the value
   * of its last entry and the description it gave.
   */
  lemma ReadAfterUpdate(s: Store, caller: Claims, entries: seq<(string, SettingInput)>, writeOk: bool, i: int)
    requires caller.role == ADMIN && 0 <= i < |entries| && Valued(entries[i]) && LastFor(entries, i)
    ensures var v := ReadSettings(UpdateSettings(s, caller, entries, writeOk).store, caller).reply;
            && v.Ok? && entries[i].0 in v.value
            && v.value[entries[i].0].value == entries[i].1.value.value
            && (entries[i].1.description.Some? ==> v.value[entries[i].0].description == entries[i].1.description)
  {
  }

  // ----- the audit write never decides a reply -----

  /**
   * Whether the best-effort audit write succeeds changes neither the reply
   * of a user write nor any table but the audit log.
   */
  lemma AuditNeverDecides(s: Store, caller: Claims, hash: string -> string, nb: NewUserBody, userId: Id, changes: UserChanges)
    ensures CreateUser(s, caller, nb, hash, true).reply == CreateUser(s, caller, nb, hash, false).reply
    ensures CreateUser(s, caller, nb, hash, true).store.(audit := s.audit) == CreateUser(s, caller, nb, hash, false).store.(audit := s.audit)
    ensures UpdateUser(s, caller, userId, changes, true).reply == UpdateUser(s, caller, userId, changes, false).reply
    ensures UpdateUser(s, caller, userId, changes, true).store.(audit := s.audit) ==
            UpdateUser(s, caller, userId, changes, false).store.(audit := s.audit)
  {
  }

  /** The same for deleting a user and resetting a password. */
  lemma AuditNeverDecidesElsewhere(s: Store, caller: Claims, hash: string -> string, userId: Id, password: Option<string>)
    ensures DeleteUser(s, caller, userId, true).reply == DeleteUser(s, caller, userId, false).reply
    ensures ResetPassword(s, caller, userId, password, hash, true).reply == ResetPassword(s, caller, userId, password, hash, false).reply
    ensures ResetPassword(s, caller, userId, password, hash, true).store.(audit := s.audit) ==
            ResetPassword(s, caller, userId, password, hash, false).store.(audit := s.audit)
  {
  }

  /** The same for updating settings. */
  lemma SettingsAuditNeverDecides(s: Store, caller: Claims, entries: seq<(string, SettingInput)>)
    ensures UpdateSettings(s, caller, entries, true).reply == UpdateSettings(s, caller, entries, false).reply
    ensures UpdateSettings(s, caller, entries, true).store.(audit := s.audit) ==
            UpdateSettings(s, caller, entries, false).store.(audit := s.audit)
  {
  }
}

=== FILE: auth_routes.dfy ===
/**
 * server/src/routes/auth.js: self-registration and login.
 *
 * bcrypt is two oracles, `hash` (password to stored hash) and `matches`
 * (password, stored hash to the result of `bcrypt.compare`); `jwt.sign` is
 * the oracle `sign` from the payload to the token string.
 */
module AuthRoutes {
  import opened Wrappers
  import opened Seqs
  import opened Db

  datatype RegisterBody = RegisterBody(
    name: Option<string>,
    username: Option<string>,
    email: Option<string>,
    password: Option<string>,
    role: Option<string>)

  datatype LoginBody = LoginBody(username: Option<string>, password: Option<string>)

  /** The user object of a login response: no password hash. */
  datatype PublicUser = PublicUser(id: Id, name: string, username: string, email: string, role: Role)

  datatype Session = Session(token: string, user: PublicUser)

  predicate RegisterFieldsGiven(b: RegisterBody)
  {
    Given(b.name) && Given(b.username) && Given(b.email) && Given(b.password)
  }

  /** Some user already has this username or this email. */
  predicate UsernameOrEmailTaken(s: Store, username: string, email: string)
  {
    exists i :: 0 <= i < |s.users| && (s.users[i].username == username || s.users[i].email == email)
  }

  /** Only the exact lower-case request `'hod'` registers a head of department. */
  function RegisteredRole(requested: Option<string>): (r: Role)
    ensures r == HOD <==> requested == Some("hod")
    ensures r != HOD ==> r == STAFF
  {
    if requested == Some("hod") then HOD else STAFF
  }

  /** Upper-case and other role names all fall back to STAFF. */
  lemma RegisteredRoleExamples()
    ensures RegisteredRole(Some("HOD")) == STAFF
    ensures RegisteredRole(Some("admin")) == STAFF
    ensures RegisteredRole(Some("ADMIN")) == STAFF
    ensures RegisteredRole(None) == STAFF
    ensures RegisteredRole(Some("hod")) == HOD
  {
  }

  /** POST /register */
  function Register(s: Store, body: RegisterBody, hash: string -> string): (r: Step<Id>)
    ensures !RegisterFieldsGiven(body) ==> r == Reject(s, 400, "Missing required fields")
    ensures RegisterFieldsGiven(body) && UsernameOrEmailTaken(s, body.username.value, body.email.value) ==>
              r == Reject(s, 409, "User already exists")
    ensures r.reply.Fail? ==> r.store == s
    ensures r.reply.Ok? <==> RegisterFieldsGiven(body) && !UsernameOrEmailTaken(s, body.username.value, body.email.value)
    ensures r.reply.Ok? ==>
              && r.reply == Ok(201, s.nextUserId)
              && r.store.(users := s.users, nextUserId := s.nextUserId) == s
              && r.store.nextUserId > s.nextUserId
              && |r.store.users| == |s.users| + 1
              && r.store.users[..|s.users|] == s.users
              && r.store.users[|s.users|] == User(s.nextUserId, body.name.value, body.username.value, body.email.value,
                                                 hash(body.password.value), RegisteredRole(body.role), None, None, true)
  {
    if !RegisterFieldsGiven(body) then Reject(s, 400, "Missing required fields")
    else if UsernameOrEmailTaken(s, body.username.value, body.email.value) then Reject(s, 409, "User already exists")
    else
      var created := User(s.nextUserId, body.name.value, body.username.value, body.email.value,
                          hash(body.password.value), RegisteredRole(body.role), None, None, true);
      Step(Ok(201, created.id), s.(users := s.users + [created], nextUserId := s.nextUserId + 1))
  }

  /** Appending a user keeps every existing user reference resolvable. */
  lemma UsersExtended(s: Store, t: Store)
    requires |t.users| >= |s.users| && t.users[..|s.users|] == s.users
    ensures forall id :: HasUser(s, id) ==> HasUser(t, id)
  {
    forall id | HasUser(s, id)
      ensures HasUser(t, id)
    {
      var i :| 0 <= i < |s.users| && s.users[i].id == id;
      assert t.users[i] == s.users[i];
    }
  }

  /**
   * Appending a fresh user with an unused id, username and email, and with
   * no department or an existing one, keeps the store valid.
   */
  lemma AppendUserValid(s: Store, u: User, t: Store)
    requires Valid(s)
    requires u.id == s.nextUserId && (u.departmentId.Some? ==> HasDepartment(s, u.departmentId.value))
    requires forall i :: 0 <= i < |s.users| ==> s.users[i].username != u.username && s.users[i].email != u.email
    requires t == s.(users := s.users + [u], nextUserId := s.nextUserId + 1)
    ensures Valid(t)
  {
    AppendUserOrdered(s, u, t);
    AppendUserUnique(s, u, t);
    AppendUserRefs(s, u, t);
  }

  lemma AppendUserRefs(s: Store, u: User, t: Store)
    requires NoDangling(s)
    requires u.departmentId.Some? ==> HasDepartment(s, u.departmentId.value)
    requires t == s.(users := s.users + [u], nextUserId := s.nextUserId + 1)
    ensures NoDangling(t)
  {
    assert t.users[..|s.users|] == s.users;
    UsersExtended(s, t);
  }

  lemma AppendUserOrdered(s: Store, u: User, t: Store)
    requires IdsBelowCounters(s) && Ordered(s)
    requires u.id == s.nextUserId
    requires t == s.(users := s.users + [u], nextUserId := s.nextUserId + 1)
    ensures IdsBelowCounters(t) && Ordered(t)
  {
    forall i, j | 0 <= i < j < |t.users|
      ensures UserKey(t.users[i]) < UserKey(t.users[j])
    {
      if j < |s.users| {
        assert UserKey(s.users[i]) < UserKey(s.users[j]);
      }
    }
  }

  lemma AppendUserUnique(s: Store, u: User, t: Store)
    requires UniqueColumns(s)
    requires forall i :: 0 <= i < |s.users| ==> s.users[i].username != u.username && s.users[i].email != u.email
    requires t == s.(users := s.users + [u], nextUserId := s.nextUserId + 1)
    ensures UniqueColumns(t)
  {
    assert Distinct(t.users, Username);
    assert Distinct(t.users, Email);
  }

  /** Registration keeps the store valid. */
  lemma RegisterValid(s: Store, body: RegisterBody, hash: string -> string)
    requires Valid(s)
    ensures Valid(Register(s, body, hash).store)
  {
    var r := Register(s, body, hash);
    if r.reply.Ok? {
      AppendUserValid(s, r.store.users[|s.users|], r.store);
    }
  }

  /** The response user: the row's public fields. */
  function Public(u: User): (p: PublicUser)
    ensures p.id == u.id && p.name == u.name && p.username == u.username && p.email == u.email && p.role == u.role
  {
    PublicUser(u.id, u.name, u.username, u.email, u.role)
  }

  function WithUsername(name: string): User -> bool
  {
    (u: User) => u.username == name
  }

  /** POST /login */
  function Login(s: Store, body: LoginBody, matches: (string, string) -> bool, sign: Claims -> string): (r: Step<Session>)
    ensures r.store == s
    ensures !Given(body.username) || !Given(body.password) ==> r.reply == Fail(400, "Missing credentials")
    ensures Given(body.username) && Given(body.password) && r.reply.Fail? ==> r.reply == Fail(401, "Invalid credentials")
    ensures Given(body.username) && Given(body.password) &&
            (forall i :: 0 <= i < |s.users| ==> s.users[i].username != body.username.value) ==>
              r.reply == Fail(401, "Invalid credentials")
    ensures r.reply.Ok? ==>
              exists i :: 0 <= i < |s.users|
                && s.users[i].username == body.username.value
                && matches(body.password.value, s.users[i].passwordHash)
                && r.reply == Ok(200, Session(sign(Claims(s.users[i].id, s.users[i].role)), Public(s.users[i])))
  {
    if !Given(body.username) || !Given(body.password) then Reject(s, 400, "Missing credentials")
    else
      match Find(s.users, WithUsername(body.username.value))
      case None => Reject(s, 401, "Invalid credentials")
      case Some(u) =>
        if !matches(body.password.value, u.passwordHash) then Reject(s, 401, "Invalid credentials")
        else Step(Ok(200, Session(sign(Claims(u.id, u.role)), Public(u))), s)
  }

  /**
   * With unique usernames, login for an existing account succeeds exactly
   * when the password matches its hash, and the token is signed over that
   * account's `{ id, role }`.
   */
  lemma LoginFindsAccount(s: Store, i: nat, password: string, matches: (string, string) -> bool, sign: Claims -> string)
    requires Valid(s) && i < |s.users| && s.users[i].username != "" && password != ""
    ensures var r := Login(s, LoginBody(Some(s.users[i].username), Some(password)), matches, sign);
            && (r.reply.Ok? <==> matches(password, s.users[i].passwordHash))
            && (r.reply.Ok? ==> r.reply.value == Session(sign(Claims(s.users[i].id, s.users[i].role)), Public(s.users[i])))
  {
    forall j | 0 <= j < |s.users| && j != i
      ensures !WithUsername(s.users[i].username)(s.users[j])
    {
      assert Username(s.users[i]) != Username(s.users[j]);
    }
    FindUnique(s.users, WithUsername(s.users[i].username), i);
  }
}

=== FILE: dashboard_routes.dfy ===
/**
 * server/src/routes/dashboard.js: the counting behind `/analytics` and
 * `/department-performance`. The reporting window (`period`) is a date
 * comparison on `createdAt`; here it is the parameter `inPeriod`, the set of
 * reports created inside the window.
 */
module DashboardRoutes {
  import opened Wrappers
  import opened Seqs
  import opened Db
  import Middleware
  import ReportRoutes
  import DepartmentRoutes

  // ----- status counting -----

  function WithStatus(base: Report -> bool, st: Status): Report -> bool
  {
    (r: Report) => base(r) && r.status == st
  }

  function WithStatusIn(base: Report -> bool, sts: set<Status>): Report -> bool
  {
    (r: Report) => base(r) && r.status in sts
  }

  /**
   * Every report has exactly one of the five statuses, so the counts by
   * status add up to the total, and "pending" in the department sense is
   * SUBMITTED plus UNDER_REVIEW.
   */
  lemma StatusPartition(rs: seq<Report>, base: Report -> bool)
    ensures Count(rs, WithStatusIn(base, {SUBMITTED, UNDER_REVIEW})) ==
            Count(rs, WithStatus(base, SUBMITTED)) + Count(rs, WithStatus(base, UNDER_REVIEW))
    ensures Count(rs, base) ==
            Count(rs, WithStatus(base, DRAFT)) + Count(rs, WithStatusIn(base, {SUBMITTED, UNDER_REVIEW})) +
            Count(rs, WithStatus(base, APPROVED)) + Count(rs, WithStatus(base, REJECTED))
  {
    CountDisjointSum(rs, WithStatus(base, SUBMITTED), WithStatus(base, UNDER_REVIEW), WithStatusIn(base, {SUBMITTED, UNDER_REVIEW}));
    CountDisjointSum(rs, WithStatus(base, DRAFT), WithStatusIn(base, {SUBMITTED, UNDER_REVIEW}),
                     WithStatusIn(base, {DRAFT, SUBMITTED, UNDER_REVIEW}));
    CountDisjointSum(rs, WithStatusIn(base, {DRAFT, SUBMITTED, UNDER_REVIEW}), WithStatus(base, APPROVED),
                     WithStatusIn(base, {DRAFT, SUBMITTED, UNDER_REVIEW, APPROVED}));
    CountDisjointSum(rs, WithStatusIn(base, {DRAFT, SUBMITTED, UNDER_REVIEW, APPROVED}), WithStatus(base, REJECTED), base);
  }

  /** `Math.round((approved / total) * 100)`, or 0 with no reports. */
  function ApprovalRate(approved: nat, total: nat): (r: nat)
    requires approved <= total
    ensures total == 0 ==> r == 0
    ensures r <= 100
    ensures total > 0 ==> 2 * r * total <= 200 * approved + total < 2 * (r + 1) * total
    ensures approved == total ==> r == 100 || total == 0
  {
    if total > 0 then
      var r := RoundDiv(100 * approved, total);
      RateBound(approved, total, r);
      r
    else 0
  }

  lemma RateBound(approved: nat, total: nat, r: nat)
    requires 0 < total && approved <= total
    requires 2 * r * total <= 200 * approved + total < 2 * (r + 1) * total
    ensures r <= 100
    ensures approved == total ==> r == 100
  {
    if r > 100 {
      MulLe(202, 2 * r, total);
    }
    if approved == total && r < 100 {
      MulLe(2 * (r + 1), 200, total);
    }
  }

  lemma {:induction false} MulLe(a: int, b: int, c: nat)
    requires a <= b
    ensures a * c <= b * c
    decreases c
  {
    if c > 0 {
      MulLe(a, b, c - 1);
      assert a * c == a * (c - 1) + a && b * c == b * (c - 1) + b;
    }
  }

  // ----- GET /analytics -----

  /** The role-derived part of the analytics `where`. */
  datatype ReportFilter = ReportFilter(staffId: Option<Id>, departmentId: Option<Id>)

  /** The report is inside the window and passes the filter. */
  function Matches(f: ReportFilter, inPeriod: Report -> bool): Report -> bool
  {
    (r: Report) =>
      && inPeriod(r)
      && (f.staffId.Some? ==> r.staffId == f.staffId.value)
      && (f.departmentId.Some? ==> r.departmentId == f.departmentId)
  }

  /**
   * STAFF see their own reports; an HOD sees the department their own user
   * row belongs to, if any; a `departmentId` query replaces the department
   * part for every role. None: the HOD's user row is gone, and reading its
   * department throws.
   */
  function AnalyticsFilter(s: Store, caller: Claims, departmentId: Option<Id>): (r: Option<ReportFilter>)
    ensures r.None? <==> caller.role == HOD && !HasUser(s, caller.id)
    ensures r.Some? ==> (r.value.staffId.Some? <==> caller.role == STAFF)
    ensures r.Some? && caller.role == STAFF ==> r.value.staffId == Some(caller.id)
    ensures r.Some? && departmentId.Some? ==> r.value.departmentId == departmentId
    ensures r.Some? && departmentId.None? && caller.role != HOD ==> r.value.departmentId.None?
    ensures r.Some? && departmentId.None? && caller.role == HOD && r.value.departmentId.Some? ==>
              exists i :: 0 <= i < |s.users| && s.users[i].id == caller.id && s.users[i].departmentId == r.value.departmentId
    ensures r.Some? && departmentId.None? && caller.role == HOD && r.value.departmentId.None? ==>
              var u := UserById(s, caller.id).value;
              u.departmentId.None? || !HasDepartment(s, u.departmentId.value)
  {
    var staff := if caller.role == STAFF then Some(caller.id) else None;
    if caller.role == HOD then
      match UserById(s, caller.id)
      case None => None
      case Some(u) =>
        var own := if u.departmentId.Some? && HasDepartment(s, u.departmentId.value) then u.departmentId else None;
        Some(ReportFilter(staff, if departmentId.Some? then departmentId else own))
    else Some(ReportFilter(staff, departmentId))
  }

  /** The `summary` object; the two totals are null except for an ADMIN. */
  datatype Summary = Summary(
    totalReports: nat,
    submittedReports: nat,
    approvedReports: nat,
    rejectedReports: nat,
    pendingReports: nat,
    approvalRate: nat,
    totalUsers: Option<nat>,
    totalDepartments: Option<nat>)

  datatype Analytics = Analytics(summary: Summary, recentActivity: seq<Report>)

  /** The summary counts under one filter. */
  function Summarise(s: Store, caller: Claims, base: Report -> bool): (r: Summary)
    ensures r.approvedReports <= r.totalReports
    ensures r.submittedReports + r.pendingReports + r.approvedReports + r.rejectedReports <= r.totalReports
  {
    StatusPartition(s.reports, base);
    var total := Count(s.reports, base);
    var approved := Count(s.reports, WithStatus(base, APPROVED));
    Summary(
      total,
      Count(s.reports, WithStatus(base, SUBMITTED)),
      approved,
      Count(s.reports, WithStatus(base, REJECTED)),
      Count(s.reports, WithStatus(base, UNDER_REVIEW)),
      ApprovalRate(approved, total),
      if caller.role == ADMIN then Some(|s.users|) else None,
      if caller.role == ADMIN then Some(|s.departments|) else None)
  }

  /**
   * `recent` is the newest ten of the matching reports `m` (all of them when
   * fewer), newest first.
   */
  ghost predicate NewestTen(m: seq<Report>, recent: seq<Report>)
  {
    && |recent| == (if |m| < 10 then |m| else 10)
    && forall i :: 0 <= i < |recent| ==> recent[i] == m[|m| - 1 - i]
  }

  /** GET /analytics. `departmentId` is None when the query has none. */
  function GetAnalytics(s: Store, caller: Claims, departmentId: Option<Id>, inPeriod: Report -> bool): (r: Step<Analytics>)
    ensures r.store == s
    ensures r.reply.Fail? <==> caller.role == HOD && !HasUser(s, caller.id)
    ensures r.reply.Fail? ==> r.reply == Fail(500, "Failed to fetch dashboard analytics")
    ensures r.reply.Ok? ==>
              var f := Matches(AnalyticsFilter(s, caller, departmentId).value, inPeriod);
              var m := r.reply.value.summary;
              && r.reply.code == 200
              && m.totalReports == Count(s.reports, f)
              && m.submittedReports == Count(s.reports, WithStatus(f, SUBMITTED))
              && m.approvedReports == Count(s.reports, WithStatus(f, APPROVED))
              && m.rejectedReports == Count(s.reports, WithStatus(f, REJECTED))
              && m.pendingReports == Count(s.reports, WithStatus(f, UNDER_REVIEW))
              && m.approvalRate <= 100 && (m.totalReports == 0 ==> m.approvalRate == 0)
              && m.approvedReports <= m.totalReports
              && m.approvalRate == ApprovalRate(m.approvedReports, m.totalReports)
              && (m.totalUsers.Some? <==> caller.role == ADMIN) && (m.totalDepartments.Some? <==> caller.role == ADMIN)
              && (caller.role == ADMIN ==> m.totalUsers == Some(|s.users|) && m.totalDepartments == Some(|s.departments|))
              && |r.reply.value.recentActivity| <= 10
              && forall i :: 0 <= i < |r.reply.value.recentActivity| ==>
                   r.reply.value.recentActivity[i] in s.reports && f(r.reply.value.recentActivity[i])
    ensures r.reply.Ok? ==>
              NewestTen(Filter(s.reports, Matches(AnalyticsFilter(s, caller, departmentId).value, inPeriod)),
                        r.reply.value.recentActivity)
  {
    match AnalyticsFilter(s, caller, departmentId)
    case None => Reject(s, 500, "Failed to fetch dashboard analytics")
    case Some(filter) =>
      var f := Matches(filter, inPeriod);
      var recent := LastFirst(Filter(s.reports, f), 10);
      assert forall x :: x in recent ==> x in Filter(s.reports, f);
      assert NewestTen(Filter(s.reports, f), recent);
      Step(Ok(200, Analytics(Summarise(s, caller, f), recent)), s)
  }

  /**
   * The five analytics counts cover every report in scope: together with
   * the drafts, which no count shows, they add up to the total.
   */
  lemma AnalyticsPartition(s: Store, caller: Claims, departmentId: Option<Id>, inPeriod: Report -> bool)
    requires GetAnalytics(s, caller, departmentId, inPeriod).reply.Ok?
    ensures var m := GetAnalytics(s, caller, departmentId, inPeriod).reply.value.summary;
            var f := Matches(AnalyticsFilter(s, caller, departmentId).value, inPeriod);
            m.totalReports == Count(s.reports, WithStatus(f, DRAFT)) + m.submittedReports + m.pendingReports + m.approvedReports + m.rejectedReports
  {
    StatusPartition(s.reports, Matches(AnalyticsFilter(s, caller, departmentId).value, inPeriod));
  }

  /** A staff member's analytics count only their own reports. */
  lemma StaffSeesOwnReports(s: Store, caller: Claims, departmentId: Option<Id>, inPeriod: Report -> bool)
    requires caller.role == STAFF
    ensures GetAnalytics(s, caller, departmentId, inPeriod).reply.Ok?
    ensures GetAnalytics(s, caller, departmentId, inPeriod).reply.value.summary.totalReports <=
            Count(s.reports, ReportRoutes.OwnedBy(caller.id))
  {
    var f := Matches(AnalyticsFilter(s, caller, departmentId).value, inPeriod);
    var g := (r: Report) => ReportRoutes.OwnedBy(caller.id)(r) && !f(r);
    CountDisjointSum(s.reports, f, g, ReportRoutes.OwnedBy(caller.id));
  }

  // ----- GET /department-performance -----

  const PERFORMANCE_VIEWERS: seq<Role> := [HOD, ADMIN, HR]

  /** One entry of `departments` in the response. */
  datatype Metrics = Metrics(
    id: Id,
    name: string,
    description: Option<string>,
    hodId: Option<Id>,
    staffCount: nat,
    totalReports: nat,
    approvedReports: nat,
    pendingReports: nat,
    rejectedReports: nat,
    approvalRate: nat,
    avgFileSize: nat)

  function FiledIn(id: Id, inPeriod: Report -> bool): Report -> bool
  {
    (r: Report) => r.departmentId == Some(id) && inPeriod(r)
  }

  /** `sum + r.fileSize` with a null size adding nothing. */
  function SizeOf(r: Report): nat { r.fileSize.GetOr(0) }

  /** The metrics of one department over the reports filed under it inside the window. */
  function MetricsFor(s: Store, inPeriod: Report -> bool, d: Department): (m: Metrics)
    ensures m.id == d.id && m.name == d.name && m.description == d.description && m.hodId == d.hodId
    ensures m.staffCount == Count(s.users, DepartmentRoutes.InDepartment(d.id))
    ensures m.totalReports == Count(s.reports, FiledIn(d.id, inPeriod))
    ensures m.approvedReports == Count(s.reports, WithStatus(FiledIn(d.id, inPeriod), APPROVED))
    ensures m.rejectedReports == Count(s.reports, WithStatus(FiledIn(d.id, inPeriod), REJECTED))
    ensures m.pendingReports == Count(s.reports, WithStatus(FiledIn(d.id, inPeriod), SUBMITTED)) +
                                Count(s.reports, WithStatus(FiledIn(d.id, inPeriod), UNDER_REVIEW))
    ensures m.approvedReports + m.pendingReports + m.rejectedReports <= m.totalReports
    ensures m.approvalRate <= 100
    ensures m.totalReports == 0 ==> m.approvalRate == 0 && m.avgFileSize == 0
  {
    var base := FiledIn(d.id, inPeriod);
    var rs := Filter(s.reports, base);
    var approved := Count(s.reports, WithStatus(base, APPROVED));
    StatusPartition(s.reports, base);
    Metrics(d.id, d.name, d.description, d.hodId,
            Count(s.users, DepartmentRoutes.InDepartment(d.id)),
            |rs|, approved,
            Count(s.reports, WithStatusIn(base, {SUBMITTED, UNDER_REVIEW})),
            Count(s.reports, WithStatus(base, REJECTED)),
            ApprovalRate(approved, |rs|),
            if |rs| > 0 then RoundDiv(Sum(rs, SizeOf), |rs|) else 0)
  }

  function MetricsOf(s: Store, inPeriod: Report -> bool): Department -> Metrics
  {
    (d: Department) => MetricsFor(s, inPeriod, d)
  }

  /** GET /department-performance: one entry per department, in table order. */
  function DepartmentPerformance(s: Store, caller: Claims, inPeriod: Report -> bool): (r: Step<seq<Metrics>>)
    ensures r.store == s
    ensures caller.role !in PERFORMANCE_VIEWERS ==> r.reply == Fail(403, "Insufficient permissions")
    ensures caller.role in PERFORMANCE_VIEWERS ==> r.reply.Ok? && r.reply.code == 200 && |r.reply.value| == |s.departments|
    ensures r.reply.Ok? ==> forall i :: 0 <= i < |r.reply.value| ==> r.reply.value[i] == MetricsFor(s, inPeriod, s.departments[i])
  {
    if Middleware.RequireRoles(Some(caller), PERFORMANCE_VIEWERS).Deny? then Reject(s, 403, "Insufficient permissions")
    else Step(Ok(200, Map(s.departments, MetricsOf(s, inPeriod))), s)
  }

  /** Reports whose sizes were never recorded average to zero. */
  lemma NullSizesAverageZero(s: Store, inPeriod: Report -> bool, d: Department)
    requires forall i :: 0 <= i < |s.reports| ==> s.reports[i].fileSize.None?
    ensures MetricsFor(s, inPeriod, d).avgFileSize == 0
  {
    var rs := Filter(s.reports, FiledIn(d.id, inPeriod));
    forall i | 0 <= i < |rs| ensures rs[i].fileSize.None? {
      var k :| 0 <= k < |s.reports| && s.reports[k] == rs[i];
    }
    SumOfNulls(rs);
    if |rs| > 0 {
      var r := RoundDiv(0, |rs|);
      if r > 0 { MulLe(2, 2 * r, |rs|); }
    }
  }

  lemma {:induction false} SumOfNulls(rs: seq<Report>)
    requires forall i :: 0 <= i < |rs| ==> rs[i].fileSize.None?
    ensures Sum(rs, SizeOf) == 0
    decreases |rs|
  {
    if |rs| > 0 {
      SumOfNulls(rs[..|rs| - 1]);
    }
  }
}

=== FILE: db.dfy ===
/**
 * The persistent state the route handlers read and write, as one immutable
 * value. Each table is a sequence of rows in insertion (autoincrement id)
 * order, so a `findFirst` is the first matching row and an
 * `orderBy: { id: 'desc' }` is the reversed sequence.
 */
module Db {
  import opened Wrappers
  import opened Seqs

  type Id = int

  datatype Role = STAFF | HOD | ADMIN | HR

  datatype Status = DRAFT | SUBMITTED | UNDER_REVIEW | APPROVED | REJECTED

  datatype User = User(
    id: Id,
    name: string,
    username: string,
    email: string,
    passwordHash: string,
    role: Role,
    departmentId: Option<Id>,
    phone: Option<string>,
    isActive: bool)

  datatype Department = Department(id: Id, name: string, description: Option<string>, hodId: Option<Id>)

  /** A weekly report. `fileSize` is never written by the submission route, so it stays null. */
  datatype Report = Report(
    id: Id,
    staffId: Id,
    departmentId: Option<Id>,
    weekEnding: string,
    fileName: string,
    filePath: string,
    fileSize: Option<nat>,
    status: Status)

  datatype Comment = Comment(id: Id, reportId: Id, authorId: Id, content: string)

  datatype Notification = Notification(id: Id, userId: Id, kind: string, title: string, message: string, isRead: bool)

  /** The JSON values the handlers put into an audit entry's `metadata`. */
  datatype MetaValue = Num(n: int) | Nums(ns: seq<int>) | Words(ws: seq<string>) | Text(text: string)

  type Metadata = map<string, MetaValue>

  datatype AuditEntry = AuditEntry(action: string, details: string, userId: Id, metadata: Metadata)

  datatype Setting = Setting(value: string, description: Option<string>, updatedBy: Id)

  datatype Store = Store(
    users: seq<User>,
    departments: seq<Department>,
    reports: seq<Report>,
    comments: seq<Comment>,
    notifications: seq<Notification>,
    audit: seq<AuditEntry>,
    settings: map<string, Setting>,
    nextUserId: Id,
    nextDepartmentId: Id,
    nextReportId: Id)

  /** The verified token payload `{ id, role }` that becomes `req.user`. */
  datatype Claims = Claims(id: Id, role: Role)

  /** An HTTP outcome: a success status with its JSON body, or an error status with its message. */
  datatype Reply<T> = Ok(code: int, value: T) | Fail(code: int, error: string)

  /** What a handler produces: its reply and the store after the request. */
  datatype Step<T> = Step(reply: Reply<T>, store: Store)

  function Reject<T>(s: Store, code: int, error: string): Step<T>
  {
    Step(Fail(code, error), s)
  }

  /** The role names a request body may carry (`validRoles`). */
  function RoleName(r: Role): string
  {
    match r
    case STAFF => "STAFF"
    case HOD => "HOD"
    case ADMIN => "ADMIN"
    case HR => "HR"
  }

  /** `validRoles.includes(name)`, returning the role it names. */
  function ParseRole(name: string): (r: Option<Role>)
    ensures r.Some? ==> RoleName(r.value) == name
    ensures r.None? ==> forall ro: Role :: RoleName(ro) != name
  {
    if name == "STAFF" then Some(STAFF)
    else if name == "HOD" then Some(HOD)
    else if name == "ADMIN" then Some(ADMIN)
    else if name == "HR" then Some(HR)
    else None
  }

  /** JavaScript truthiness of an optional string body field. */
  predicate Given(field: Option<string>)
  {
    field.Some? && field.value != ""
  }

  /** JavaScript truthiness of an optional numeric body field. */
  predicate IdGiven(field: Option<Id>)
  {
    field.Some? && field.value != 0
  }

  /** The stored value of such a field, `x ? parseInt(x) : null`: null when it is absent or 0. */
  function IdField(field: Option<Id>): (r: Option<Id>)
    ensures r.Some? <==> IdGiven(field)
    ensures r.Some? ==> r == field
  {
    if IdGiven(field) then field else None
  }

  // ----- lookups -----

  predicate HasUser(s: Store, id: Id)
  {
    exists i :: 0 <= i < |s.users| && s.users[i].id == id
  }

  predicate HasDepartment(s: Store, id: Id)
  {
    exists i :: 0 <= i < |s.departments| && s.departments[i].id == id
  }

  predicate HasReport(s: Store, id: Id)
  {
    exists i :: 0 <= i < |s.reports| && s.reports[i].id == id
  }

  function WithId(id: Id): User -> bool
  {
    (u: User) => u.id == id
  }

  function UserById(s: Store, id: Id): (r: Option<User>)
    ensures r.Some? <==> HasUser(s, id)
    ensures r.Some? ==> r.value in s.users && r.value.id == id
  {
    Find(s.users, WithId(id))
  }

  function DepartmentWithId(id: Id): Department -> bool
  {
    (d: Department) => d.id == id
  }

  function DepartmentById(s: Store, id: Id): (r: Option<Department>)
    ensures r.Some? <==> HasDepartment(s, id)
    ensures r.Some? ==> r.value in s.departments && r.value.id == id
  {
    Find(s.departments, DepartmentWithId(id))
  }

  /** A notification addressed to `id` that is still unread. */
  function UnreadOf(id: Id): Notification -> bool
  {
    (n: Notification) => n.userId == id && !n.isRead
  }

  // ----- keys of the unique columns -----

  function UserKey(u: User): int { u.id }
  function Username(u: User): string { u.username }
  function Email(u: User): string { u.email }
  function DepartmentKey(d: Department): int { d.id }
  function DepartmentName(d: Department): string { d.name }
  function ReportKey(r: Report): int { r.id }
  function CommentKey(c: Comment): int { c.id }
  function NotificationKey(n: Notification): int { n.id }

  /** Each HOD heads at most one department (the unique `hodId` column). */
  ghost predicate HeadsDistinct(ds: seq<Department>)
  {
    forall i, j :: 0 <= i < |ds| && 0 <= j < |ds| && i != j && ds[i].hodId.Some? ==> ds[i].hodId != ds[j].hodId
  }

  /** Every autoincrement id is positive and below its table's counter. */
  ghost predicate IdsBelowCounters(s: Store)
  {
    && 1 <= s.nextUserId && 1 <= s.nextDepartmentId && 1 <= s.nextReportId
    && (forall i :: 0 <= i < |s.users| ==> 0 < s.users[i].id < s.nextUserId)
    && (forall i :: 0 <= i < |s.departments| ==> 0 < s.departments[i].id < s.nextDepartmentId)
    && (forall i :: 0 <= i < |s.reports| ==> 0 < s.reports[i].id < s.nextReportId)
  }

  /** Rows are stored in ascending id order. */
  ghost predicate Ordered(s: Store)
  {
    && Ascending(s.users, UserKey)
    && Ascending(s.departments, DepartmentKey)
    && Ascending(s.reports, ReportKey)
    && Ascending(s.comments, CommentKey)
    && Ascending(s.notifications, NotificationKey)
  }

  /** The unique constraints of the schema. */
  ghost predicate UniqueColumns(s: Store)
  {
    && Distinct(s.users, Username)
    && Distinct(s.users, Email)
    && Distinct(s.departments, DepartmentName)
    && HeadsDistinct(s.departments)
  }

  /** No row refers to a user, department or report that is not there. */
  ghost predicate NoDangling(s: Store)
  {
    && (forall i :: 0 <= i < |s.users| && s.users[i].departmentId.Some? ==> HasDepartment(s, s.users[i].departmentId.value))
    && (forall i :: 0 <= i < |s.departments| && s.departments[i].hodId.Some? ==> HasUser(s, s.departments[i].hodId.value))
    && (forall i :: 0 <= i < |s.reports| ==> HasUser(s, s.reports[i].staffId))
    && (forall i :: 0 <= i < |s.reports| && s.reports[i].departmentId.Some? ==> HasDepartment(s, s.reports[i].departmentId.value))
    && (forall i :: 0 <= i < |s.comments| ==> HasUser(s, s.comments[i].authorId) && HasReport(s, s.comments[i].reportId))
    && (forall i :: 0 <= i < |s.notifications| ==> HasUser(s, s.notifications[i].userId))
    && (forall i :: 0 <= i < |s.audit| ==> HasUser(s, s.audit[i].userId))
  }

  ghost predicate Valid(s: Store)
  {
    IdsBelowCounters(s) && Ordered(s) && UniqueColumns(s) && NoDangling(s)
  }

  /** Validity does not depend on the settings table. */
  lemma SettingsFree(s: Store, m: map<string, Setting>)
    requires Valid(s)
    ensures Valid(s.(settings := m))
  {
  }

  /** A fresh database. */
  function Empty(): (s: Store)
    ensures Valid(s)
  {
    Store([], [], [], [], [], [], map[], 1, 1, 1)
  }

  /** In a valid store an id names at most one user, and UserById finds it. */
  lemma UserAt(s: Store, i: nat)
    requires Ordered(s) && i < |s.users|
    ensures UserById(s, s.users[i].id) == Some(s.users[i])
  {
    AscendingDistinct(s.users, UserKey);
    forall j | 0 <= j < |s.users| && j != i
      ensures !WithId(s.users[i].id)(s.users[j])
    {
      assert UserKey(s.users[i]) != UserKey(s.users[j]);
    }
    FindUnique(s.users, WithId(s.users[i].id), i);
  }

  /** In a valid store an id names at most one department, and DepartmentById finds it. */
  lemma DepartmentAt(s: Store, i: nat)
    requires Ordered(s) && i < |s.departments|
    ensures DepartmentById(s, s.departments[i].id) == Some(s.departments[i])
  {
    AscendingDistinct(s.departments, DepartmentKey);
    forall j | 0 <= j < |s.departments| && j != i
      ensures !DepartmentWithId(s.departments[i].id)(s.departments[j])
    {
      assert DepartmentKey(s.departments[i]) != DepartmentKey(s.departments[j]);
    }
    FindUnique(s.departments, DepartmentWithId(s.departments[i].id), i);
  }

  // ----- frames: table rewrites that keep the store valid -----

  /** Rewriting report rows while keeping their ids and references keeps the store valid. */
  lemma ReportsRewritten(s: Store, t: Store)
    requires Valid(s)
    requires t.(reports := s.reports) == s && |t.reports| == |s.reports|
    requires forall i :: 0 <= i < |s.reports| ==>
               t.reports[i].id == s.reports[i].id && t.reports[i].staffId == s.reports[i].staffId &&
               t.reports[i].departmentId == s.reports[i].departmentId
    ensures Valid(t)
  {
    ReportsRewrittenOrdered(s, t);
    ReportsRewrittenRefs(s, t);
  }

  lemma ReportsRewrittenOrdered(s: Store, t: Store)
    requires IdsBelowCounters(s) && Ordered(s)
    requires t.(reports := s.reports) == s && |t.reports| == |s.reports|
    requires forall i :: 0 <= i < |s.reports| ==> t.reports[i].id == s.reports[i].id
    ensures IdsBelowCounters(t) && Ordered(t)
  {
    forall i, j | 0 <= i < j < |t.reports|
      ensures ReportKey(t.reports[i]) < ReportKey(t.reports[j])
    {
      assert ReportKey(s.reports[i]) < ReportKey(s.reports[j]);
    }
  }

  lemma ReportsRewrittenRefs(s: Store, t: Store)
    requires NoDangling(s)
    requires t.(reports := s.reports) == s && |t.reports| == |s.reports|
    requires forall i :: 0 <= i < |s.reports| ==>
               t.reports[i].id == s.reports[i].id && t.reports[i].staffId == s.reports[i].staffId &&
               t.reports[i].departmentId == s.reports[i].departmentId
    ensures NoDangling(t)
  {
    forall x | HasReport(s, x)
      ensures HasReport(t, x)
    {
      var i :| 0 <= i < |s.reports| && s.reports[i].id == x;
      assert t.reports[i].id == x;
    }
  }

  /** Rewriting notification rows while keeping their ids and recipients keeps the store valid. */
  lemma NotificationsRewritten(s: Store, t: Store)
    requires Valid(s)
    requires t.(notifications := s.notifications) == s && |t.notifications| == |s.notifications|
    requires forall i :: 0 <= i < |s.notifications| ==>
               t.notifications[i].id == s.notifications[i].id && t.notifications[i].userId == s.notifications[i].userId
    ensures Valid(t)
  {
    forall i, j | 0 <= i < j < |t.notifications|
      ensures NotificationKey(t.notifications[i]) < NotificationKey(t.notifications[j])
    {
      assert NotificationKey(s.notifications[i]) < NotificationKey(s.notifications[j]);
    }
    assert Ordered(t);
    assert NoDangling(t);
  }

  /**
   * Rewriting user rows while keeping ids and usernames, with emails still
   * unique and every department reference resolvable, keeps the store valid.
   */
  lemma UsersRewritten(s: Store, t: Store)
    requires Valid(s)
    requires t.(users := s.users) == s && |t.users| == |s.users|
    requires forall i :: 0 <= i < |s.users| ==> t.users[i].id == s.users[i].id && t.users[i].username == s.users[i].username
    requires Distinct(t.users, Email)
    requires forall i :: 0 <= i < |t.users| && t.users[i].departmentId.Some? ==> HasDepartment(s, t.users[i].departmentId.value)
    ensures Valid(t)
  {
    UsersRewrittenOrdered(s, t);
    UsersRewrittenUnique(s, t);
    UsersRewrittenRefs(s, t);
  }

  lemma UsersRewrittenOrdered(s: Store, t: Store)
    requires IdsBelowCounters(s) && Ordered(s)
    requires t.(users := s.users) == s && |t.users| == |s.users|
    requires forall i :: 0 <= i < |s.users| ==> t.users[i].id == s.users[i].id
    ensures IdsBelowCounters(t) && Ordered(t)
  {
    forall i, j | 0 <= i < j < |t.users|
      ensures UserKey(t.users[i]) < UserKey(t.users[j])
    {
      assert UserKey(s.users[i]) < UserKey(s.users[j]);
    }
  }

  lemma UsersRewrittenUnique(s: Store, t: Store)
    requires UniqueColumns(s)
    requires t.(users := s.users) == s && |t.users| == |s.users|
    requires forall i :: 0 <= i < |s.users| ==> t.users[i].username == s.users[i].username
    requires Distinct(t.users, Email)
    ensures UniqueColumns(t)
  {
    forall i, j | 0 <= i < |t.users| && 0 <= j < |t.users| && i != j
      ensures Username(t.users[i]) != Username(t.users[j])
    {
      assert Username(s.users[i]) != Username(s.users[j]);
    }
  }

  lemma UsersRewrittenRefs(s: Store, t: Store)
    requires NoDangling(s)
    requires t.(users := s.users) == s && |t.users| == |s.users|
    requires forall i :: 0 <= i < |s.users| ==> t.users[i].id == s.users[i].id
    requires forall i :: 0 <= i < |t.users| && t.users[i].departmentId.Some? ==> HasDepartment(s, t.users[i].departmentId.value)
    ensures NoDangling(t)
  {
    forall x | HasUser(s, x)
      ensures HasUser(t, x)
    {
      var i :| 0 <= i < |s.users| && s.users[i].id == x;
      assert t.users[i].id == x;
    }
  }

  /**
   * Rewriting department rows while keeping their ids, with names and heads
   * still unique and every head an existing user, keeps the store valid.
   */
  lemma DepartmentsRewritten(s: Store, t: Store)
    requires Valid(s)
    requires t.(departments := s.departments) == s && |t.departments| == |s.departments|
    requires forall i :: 0 <= i < |s.departments| ==> t.departments[i].id == s.departments[i].id
    requires Distinct(t.departments, DepartmentName) && HeadsDistinct(t.departments)
    requires forall i :: 0 <= i < |t.departments| && t.departments[i].hodId.Some? ==> HasUser(s, t.departments[i].hodId.value)
    ensures Valid(t)
  {
    DepartmentsRewrittenOrdered(s, t);
    DepartmentsRewrittenRefs(s, t);
  }

  lemma DepartmentsRewrittenOrdered(s: Store, t: Store)
    requires IdsBelowCounters(s) && Ordered(s)
    requires t.(departments := s.departments) == s && |t.departments| == |s.departments|
    requires forall i :: 0 <= i < |s.departments| ==> t.departments[i].id == s.departments[i].id
    ensures IdsBelowCounters(t) && Ordered(t)
  {
    forall i, j | 0 <= i < j < |t.departments|
      ensures DepartmentKey(t.departments[i]) < DepartmentKey(t.departments[j])
    {
      assert DepartmentKey(s.departments[i]) < DepartmentKey(s.departments[j]);
    }
  }

  lemma DepartmentsRewrittenRefs(s: Store, t: Store)
    requires NoDangling(s)
    requires t.(departments := s.departments) == s && |t.departments| == |s.departments|
    requires forall i :: 0 <= i < |s.departments| ==> t.departments[i].id == s.departments[i].id
    requires forall i :: 0 <= i < |t.departments| && t.departments[i].hodId.Some? ==> HasUser(s, t.departments[i].hodId.value)
    ensures NoDangling(t)
  {
    forall x | HasDepartment(s, x)
      ensures HasDepartment(t, x)
    {
      var i :| 0 <= i < |s.departments| && s.departments[i].id == x;
      assert t.departments[i].id == x;
    }
  }
}

=== FILE: department_routes.dfy ===
/**
 * server/src/routes/departments.js: the department directory. Creating and
 * updating a department checks its name and its head; at most one
 * department has a given HOD. Staff are attached to and detached from a
 * department by writing their `departmentId`.
 */
module DepartmentRoutes {
  import opened Wrappers
  import opened Seqs
  import opened Db
  import Middleware
  import ReportRoutes

  const MANAGERS: seq<Role> := [ADMIN, HR]
  const ADMINS_ONLY: seq<Role> := [ADMIN]
  const FORBIDDEN: string := "Insufficient permissions"

  function Gate(caller: Claims, roles: seq<Role>): Middleware.Verdict<()>
  {
    Middleware.RequireRoles(Some(caller), roles)
  }

  /** A department with its `hod` relation: the full user row. */
  datatype DepartmentView = DepartmentView(department: Department, hod: Option<User>)

  function ViewOf(s: Store, d: Department): DepartmentView
  {
    DepartmentView(d, if d.hodId.Some? then UserById(s, d.hodId.value) else None)
  }

  datatype DepartmentBody = DepartmentBody(name: Option<string>, description: Option<string>, hodId: Option<Id>)

  /** Some department other than `except` is called `name`. */
  predicate NameTaken(s: Store, name: string, except: Option<Id>)
  {
    exists i :: 0 <= i < |s.departments| && s.departments[i].name == name && Some(s.departments[i].id) != except
  }

  /** Some department other than `except` is headed by `hod`. */
  predicate HeadTaken(s: Store, hod: Id, except: Option<Id>)
  {
    exists i :: 0 <= i < |s.departments| && s.departments[i].hodId == Some(hod) && Some(s.departments[i].id) != except
  }

  /** The user exists and holds the HOD role. */
  predicate IsHodUser(s: Store, id: Id)
  {
    exists i :: 0 <= i < |s.users| && s.users[i].id == id && s.users[i].role == HOD
  }

  /** `findUnique` on the id finds a user, and that user holds the HOD role. */
  predicate HeadIsHod(s: Store, hod: Id)
  {
    HasUser(s, hod) && UserById(s, hod).value.role == HOD
  }

  /** The head checks shared by create and update, for a department other than `except`. */
  function HeadError(s: Store, hodId: Option<Id>, except: Option<Id>): (r: Option<(int, string)>)
    ensures r.None? ==> IdGiven(hodId) ==> IsHodUser(s, hodId.value) && !HeadTaken(s, hodId.value, except)
  {
    if !IdGiven(hodId) then None
    else if !HeadIsHod(s, hodId.value) then Some((400, "Invalid HOD user"))
    else if HeadTaken(s, hodId.value, except) then Some((409, "HOD is already assigned to another department"))
    else None
  }

  /** In a valid store the HOD check reads the one row with that id. */
  lemma HeadErrorExact(s: Store, hodId: Id, except: Option<Id>)
    requires Ordered(s) && hodId != 0
    ensures HeadError(s, Some(hodId), except) == Some((400, "Invalid HOD user")) <==> !IsHodUser(s, hodId)
    ensures HeadError(s, Some(hodId), except) == Some((409, "HOD is already assigned to another department")) <==>
              IsHodUser(s, hodId) && HeadTaken(s, hodId, except)
  {
    HeadIsHodExact(s, hodId);
  }

  /** In a valid store the user `findUnique` returns is the one row with that id. */
  lemma HeadIsHodExact(s: Store, hod: Id)
    requires Ordered(s)
    ensures HeadIsHod(s, hod) <==> IsHodUser(s, hod)
  {
    if HasUser(s, hod) {
      var i :| 0 <= i < |s.users| && s.users[i].id == hod;
      UserAt(s, i);
    }
  }

  // ----- POST / -----

  function CreateError(s: Store, caller: Claims, b: DepartmentBody): Option<(int, string)>
  {
    if Gate(caller, MANAGERS).Deny? then Some((403, FORBIDDEN))
    else if !Given(b.name) then Some((400, "Department name is required"))
    else if NameTaken(s, b.name.value, None) then Some((409, "Department already exists"))
    else HeadError(s, b.hodId, None)
  }

  function CreateDepartment(s: Store, caller: Claims, b: DepartmentBody, writeOk: bool): (r: Step<DepartmentView>)
    ensures caller.role !in MANAGERS ==> r == Reject(s, 403, FORBIDDEN)
    ensures caller.role in MANAGERS && !Given(b.name) ==> r == Reject(s, 400, "Department name is required")
    ensures caller.role in MANAGERS && Given(b.name) && NameTaken(s, b.name.value, None) ==>
              r == Reject(s, 409, "Department already exists")
    ensures caller.role in MANAGERS && Given(b.name) && !NameTaken(s, b.name.value, None) &&
            IdGiven(b.hodId) && !HeadIsHod(s, b.hodId.value) ==>
              r == Reject(s, 400, "Invalid HOD user")
    ensures caller.role in MANAGERS && Given(b.name) && !NameTaken(s, b.name.value, None) &&
            IdGiven(b.hodId) && HeadIsHod(s, b.hodId.value) && HeadTaken(s, b.hodId.value, None) ==>
              r == Reject(s, 409, "HOD is already assigned to another department")
    ensures r.reply.Ok? <==>
              && caller.role in MANAGERS
              && Given(b.name)
              && !NameTaken(s, b.name.value, None)
              && (IdGiven(b.hodId) ==> HeadIsHod(s, b.hodId.value) && !HeadTaken(s, b.hodId.value, None))
    ensures r.reply.Fail? ==> r.store == s
    ensures r.reply.Ok? ==>
              && Given(b.name) && !NameTaken(s, b.name.value, None)
              && (IdGiven(b.hodId) ==> IsHodUser(s, b.hodId.value) && !HeadTaken(s, b.hodId.value, None))
              && r.reply.code == 201
              && r.reply.value.department == Department(s.nextDepartmentId, b.name.value, b.description, IdField(b.hodId))
              && r.store.(departments := s.departments, nextDepartmentId := s.nextDepartmentId, audit := s.audit) == s
              && r.store.departments == s.departments + [r.reply.value.department]
              && r.store.nextDepartmentId == s.nextDepartmentId + 1
              && (r.store.audit == s.audit ||
                  r.store.audit == s.audit + [AuditEntry("USER_CREATE", "Department created: " + b.name.value, caller.id,
                                                         map["departmentId" := Num(s.nextDepartmentId)])])
  {
    match CreateError(s, caller, b)
    case Some((code, error)) => Reject(s, code, error)
    case None =>
      var d := Department(s.nextDepartmentId, b.name.value, b.description, IdField(b.hodId));
      var t := s.(departments := s.departments + [d], nextDepartmentId := s.nextDepartmentId + 1);
      Step(Ok(201, ViewOf(t, d)),
           Middleware.AuditLog(t, "USER_CREATE", "Department created: " + d.name, caller.id, map["departmentId" := Num(d.id)], writeOk))
  }

  lemma AppendDepartmentOrdered(s: Store, d: Department, t: Store)
    requires IdsBelowCounters(s) && Ordered(s)
    requires d.id == s.nextDepartmentId
    requires t == s.(departments := s.departments + [d], nextDepartmentId := s.nextDepartmentId + 1)
    ensures IdsBelowCounters(t) && Ordered(t)
  {
    forall i, j | 0 <= i < j < |t.departments|
      ensures DepartmentKey(t.departments[i]) < DepartmentKey(t.departments[j])
    {
      if j < |s.departments| {
        assert DepartmentKey(s.departments[i]) < DepartmentKey(s.departments[j]);
      }
    }
  }

  lemma AppendDepartmentUnique(s: Store, d: Department, t: Store)
    requires UniqueColumns(s)
    requires !NameTaken(s, d.name, None)
    requires d.hodId.Some? ==> !HeadTaken(s, d.hodId.value, None)
    requires t == s.(departments := s.departments + [d], nextDepartmentId := s.nextDepartmentId + 1)
    ensures UniqueColumns(t)
  {
    assert Distinct(t.departments, DepartmentName);
  }

  lemma AppendDepartmentRefs(s: Store, d: Department, t: Store)
    requires NoDangling(s)
    requires d.hodId.Some? ==> HasUser(s, d.hodId.value)
    requires t == s.(departments := s.departments + [d], nextDepartmentId := s.nextDepartmentId + 1)
    ensures NoDangling(t)
  {
    forall id | HasDepartment(s, id)
      ensures HasDepartment(t, id)
    {
      var i :| 0 <= i < |s.departments| && s.departments[i].id == id;
      assert t.departments[i] == s.departments[i];
    }
    forall i | 0 <= i < |t.departments| && t.departments[i].hodId.Some?
      ensures HasUser(t, t.departments[i].hodId.value)
    {
      if i < |s.departments| { assert t.departments[i] == s.departments[i]; }
    }
  }

  lemma CreateDepartmentValid(s: Store, caller: Claims, b: DepartmentBody, writeOk: bool)
    requires Valid(s)
    ensures Valid(CreateDepartment(s, caller, b, writeOk).store)
  {
    if CreateError(s, caller, b).None? {
      var d := Department(s.nextDepartmentId, b.name.value, b.description, IdField(b.hodId));
      var t := s.(departments := s.departments + [d], nextDepartmentId := s.nextDepartmentId + 1);
      var meta := map["departmentId" := Num(d.id)];
      assert CreateDepartment(s, caller, b, writeOk).store ==
             Middleware.AuditLog(t, "USER_CREATE", "Department created: " + d.name, caller.id, meta, writeOk);
      assert Valid(t) by {
        AppendDepartmentOrdered(s, d, t);
        AppendDepartmentUnique(s, d, t);
        AppendDepartmentRefs(s, d, t);
      }
      Middleware.AuditLogValid(t, "USER_CREATE", "Department created: " + d.name, caller.id, meta, writeOk);
    }
  }

  // ----- PUT /:id -----

  function UpdateError(s: Store, caller: Claims, id: Id, b: DepartmentBody): Option<(int, string)>
  {
    if Gate(caller, MANAGERS).Deny? then Some((403, FORBIDDEN))
    else if !HasDepartment(s, id) then Some((404, "Department not found"))
    else if NameClash(s, id, b) then Some((409, "Department name already exists"))
    else if HeadError(s, b.hodId, Some(id)).Some? then HeadError(s, b.hodId, Some(id))
    // an empty name skips the name check and can violate the unique name column
    else if b.name == Some("") && NameTaken(s, "", Some(id)) then Some((500, "Failed to update department"))
    else None
  }

  /** The body renames the existing department `id` to a name another department holds. */
  predicate NameClash(s: Store, id: Id, b: DepartmentBody)
    requires HasDepartment(s, id)
  {
    Given(b.name) && b.name.value != DepartmentById(s, id).value.name && NameTaken(s, b.name.value, Some(id))
  }

  /** The row after `prisma.department.update`: the head is always written. */
  function Edited(b: DepartmentBody): Department -> Department
  {
    (d: Department) =>
      d.(name := b.name.GetOr(d.name),
         description := if b.description.Some? then b.description else d.description,
         hodId := IdField(b.hodId))
  }

  function UpdateDepartment(s: Store, caller: Claims, id: Id, b: DepartmentBody, writeOk: bool): (r: Step<DepartmentView>)
    ensures caller.role !in MANAGERS ==> r == Reject(s, 403, FORBIDDEN)
    ensures caller.role in MANAGERS && !HasDepartment(s, id) ==> r == Reject(s, 404, "Department not found")
    ensures caller.role in MANAGERS && HasDepartment(s, id) && NameClash(s, id, b) ==>
              r == Reject(s, 409, "Department name already exists")
    ensures caller.role in MANAGERS && HasDepartment(s, id) && !NameClash(s, id, b) &&
            IdGiven(b.hodId) && !HeadIsHod(s, b.hodId.value) ==>
              r == Reject(s, 400, "Invalid HOD user")
    ensures caller.role in MANAGERS && HasDepartment(s, id) && !NameClash(s, id, b) &&
            IdGiven(b.hodId) && HeadIsHod(s, b.hodId.value) && HeadTaken(s, b.hodId.value, Some(id)) ==>
              r == Reject(s, 409, "HOD is already assigned to another department")
    ensures caller.role in MANAGERS && HasDepartment(s, id) && !NameClash(s, id, b) &&
            (IdGiven(b.hodId) ==> HeadIsHod(s, b.hodId.value) && !HeadTaken(s, b.hodId.value, Some(id))) &&
            b.name == Some("") && NameTaken(s, "", Some(id)) ==>
              r == Reject(s, 500, "Failed to update department")
    ensures r.reply.Ok? <==>
              && caller.role in MANAGERS
              && HasDepartment(s, id)
              && !NameClash(s, id, b)
              && (IdGiven(b.hodId) ==> HeadIsHod(s, b.hodId.value) && !HeadTaken(s, b.hodId.value, Some(id)))
              && !(b.name == Some("") && NameTaken(s, "", Some(id)))
    ensures r.reply.Fail? ==> r.store == s
    ensures r.reply.Ok? ==>
              && r.reply.code == 200
              && r.store.(departments := s.departments, audit := s.audit) == s
              && |r.store.departments| == |s.departments|
              && (forall i :: 0 <= i < |s.departments| && s.departments[i].id != id ==> r.store.departments[i] == s.departments[i])
              && forall i :: 0 <= i < |s.departments| && s.departments[i].id == id ==>
                   && r.store.departments[i].id == id
                   && r.store.departments[i].name == b.name.GetOr(s.departments[i].name)
                   && (b.description.None? ==> r.store.departments[i].description == s.departments[i].description)
                   && (b.description.Some? ==> r.store.departments[i].description == b.description)
                   && (IdGiven(b.hodId) ==> r.store.departments[i].hodId == b.hodId)
                   && (!IdGiven(b.hodId) ==> r.store.departments[i].hodId.None?)
    ensures r.reply.Ok? ==>
              && DepartmentById(r.store, id).Some?
              && r.reply.value == ViewOf(r.store, DepartmentById(r.store, id).value)
    ensures r.reply.Ok? ==>
              r.store.audit == s.audit ||
              r.store.audit == s.audit + [AuditEntry("USER_UPDATE", "Department updated: " + b.name.GetOr(DepartmentById(s, id).value.name),
                                                     caller.id, map["departmentId" := Num(id)])]
  {
    match UpdateError(s, caller, id, b)
    case Some((code, error)) => Reject(s, code, error)
    case None =>
      var t := s.(departments := MapWhere(s.departments, DepartmentWithId(id), Edited(b)));
      var updated := Edited(b)(DepartmentById(s, id).value);
      var logged := Middleware.AuditLog(t, "USER_UPDATE", "Department updated: " + updated.name, caller.id, map["departmentId" := Num(id)], writeOk);
      FindMapWhere(s.departments, DepartmentWithId(id), Edited(b));
      assert logged.departments == t.departments && logged.users == s.users;
      assert DepartmentById(logged, id) == Some(updated);
      Step(Ok(200, ViewOf(t, updated)), logged)
  }

  lemma EditedValid(s: Store, caller: Claims, id: Id, b: DepartmentBody)
    requires Valid(s) && UpdateError(s, caller, id, b).None?
    ensures Valid(s.(departments := MapWhere(s.departments, DepartmentWithId(id), Edited(b))))
  {
    var t := s.(departments := MapWhere(s.departments, DepartmentWithId(id), Edited(b)));
    var d := DepartmentById(s, id).value;
    var k :| 0 <= k < |s.departments| && s.departments[k] == d;
    OnlyRowWithId(s.departments, k);
    EditAccepted(s, caller, id, b, k);
    EditedUnique(s, id, b, k);
    EditedHeadsExist(s, caller, id, b);
    DepartmentsRewritten(s, t);
  }

  /** An accepted edit names no other department's name and no other department's head. */
  lemma EditAccepted(s: Store, caller: Claims, id: Id, b: DepartmentBody, k: nat)
    requires Ordered(s) && UpdateError(s, caller, id, b).None?
    requires k < |s.departments| && s.departments[k].id == id
    ensures b.name.None? || b.name.value == s.departments[k].name || !NameTaken(s, b.name.value, Some(id))
    ensures IdGiven(b.hodId) ==> !HeadTaken(s, b.hodId.value, Some(id))
  {
    DepartmentAt(s, k);
  }

  /** In an ascending table the row at `k` is the only one with its id. */
  lemma OnlyRowWithId(ds: seq<Department>, k: nat)
    requires Ascending(ds, DepartmentKey) && k < |ds|
    ensures forall i :: 0 <= i < |ds| && ds[i].id == ds[k].id ==> i == k
  {
    AscendingDistinct(ds, DepartmentKey);
    forall i | 0 <= i < |ds| && ds[i].id == ds[k].id ensures i == k {
      if i != k { assert false; }
    }
  }

  /** Every head after an accepted edit is an existing user. */
  lemma EditedHeadsExist(s: Store, caller: Claims, id: Id, b: DepartmentBody)
    requires NoDangling(s) && UpdateError(s, caller, id, b).None?
    ensures var ds := MapWhere(s.departments, DepartmentWithId(id), Edited(b));
            forall i :: 0 <= i < |ds| && ds[i].hodId.Some? ==> HasUser(s, ds[i].hodId.value)
  {
  }

  /** A name and a head no other department holds keep both columns unique. */
  lemma EditedUnique(s: Store, id: Id, b: DepartmentBody, k: nat)
    requires Distinct(s.departments, DepartmentName) && HeadsDistinct(s.departments)
    requires k < |s.departments| && s.departments[k].id == id
    requires forall i :: 0 <= i < |s.departments| && s.departments[i].id == id ==> i == k
    requires b.name.None? || b.name.value == s.departments[k].name || !NameTaken(s, b.name.value, Some(id))
    requires IdGiven(b.hodId) ==> !HeadTaken(s, b.hodId.value, Some(id))
    ensures Distinct(MapWhere(s.departments, DepartmentWithId(id), Edited(b)), DepartmentName)
    ensures HeadsDistinct(MapWhere(s.departments, DepartmentWithId(id), Edited(b)))
  {
    var ds := MapWhere(s.departments, DepartmentWithId(id), Edited(b));
    forall i, j | 0 <= i < |ds| && 0 <= j < |ds| && i != j
      ensures DepartmentName(ds[i]) != DepartmentName(ds[j])
    {
      assert DepartmentName(s.departments[i]) != DepartmentName(s.departments[j]);
    }
    forall i, j | 0 <= i < |ds| && 0 <= j < |ds| && i != j && ds[i].hodId.Some?
      ensures ds[i].hodId != ds[j].hodId
    {
      if i != k && j != k {
        assert s.departments[i].hodId != s.departments[j].hodId;
      }
    }
  }

  lemma UpdateDepartmentValid(s: Store, caller: Claims, id: Id, b: DepartmentBody, writeOk: bool)
    requires Valid(s)
    ensures Valid(UpdateDepartment(s, caller, id, b, writeOk).store)
  {
    if UpdateError(s, caller, id, b).None? {
      var t := s.(departments := MapWhere(s.departments, DepartmentWithId(id), Edited(b)));
      var updated := Edited(b)(DepartmentById(s, id).value);
      var meta := map["departmentId" := Num(id)];
      assert UpdateDepartment(s, caller, id, b, writeOk).store ==
             Middleware.AuditLog(t, "USER_UPDATE", "Department updated: " + updated.name, caller.id, meta, writeOk);
      assert Valid(t) by { EditedValid(s, caller, id, b); }
      Middleware.AuditLogValid(t, "USER_UPDATE", "Department updated: " + updated.name, caller.id, meta, writeOk);
    }
  }

  // ----- DELETE /:id -----

  function InDepartment(id: Id): User -> bool { (u: User) => u.departmentId == Some(id) }
  function FiledUnder(id: Id): Report -> bool { (x: Report) => x.departmentId == Some(id) }
  function NotDepartment(id: Id): Department -> bool { (d: Department) => d.id != id }

  function DeleteDepartment(s: Store, caller: Claims, id: Id, writeOk: bool): (r: Step<string>)
    ensures caller.role != ADMIN ==> r == Reject(s, 403, FORBIDDEN)
    ensures caller.role == ADMIN && !HasDepartment(s, id) ==> r == Reject(s, 404, "Department not found")
    ensures caller.role == ADMIN && HasDepartment(s, id) && Count(s.users, InDepartment(id)) > 0 ==>
              r == Reject(s, 400, "Cannot delete department with assigned staff")
    ensures caller.role == ADMIN && HasDepartment(s, id) && Count(s.users, InDepartment(id)) == 0 &&
            Count(s.reports, FiledUnder(id)) > 0 ==>
              r == Reject(s, 400, "Cannot delete department with associated reports")
    ensures r.reply.Ok? <==> caller.role == ADMIN && HasDepartment(s, id) && Unoccupied(s, id)
    ensures r.reply.Fail? ==> r.store == s
    ensures r.reply.Ok? ==>
              && r.reply == Ok(200, "Department deleted successfully")
              && r.store.(departments := s.departments, audit := s.audit) == s
              && !HasDepartment(r.store, id)
              && (forall i :: 0 <= i < |s.departments| && s.departments[i].id != id ==> s.departments[i] in r.store.departments)
              && (forall i :: 0 <= i < |r.store.departments| ==> r.store.departments[i] in s.departments)
              && (r.store.audit == s.audit ||
                  r.store.audit == s.audit + [AuditEntry("USER_DELETE", "Department deleted: " + DepartmentById(s, id).value.name,
                                                         caller.id, map["departmentId" := Num(id)])])
  {
    UnoccupiedCounts(s, id);
    match DeleteError(s, caller, id)
    case Some((code, error)) => Reject(s, code, error)
    case None =>
      var t := s.(departments := Filter(s.departments, NotDepartment(id)));
      DroppedDepartmentGone(s, id);
      Step(Ok(200, "Department deleted successfully"),
           Middleware.AuditLog(t, "USER_DELETE", "Department deleted: " + DepartmentById(s, id).value.name, caller.id,
                               map["departmentId" := Num(id)], writeOk))
  }

  /** No user belongs to the department and no report is filed under it. */
  predicate Unoccupied(s: Store, id: Id)
  {
    && (forall i :: 0 <= i < |s.users| ==> s.users[i].departmentId != Some(id))
    && (forall i :: 0 <= i < |s.reports| ==> s.reports[i].departmentId != Some(id))
  }

  /** The two `_count`s of the delete are zero exactly when the department is unoccupied. */
  lemma UnoccupiedCounts(s: Store, id: Id)
    ensures Unoccupied(s, id) <==> Count(s.users, InDepartment(id)) == 0 && Count(s.reports, FiledUnder(id)) == 0
  {
    CountZero(s.users, InDepartment(id));
    CountZero(s.reports, FiledUnder(id));
  }

  lemma DroppedDepartmentGone(s: Store, id: Id)
    ensures !HasDepartment(s.(departments := Filter(s.departments, NotDepartment(id))), id)
  {
    var t := s.(departments := Filter(s.departments, NotDepartment(id)));
    forall i | 0 <= i < |t.departments| ensures t.departments[i].id != id {
      assert NotDepartment(id)(t.departments[i]);
    }
  }

  /** The refusals of DELETE /:id in their order. */
  function DeleteError(s: Store, caller: Claims, id: Id): Option<(int, string)>
  {
    if Gate(caller, ADMINS_ONLY).Deny? then Some((403, FORBIDDEN))
    else if !HasDepartment(s, id) then Some((404, "Department not found"))
    else if Count(s.users, InDepartment(id)) > 0 then Some((400, "Cannot delete department with assigned staff"))
    else if Count(s.reports, FiledUnder(id)) > 0 then Some((400, "Cannot delete department with associated reports"))
    else None
  }

  lemma DropDepartmentValid(s: Store, id: Id)
    requires Valid(s)
    requires forall i :: 0 <= i < |s.users| ==> s.users[i].departmentId != Some(id)
    requires forall i :: 0 <= i < |s.reports| ==> s.reports[i].departmentId != Some(id)
    ensures Valid(s.(departments := Filter(s.departments, NotDepartment(id))))
  {
    var t := s.(departments := Filter(s.departments, NotDepartment(id)));
    DropDepartmentOrdered(s, t, id);
    DropDepartmentUnique(s, t, id);
    DropDepartmentRefs(s, t, id);
  }

  lemma DropDepartmentOrdered(s: Store, t: Store, id: Id)
    requires IdsBelowCounters(s) && Ordered(s)
    requires t == s.(departments := Filter(s.departments, NotDepartment(id)))
    ensures IdsBelowCounters(t) && Ordered(t)
  {
    FilterAscending(s.departments, NotDepartment(id), DepartmentKey);
    forall i | 0 <= i < |t.departments|
      ensures 0 < t.departments[i].id < t.nextDepartmentId
    {
      assert t.departments[i] in s.departments;
    }
  }

  lemma DropDepartmentUnique(s: Store, t: Store, id: Id)
    requires UniqueColumns(s) && Ascending(s.departments, DepartmentKey)
    requires t == s.(departments := Filter(s.departments, NotDepartment(id)))
    ensures UniqueColumns(t)
  {
    FilterDistinct(s.departments, NotDepartment(id), DepartmentName);
    forall i, j | 0 <= i < |t.departments| && 0 <= j < |t.departments| && i != j && t.departments[i].hodId.Some?
      ensures t.departments[i].hodId != t.departments[j].hodId
    {
      FilterHeads(s.departments, NotDepartment(id), i, j);
    }
  }

  lemma DropDepartmentRefs(s: Store, t: Store, id: Id)
    requires NoDangling(s)
    requires forall i :: 0 <= i < |s.users| ==> s.users[i].departmentId != Some(id)
    requires forall i :: 0 <= i < |s.reports| ==> s.reports[i].departmentId != Some(id)
    requires t == s.(departments := Filter(s.departments, NotDepartment(id)))
    ensures NoDangling(t)
  {
    forall x | HasDepartment(s, x) && x != id
      ensures HasDepartment(t, x)
    {
      var i :| 0 <= i < |s.departments| && s.departments[i].id == x;
      assert s.departments[i] in t.departments;
    }
    forall i | 0 <= i < |t.departments| && t.departments[i].hodId.Some?
      ensures HasUser(t, t.departments[i].hodId.value)
    {
      assert t.departments[i] in s.departments;
    }
  }

  /** Dropping departments keeps their heads distinct. */
  lemma FilterHeads(ds: seq<Department>, p: Department -> bool, i: nat, j: nat)
    requires HeadsDistinct(ds) && Ascending(ds, DepartmentKey)
    requires i < |Filter(ds, p)| && j < |Filter(ds, p)| && i != j && Filter(ds, p)[i].hodId.Some?
    ensures Filter(ds, p)[i].hodId != Filter(ds, p)[j].hodId
  {
    var f := Filter(ds, p);
    FilterAscending(ds, p, DepartmentKey);
    assert DepartmentKey(f[i]) != DepartmentKey(f[j]);
    var a :| 0 <= a < |ds| && ds[a] == f[i];
    var b :| 0 <= b < |ds| && ds[b] == f[j];
    assert a != b;
  }

  lemma DeleteDepartmentValid(s: Store, caller: Claims, id: Id, writeOk: bool)
    requires Valid(s)
    ensures Valid(DeleteDepartment(s, caller, id, writeOk).store)
  {
    if DeleteError(s, caller, id).None? {
      var t := s.(departments := Filter(s.departments, NotDepartment(id)));
      var details := "Department deleted: " + DepartmentById(s, id).value.name;
      var meta := map["departmentId" := Num(id)];
      assert DeleteDepartment(s, caller, id, writeOk).store == Middleware.AuditLog(t, "USER_DELETE", details, caller.id, meta, writeOk);
      CountZero(s.users, InDepartment(id));
      CountZero(s.reports, FiledUnder(id));
      DropDepartmentValid(s, id);
      Middleware.AuditLogValid(t, "USER_DELETE", details, caller.id, meta, writeOk);
    }
  }

  // ----- GET /:id -----

  /** A department with its head, its staff and its report count. */
  datatype DepartmentDetail = DepartmentDetail(department: Department, hod: Option<User>, staff: seq<User>, reportCount: nat)

  /** GET /:id: open to every signed-in role. */
  function GetDepartment(s: Store, id: Id): (r: Step<DepartmentDetail>)
    ensures r.store == s
    ensures r.reply.Ok? <==> HasDepartment(s, id)
    ensures r.reply.Fail? ==> r.reply == Fail(404, "Department not found")
    ensures r.reply.Ok? ==>
              var v := r.reply.value;
              && r.reply.code == 200
              && v.department in s.departments && v.department.id == id
              && (v.hod.Some? ==> v.department.hodId == Some(v.hod.value.id) && v.hod.value in s.users)
              && (v.hod.Some? <==> v.department.hodId.Some? && HasUser(s, v.department.hodId.value))
              && (forall i :: 0 <= i < |v.staff| ==> v.staff[i] in s.users && v.staff[i].departmentId == Some(id))
              && (forall i :: 0 <= i < |s.users| && s.users[i].departmentId == Some(id) ==> s.users[i] in v.staff)
              && v.reportCount == Count(s.reports, FiledUnder(id))
  {
    match DepartmentById(s, id)
    case None => Reject(s, 404, "Department not found")
    case Some(d) =>
      var view := ViewOf(s, d);
      Step(Ok(200, DepartmentDetail(d, view.hod, Filter(s.users, InDepartment(id)), Count(s.reports, FiledUnder(id)))), s)
  }
  /**
   * The detail predicts the delete: an ADMIN's delete succeeds exactly when
   * the detail shows no staff and no reports.
   */
  lemma DetailPredictsDelete(s: Store, caller: Claims, id: Id, writeOk: bool)
    requires caller.role == ADMIN && HasDepartment(s, id)
    ensures var v := GetDepartment(s, id).reply.value;
            DeleteDepartment(s, caller, id, writeOk).reply.Ok? <==> |v.staff| == 0 && v.reportCount == 0
  {
    UnoccupiedCounts(s, id);
  }


  // ----- POST /:id/staff -----

  /** The user is one of `ids` (`where: { id: { in: staffIds } }`). */
  function ListedIn(ids: seq<Id>): User -> bool { (u: User) => u.id in ids }

  /** `data: { departmentId }` of a user update. */
  function MoveTo(d: Option<Id>): User -> User { (u: User) => u.(departmentId := d) }

  datatype Assignment = Assignment(message: string, assignedCount: nat)

  function AssignError(s: Store, caller: Claims, id: Id, staffIds: Option<seq<Id>>): Option<(int, string)>
  {
    if Gate(caller, MANAGERS).Deny? then Some((403, FORBIDDEN))
    else if staffIds.None? then Some((400, "Staff IDs array is required"))
    else if !HasDepartment(s, id) then Some((404, "Department not found"))
    else if Count(s.users, ListedIn(staffIds.value)) != |staffIds.value| then Some((400, "Some staff members not found"))
    else None
  }

  /**
   * POST /:id/staff. `staffIds` is None when the body has no array. The
   * number of users found is compared with the length of the array, so an
   * id listed twice reads as a missing user.
   */
  function AssignStaff(s: Store, caller: Claims, id: Id, staffIds: Option<seq<Id>>, writeOk: bool): (r: Step<Assignment>)
    ensures caller.role !in MANAGERS ==> r == Reject(s, 403, FORBIDDEN)
    ensures caller.role in MANAGERS && staffIds.None? ==> r == Reject(s, 400, "Staff IDs array is required")
    ensures caller.role in MANAGERS && staffIds.Some? && !HasDepartment(s, id) ==> r == Reject(s, 404, "Department not found")
    ensures caller.role in MANAGERS && staffIds.Some? && HasDepartment(s, id) && Count(s.users, ListedIn(staffIds.value)) != |staffIds.value| ==>
              r == Reject(s, 400, "Some staff members not found")
    ensures r.reply.Fail? ==> r.store == s
    ensures r.reply.Ok? ==>
              && staffIds.Some? && HasDepartment(s, id)
              && r.reply == Ok(200, Assignment("Staff assigned successfully", |staffIds.value|))
              && r.store.(users := s.users, audit := s.audit) == s
              && |r.store.users| == |s.users|
              && (forall i :: 0 <= i < |s.users| && s.users[i].id in staffIds.value ==>
                    r.store.users[i] == s.users[i].(departmentId := Some(id)))
              && (forall i :: 0 <= i < |s.users| && s.users[i].id !in staffIds.value ==> r.store.users[i] == s.users[i])
              && (r.store.audit == s.audit ||
                  r.store.audit == s.audit + [AuditEntry("USER_UPDATE", "Staff assigned to department: " + DepartmentById(s, id).value.name,
                                                         caller.id, map["departmentId" := Num(id), "staffIds" := Nums(staffIds.value)])])
  {
    match AssignError(s, caller, id, staffIds)
    case Some((code, error)) => Reject(s, code, error)
    case None =>
      var ids := staffIds.value;
      var t := s.(users := MapWhere(s.users, ListedIn(ids), MoveTo(Some(id))));
      Step(Ok(200, Assignment("Staff assigned successfully", |ids|)),
           Middleware.AuditLog(t, "USER_UPDATE", "Staff assigned to department: " + DepartmentById(s, id).value.name,
                               caller.id, map["departmentId" := Num(id), "staffIds" := Nums(ids)], writeOk))
  }

  /** The ids of the rows of `us`. */
  ghost function UserIds(us: seq<User>): set<Id>
  {
    set u | u in us :: u.id
  }

  /** With ids ascending, the users matched by `in: ids` are as many as the ids that name a user. */
  lemma {:induction false} CountListed(us: seq<User>, ids: seq<Id>)
    requires Ascending(us, UserKey)
    ensures Count(us, ListedIn(ids)) == |Elements(ids) * UserIds(us)|
    decreases |us|
  {
    if |us| == 0 {
      assert UserIds(us) == {};
    } else {
      var p, u := us[..|us| - 1], us[|us| - 1];
      assert us == p + [u];
      UserIdsSnoc(p, u);
      CountListed(p, ids);
      FilterAppend(p, u, ListedIn(ids));
      IntersectionSnoc(Elements(ids), UserIds(p), u.id);
    }
  }

  /** The prefix of an ascending table is ascending, and the last id is new to it. */
  lemma UserIdsSnoc(p: seq<User>, u: User)
    requires Ascending(p + [u], UserKey)
    ensures Ascending(p, UserKey)
    ensures UserIds(p + [u]) == UserIds(p) + {u.id}
    ensures u.id !in UserIds(p)
  {
    var us := p + [u];
    forall i, j | 0 <= i < j < |p| ensures UserKey(p[i]) < UserKey(p[j]) {
      assert UserKey(us[i]) < UserKey(us[j]);
    }
    forall v | v in p ensures v.id != u.id {
      var k :| 0 <= k < |p| && p[k] == v;
      assert UserKey(us[k]) < UserKey(us[|us| - 1]);
    }
  }

  /** Adding a new value to `a` adds one to its intersection with `b` when `b` holds it. */
  lemma IntersectionSnoc(b: set<Id>, a: set<Id>, x: Id)
    requires x !in a
    ensures |b * (a + {x})| == |b * a| + if x in b then 1 else 0
  {
    if x in b {
      assert b * (a + {x}) == (b * a) + {x};
    } else {
      assert b * (a + {x}) == b * a;
    }
  }

  /**
   * In a store with unique user ids the count check passes exactly when
   * every listed id names a user and no id is listed twice.
   */
  lemma StaffFoundExactly(s: Store, ids: seq<Id>)
    requires Ordered(s)
    ensures Count(s.users, ListedIn(ids)) == |ids| <==>
              NoDuplicates(ids) && forall i :: 0 <= i < |ids| ==> HasUser(s, ids[i])
  {
    CountListed(s.users, ids);
    ElementsCard(ids);
    IntersectionCard(Elements(ids), UserIds(s.users));
    assert Elements(ids) <= UserIds(s.users) <==> forall i :: 0 <= i < |ids| ==> HasUser(s, ids[i]) by {
      if forall i :: 0 <= i < |ids| ==> HasUser(s, ids[i]) {
        forall x | x in Elements(ids) ensures x in UserIds(s.users) {
          var i :| 0 <= i < |ids| && ids[i] == x;
          var k :| 0 <= k < |s.users| && s.users[k].id == x;
          assert s.users[k] in s.users;
        }
      }
      if Elements(ids) <= UserIds(s.users) {
        forall i | 0 <= i < |ids| ensures HasUser(s, ids[i]) {
          assert ids[i] in Elements(ids);
          var u :| u in s.users && u.id == ids[i];
          var k :| 0 <= k < |s.users| && s.users[k] == u;
        }
      }
    }
  }

  /**
   * Assignment succeeds exactly for a manager naming an existing department
   * and distinct existing users; a manager naming an existing department
   * and any other list gets the 400.
   */
  lemma AssignStaffAccepts(s: Store, caller: Claims, id: Id, ids: seq<Id>, writeOk: bool)
    requires Ordered(s)
    ensures AssignStaff(s, caller, id, Some(ids), writeOk).reply.Ok? <==>
              && caller.role in MANAGERS && HasDepartment(s, id)
              && NoDuplicates(ids) && forall i :: 0 <= i < |ids| ==> HasUser(s, ids[i])
    ensures caller.role in MANAGERS && HasDepartment(s, id) &&
            !(NoDuplicates(ids) && forall i :: 0 <= i < |ids| ==> HasUser(s, ids[i])) ==>
              AssignStaff(s, caller, id, Some(ids), writeOk) == Reject(s, 400, "Some staff members not found")
  {
    StaffFoundExactly(s, ids);
  }

  lemma AssignStaffValid(s: Store, caller: Claims, id: Id, staffIds: Option<seq<Id>>, writeOk: bool)
    requires Valid(s)
    ensures Valid(AssignStaff(s, caller, id, staffIds, writeOk).store)
  {
    if AssignError(s, caller, id, staffIds).None? {
      var ids := staffIds.value;
      var t := s.(users := MapWhere(s.users, ListedIn(ids), MoveTo(Some(id))));
      var details := "Staff assigned to department: " + DepartmentById(s, id).value.name;
      var meta := map["departmentId" := Num(id), "staffIds" := Nums(ids)];
      assert AssignStaff(s, caller, id, staffIds, writeOk).store == Middleware.AuditLog(t, "USER_UPDATE", details, caller.id, meta, writeOk);
      assert Valid(t) by { MovedUsersValid(s, ListedIn(ids), Some(id)); }
      Middleware.AuditLogValid(t, "USER_UPDATE", details, caller.id, meta, writeOk);
    }
  }

  /** Moving users to an existing department, or to none, keeps the store valid. */
  lemma MovedUsersValid(s: Store, p: User -> bool, d: Option<Id>)
    requires Valid(s) && (d.Some? ==> HasDepartment(s, d.value))
    ensures Valid(s.(users := MapWhere(s.users, p, MoveTo(d))))
  {
    var t := s.(users := MapWhere(s.users, p, MoveTo(d)));
    forall i, j | 0 <= i < |t.users| && 0 <= j < |t.users| && i != j
      ensures Email(t.users[i]) != Email(t.users[j])
    {
      assert Email(s.users[i]) != Email(s.users[j]);
    }
    UsersRewritten(s, t);
  }

  // ----- DELETE /:id/staff/:staffId -----

  function RemoveError(s: Store, caller: Claims, id: Id, staffId: Id): Option<(int, string)>
  {
    if Gate(caller, MANAGERS).Deny? then Some((403, FORBIDDEN))
    else if !HasDepartment(s, id) then Some((404, "Department not found"))
    else if !HasUser(s, staffId) then Some((404, "Staff member not found"))
    else if UserById(s, staffId).value.departmentId != Some(id) then Some((400, "Staff member is not assigned to this department"))
    else None
  }

  /** DELETE /:id/staff/:staffId */
  function RemoveStaff(s: Store, caller: Claims, id: Id, staffId: Id, writeOk: bool): (r: Step<string>)
    ensures caller.role !in MANAGERS ==> r == Reject(s, 403, FORBIDDEN)
    ensures caller.role in MANAGERS && !HasDepartment(s, id) ==> r == Reject(s, 404, "Department not found")
    ensures caller.role in MANAGERS && HasDepartment(s, id) && !HasUser(s, staffId) ==> r == Reject(s, 404, "Staff member not found")
    ensures r.reply.Fail? ==> r.store == s
    ensures r.reply.Ok? ==>
              && HasDepartment(s, id) && HasUser(s, staffId)
              && r.reply == Ok(200, "Staff removed successfully")
              && r.store.(users := s.users, audit := s.audit) == s
              && |r.store.users| == |s.users|
              && (forall i :: 0 <= i < |s.users| && s.users[i].id == staffId ==> r.store.users[i] == s.users[i].(departmentId := None))
              && (forall i :: 0 <= i < |s.users| && s.users[i].id != staffId ==> r.store.users[i] == s.users[i])
              && (r.store.audit == s.audit ||
                  r.store.audit == s.audit + [AuditEntry("USER_UPDATE", "Staff removed from department: " + DepartmentById(s, id).value.name,
                                                         caller.id, map["departmentId" := Num(id), "staffId" := Num(staffId)])])
  {
    match RemoveError(s, caller, id, staffId)
    case Some((code, error)) => Reject(s, code, error)
    case None =>
      var t := s.(users := MapWhere(s.users, WithId(staffId), MoveTo(None)));
      Step(Ok(200, "Staff removed successfully"),
           Middleware.AuditLog(t, "USER_UPDATE", "Staff removed from department: " + DepartmentById(s, id).value.name,
                               caller.id, map["departmentId" := Num(id), "staffId" := Num(staffId)], writeOk))
  }

  /** In a store with unique user ids, removal is refused exactly when the user sits elsewhere. */
  lemma RemoveStaffChecksMembership(s: Store, caller: Claims, id: Id, staffId: Id, i: nat, writeOk: bool)
    requires Ordered(s) && caller.role in MANAGERS && HasDepartment(s, id)
    requires i < |s.users| && s.users[i].id == staffId
    ensures RemoveStaff(s, caller, id, staffId, writeOk).reply.Ok? <==> s.users[i].departmentId == Some(id)
    ensures s.users[i].departmentId != Some(id) ==>
              RemoveStaff(s, caller, id, staffId, writeOk) == Reject(s, 400, "Staff member is not assigned to this department")
  {
    UserAt(s, i);
  }

  lemma RemoveStaffValid(s: Store, caller: Claims, id: Id, staffId: Id, writeOk: bool)
    requires Valid(s)
    ensures Valid(RemoveStaff(s, caller, id, staffId, writeOk).store)
  {
    if RemoveError(s, caller, id, staffId).None? {
      var t := s.(users := MapWhere(s.users, WithId(staffId), MoveTo(None)));
      var details := "Staff removed from department: " + DepartmentById(s, id).value.name;
      var meta := map["departmentId" := Num(id), "staffId" := Num(staffId)];
      assert RemoveStaff(s, caller, id, staffId, writeOk).store == Middleware.AuditLog(t, "USER_UPDATE", details, caller.id, meta, writeOk);
      assert Valid(t) by { MovedUsersValid(s, WithId(staffId), None); }
      Middleware.AuditLogValid(t, "USER_UPDATE", details, caller.id, meta, writeOk);
    }
  }
}

=== FILE: hod_routes.dfy ===
/**
 * server/src/routes/hod.js: the head-of-department endpoints. Every route
 * is behind `requireAuth` and `requireRole('HOD')`; approve and reject are
 * unconditional overwrites of one report's status, with no check of the
 * current status or of the report's department, and no timestamp, audit
 * entry or notification.
 */
module HodRoutes {
  import opened Wrappers
  import opened Seqs
  import opened Db
  import Middleware
  import ReportRoutes

  function HodGate(caller: Claims): Middleware.Verdict<()>
  {
    Middleware.RequireRole(Some(caller), HOD)
  }

  /** GET /reports: every report (joined with its owner), newest id first. */
  function Reports(s: Store, caller: Claims): (r: Step<seq<ReportRoutes.ReportRow>>)
    ensures r.store == s
    ensures caller.role != HOD ==> r.reply == Fail(403, "Forbidden")
    ensures caller.role == HOD ==> r.reply == ReportRoutes.ListAll(s, caller).reply
  {
    if HodGate(caller).Deny? then Reject(s, 403, "Forbidden")
    else ReportRoutes.ListAll(s, caller)
  }

  function WithReportId(id: Id): Report -> bool
  {
    (x: Report) => x.id == id
  }

  function SetStatusTo(status: Status): Report -> Report
  {
    (x: Report) => x.(status := status)
  }

  /**
   * `prisma.report.update({ where: { id }, data: { status } })`: the updated
   * row and table, or None when no row has that id (Prisma throws).
   */
  function UpdateStatus(s: Store, id: Id, status: Status): (r: Option<(Report, Store)>)
    ensures r.None? <==> !HasReport(s, id)
    ensures r.Some? ==>
              var (updated, t) := r.value;
              && updated.id == id && updated.status == status
              && t.(reports := s.reports) == s
              && |t.reports| == |s.reports|
              && (forall i :: 0 <= i < |s.reports| ==> t.reports[i].(status := s.reports[i].status) == s.reports[i])
              && (forall i :: 0 <= i < |s.reports| && s.reports[i].id == id ==> t.reports[i].status == status)
              && (forall i :: 0 <= i < |s.reports| && s.reports[i].id != id ==> t.reports[i] == s.reports[i])
              && exists i :: 0 <= i < |s.reports| && s.reports[i].id == id && updated == t.reports[i] &&
                              updated == s.reports[i].(status := status)
  {
    match Find(s.reports, WithReportId(id))
    case None => None
    case Some(x) =>
      var t := s.(reports := MapWhere(s.reports, WithReportId(id), SetStatusTo(status)));
      var k :| 0 <= k < |s.reports| && s.reports[k] == x;
      assert t.reports[k] == x.(status := status);
      Some((x.(status := status), t))
  }

  /** POST /reports/:id/approve */
  function Approve(s: Store, caller: Claims, id: Id): (r: Step<Report>)
    ensures r.reply.Fail? ==> r.store == s
    ensures caller.role != HOD ==> r.reply == Fail(403, "Forbidden")
    ensures caller.role == HOD && !HasReport(s, id) ==> r.reply == Fail(500, "Failed to approve report")
    ensures r.reply.Ok? <==> caller.role == HOD && HasReport(s, id)
    ensures r.reply.Ok? ==> r.reply.code == 200 && r.reply.value.id == id && r.reply.value.status == APPROVED
    ensures r.reply.Ok? ==>
              exists i :: 0 <= i < |s.reports| && s.reports[i].id == id && r.reply.value == s.reports[i].(status := APPROVED)
  {
    if HodGate(caller).Deny? then Reject(s, 403, "Forbidden")
    else
      match UpdateStatus(s, id, APPROVED)
      case None => Reject(s, 500, "Failed to approve report")
      case Some((updated, t)) => Step(Ok(200, updated), t)
  }

  /** POST /reports/:id/reject */
  function RejectReport(s: Store, caller: Claims, id: Id): (r: Step<Report>)
    ensures r.reply.Fail? ==> r.store == s
    ensures caller.role != HOD ==> r.reply == Fail(403, "Forbidden")
    ensures caller.role == HOD && !HasReport(s, id) ==> r.reply == Fail(500, "Failed to reject report")
    ensures r.reply.Ok? <==> caller.role == HOD && HasReport(s, id)
    ensures r.reply.Ok? ==> r.reply.code == 200 && r.reply.value.id == id && r.reply.value.status == REJECTED
    ensures r.reply.Ok? ==>
              exists i :: 0 <= i < |s.reports| && s.reports[i].id == id && r.reply.value == s.reports[i].(status := REJECTED)
  {
    if HodGate(caller).Deny? then Reject(s, 403, "Forbidden")
    else
      match UpdateStatus(s, id, REJECTED)
      case None => Reject(s, 500, "Failed to reject report")
      case Some((updated, t)) => Step(Ok(200, updated), t)
  }

  /**
   * Approve overwrites whatever status the report had, REJECTED included,
   * touches no other report and no other field, and ignores departments.
   */
  lemma ApproveOverwrites(s: Store, caller: Claims, id: Id, i: nat)
    requires caller.role == HOD && i < |s.reports| && s.reports[i].id == id
    ensures var t := Approve(s, caller, id).store;
            && t.(reports := s.reports) == s
            && |t.reports| == |s.reports|
            && t.reports[i] == s.reports[i].(status := APPROVED)
            && forall j :: 0 <= j < |s.reports| && s.reports[j].id != id ==> t.reports[j] == s.reports[j]
  {
    var t := Approve(s, caller, id).store;
    assert t == UpdateStatus(s, id, APPROVED).value.1;
    assert t.reports[i].(status := s.reports[i].status) == s.reports[i];
  }

  /** Reject overwrites whatever status the report had, APPROVED included. */
  lemma RejectOverwrites(s: Store, caller: Claims, id: Id, i: nat)
    requires caller.role == HOD && i < |s.reports| && s.reports[i].id == id
    ensures var t := RejectReport(s, caller, id).store;
            && t.(reports := s.reports) == s
            && |t.reports| == |s.reports|
            && t.reports[i] == s.reports[i].(status := REJECTED)
            && forall j :: 0 <= j < |s.reports| && s.reports[j].id != id ==> t.reports[j] == s.reports[j]
  {
    var t := RejectReport(s, caller, id).store;
    assert t == UpdateStatus(s, id, REJECTED).value.1;
    assert t.reports[i].(status := s.reports[i].status) == s.reports[i];
  }

  /**
   * There is no terminal state: rejecting an approved report succeeds and
   * the later decision is the one that stays.
   */
  lemma LastDecisionWins(s: Store, caller: Claims, id: Id, i: nat)
    requires caller.role == HOD && i < |s.reports| && s.reports[i].id == id
    ensures var t := RejectReport(Approve(s, caller, id).store, caller, id);
            && t.reply.Ok?
            && t.store.reports[i] == s.reports[i].(status := REJECTED)
  {
    ApproveOverwrites(s, caller, id, i);
    var a := Approve(s, caller, id).store;
    assert a.reports[i].id == id;
    RejectOverwrites(a, caller, id, i);
  }

  /** Approving twice leaves the same store as approving once. */
  lemma ApproveIdempotent(s: Store, caller: Claims, id: Id)
    requires caller.role == HOD
    ensures Approve(Approve(s, caller, id).store, caller, id).store == Approve(s, caller, id).store
  {
    if HasReport(s, id) {
      var t := s.(reports := MapWhere(s.reports, WithReportId(id), SetStatusTo(APPROVED)));
      assert Approve(s, caller, id).store == t;
      assert HasReport(t, id) by {
        var k :| 0 <= k < |s.reports| && s.reports[k].id == id;
        assert t.reports[k].id == id;
      }
      assert Approve(t, caller, id).store == t.(reports := MapWhere(t.reports, WithReportId(id), SetStatusTo(APPROVED)));
      MapWhereTwice(s.reports, WithReportId(id), SetStatusTo(APPROVED));
    }
  }

  /** Changing one report's status keeps the store valid. */
  lemma UpdateStatusValid(s: Store, id: Id, status: Status)
    requires Valid(s) && HasReport(s, id)
    ensures Valid(UpdateStatus(s, id, status).value.1)
  {
    var t := UpdateStatus(s, id, status).value.1;
    forall i | 0 <= i < |s.reports|
      ensures t.reports[i].id == s.reports[i].id && t.reports[i].staffId == s.reports[i].staffId
      ensures t.reports[i].departmentId == s.reports[i].departmentId
    {
      assert t.reports[i].(status := s.reports[i].status) == s.reports[i];
    }
    ReportsRewritten(s, t);
  }

  /** Approve and reject keep the store valid. */
  lemma DecisionsValid(s: Store, caller: Claims, id: Id)
    requires Valid(s)
    ensures Valid(Approve(s, caller, id).store)
    ensures Valid(RejectReport(s, caller, id).store)
  {
    if caller.role == HOD && HasReport(s, id) {
      UpdateStatusValid(s, id, APPROVED);
      UpdateStatusValid(s, id, REJECTED);
    }
  }

  function IsStaff(u: User): bool
  {
    u.role == STAFF
  }

  /** GET /staff: every STAFF user, of every department, as full rows. */
  function Staff(s: Store, caller: Claims): (r: Step<seq<User>>)
    ensures r.store == s
    ensures caller.role != HOD ==> r.reply == Fail(403, "Forbidden")
    ensures caller.role == HOD ==> r.reply.Ok? && r.reply.code == 200
    ensures r.reply.Ok? ==> forall i :: 0 <= i < |r.reply.value| ==> r.reply.value[i] in s.users && r.reply.value[i].role == STAFF
    ensures r.reply.Ok? ==> forall i :: 0 <= i < |s.users| && s.users[i].role == STAFF ==> s.users[i] in r.reply.value
  {
    if HodGate(caller).Deny? then Reject(s, 403, "Forbidden")
    else Step(Ok(200, Filter(s.users, IsStaff)), s)
  }
}

=== FILE: middleware.dfy ===
/**
 * The request gate of server/src/middleware/auth.js: bearer-token
 * authentication, exact-role and role-membership guards, the active-account
 * check, and best-effort audit logging.
 *
 * JWT verification is an oracle `verify` from a token string to the payload
 * it carries, or None when the signature or expiry check fails.
 */
module Middleware {
  import opened Wrappers
  import opened Seqs
  import opened Db

  const BEARER: string := "Bearer "

  /** A middleware outcome: continue with a value, or stop with an error reply. */
  datatype Verdict<T> = Pass(value: T) | Deny(code: int, error: string)

  /** The text after "Bearer ", when the header starts with exactly that prefix. */
  function BearerToken(header: string): (r: Option<string>)
    ensures r.Some? <==> |header| >= 7 && header[..7] == "Bearer "
    ensures r.Some? ==> BEARER + r.value == header
    ensures r.Some? ==> |r.value| == |header| - 7
  {
    if |header| >= |BEARER| && header[..|BEARER|] == BEARER then Some(header[|BEARER|..]) else None
  }

  /** Prefixing a token with "Bearer " gives back that very token. */
  lemma BearerRoundTrip(token: string)
    ensures BearerToken(BEARER + token) == Some(token)
  {
    assert (BEARER + token)[..|BEARER|] == BEARER;
    assert (BEARER + token)[|BEARER|..] == token;
  }

  /**
   * `requireAuth`: the Authorization header (the empty string when absent)
   * yields the verified payload, or 401.
   */
  function Authenticate(header: string, verify: string -> Option<Claims>): (r: Verdict<Claims>)
    ensures r == Deny(401, "Missing token") <==> |header| <= 7 || header[..7] != "Bearer "
    ensures r == Deny(401, "Invalid token") <==>
              |header| > 7 && header[..7] == "Bearer " && verify(header[7..]).None?
    ensures r.Pass? <==> |header| > 7 && header[..7] == "Bearer " && verify(header[7..]).Some?
    ensures r.Pass? ==> r.value == verify(header[7..]).value
  {
    match BearerToken(header)
    case None => Deny(401, "Missing token")
    case Some(token) =>
      if token == "" then Deny(401, "Missing token")
      else
        match verify(token)
        case None => Deny(401, "Invalid token")
        case Some(payload) => Pass(payload)
  }

  /** `requireRole(role)`: the caller must hold exactly `role`. */
  function RequireRole(user: Option<Claims>, role: Role): (r: Verdict<()>)
    ensures r == Deny(401, "Unauthorized") <==> user.None?
    ensures r == Deny(403, "Forbidden") <==> user.Some? && user.value.role != role
    ensures r.Pass? <==> user.Some? && user.value.role == role
  {
    if user.None? then Deny(401, "Unauthorized")
    else if user.value.role != role then Deny(403, "Forbidden")
    else Pass(())
  }

  /** `requireRoles(roles)`: the caller's role must be one of `roles`. */
  function RequireRoles(user: Option<Claims>, roles: seq<Role>): (r: Verdict<()>)
    ensures r == Deny(401, "Unauthorized") <==> user.None?
    ensures r == Deny(403, "Insufficient permissions") <==> user.Some? && user.value.role !in roles
    ensures r.Pass? <==> user.Some? && user.value.role in roles
  {
    if user.None? then Deny(401, "Unauthorized")
    else if user.value.role !in roles then Deny(403, "Insufficient permissions")
    else Pass(())
  }

  /**
   * The two guards admit exactly the same callers for a single role; only the
   * 403 message differs.
   */
  lemma RoleGuardsAgree(user: Option<Claims>, role: Role)
    ensures RequireRole(user, role).Pass? <==> RequireRoles(user, [role]).Pass?
    ensures RequireRole(user, role).Deny? ==> RequireRole(user, role).code == RequireRoles(user, [role]).code
    ensures user.Some? && user.value.role != role ==>
              RequireRole(user, role).error != RequireRoles(user, [role]).error
  {
  }

  /** No role hierarchy: an ADMIN is refused by the HOD-only guard. */
  lemma AdminIsNotHod(id: Id)
    ensures RequireRole(Some(Claims(id, ADMIN)), HOD) == Deny(403, "Forbidden")
  {
  }

  /** `requireActiveUser`: the caller's account must still exist and be active. */
  function RequireActiveUser(s: Store, user: Claims): (r: Verdict<User>)
    ensures r.Deny? <==> !HasUser(s, user.id) || !UserById(s, user.id).value.isActive
    ensures r.Deny? ==> r == Deny(403, "Account is inactive")
    ensures r.Pass? ==> r.value in s.users && r.value.id == user.id && r.value.isActive
  {
    match UserById(s, user.id)
    case None => Deny(403, "Account is inactive")
    case Some(u) => if !u.isActive then Deny(403, "Account is inactive") else Pass(u)
  }

  /**
   * `auditLog`: appends one entry by `actor`. The write is best effort: when
   * it fails (`writeOk` false, or the actor row is gone so the foreign key is
   * violated) the error is swallowed and the store is left as it was.
   */
  function AuditLog(s: Store, action: string, details: string, actor: Id, metadata: Metadata, writeOk: bool): (r: Store)
    ensures r.(audit := s.audit) == s
    ensures r.audit == s.audit + [AuditEntry(action, details, actor, metadata)] || r.audit == s.audit
    ensures |r.audit| == |s.audit| + 1 <==> writeOk && HasUser(s, actor)
  {
    if writeOk && HasUser(s, actor) then
      s.(audit := s.audit + [AuditEntry(action, details, actor, metadata)])
    else
      s
  }

  /** An audit append keeps the store valid: its actor row exists. */
  lemma AuditLogValid(s: Store, action: string, details: string, actor: Id, metadata: Metadata, writeOk: bool)
    requires Valid(s)
    ensures Valid(AuditLog(s, action, details, actor, metadata, writeOk))
  {
    var r := AuditLog(s, action, details, actor, metadata, writeOk);
    forall i | 0 <= i < |r.audit|
      ensures HasUser(r, r.audit[i].userId)
    {
      if i < |s.audit| {
        assert r.audit[i] == s.audit[i];
      }
    }
  }

  /**
   * `withAudit`: when the response is sent, an entry carrying the response
   * body is recorded only for a status below 400.
   */
  function WithAudit(s: Store, status: int, action: string, details: string, actor: Id, response: string, writeOk: bool): (r: Store)
    ensures r.(audit := s.audit) == s
    ensures status >= 400 ==> r == s
    ensures !(status < 400 && writeOk && HasUser(s, actor)) ==> r == s
    ensures |r.audit| == |s.audit| + 1 <==> status < 400 && writeOk && HasUser(s, actor)
    ensures |r.audit| == |s.audit| + 1 ==>
              r.audit == s.audit + [AuditEntry(action, details, actor, map["response" := Text(response)])]
  {
    if status < 400 then AuditLog(s, action, details, actor, map["response" := Text(response)], writeOk) else s
  }

  /** Recording a response keeps the store valid: an entry is kept only when its actor row exists. */
  lemma WithAuditValid(s: Store, status: int, action: string, details: string, actor: Id, response: string, writeOk: bool)
    requires Valid(s)
    ensures Valid(WithAudit(s, status, action, details, actor, response, writeOk))
  {
    if status < 400 {
      AuditLogValid(s, action, details, actor, map["response" := Text(response)], writeOk);
    }
  }
}

=== FILE: notification_routes.dfy ===
/**
 * server/src/routes/notifications.js: a signed-in user's own notifications.
 * Every route is behind `requireAuth` only; the owner scoping is the
 * `userId: req.user.id` in each query, and an update or delete of a row the
 * caller does not own finds nothing, so Prisma throws and the route answers 500.
 */
module NotificationRoutes {
  import opened Wrappers
  import opened Seqs
  import opened Db
  import opened Paging

  /** The query string of GET /. */
  datatype NotificationQuery = NotificationQuery(page: Option<int>, limit: Option<int>, unreadOnly: Option<string>)

  /** The body of GET /: one page, and the caller's unread count regardless of the filter. */
  datatype Inbox = Inbox(notifications: Listing<Notification>, unreadCount: nat)

  function OwnedBy(user: Id): Notification -> bool
  {
    (n: Notification) => n.userId == user
  }

  /** The `where` of the list: the caller's rows, and only unread ones when `unreadOnly` is the string 'true'. */
  function InboxFilter(user: Id, q: NotificationQuery): Notification -> bool
  {
    if q.unreadOnly == Some("true") then UnreadOf(user) else OwnedBy(user)
  }

  /** The rows the query selects, newest first: the rows a page is cut from. */
  function Matching(s: Store, caller: Claims, q: NotificationQuery): seq<Notification>
  {
    Reverse(Filter(s.notifications, InboxFilter(caller.id, q)))
  }

  /** GET /. Rows are stored oldest first, so `createdAt desc` is the reversed table. */
  function List(s: Store, caller: Claims, q: NotificationQuery): (r: Step<Inbox>)
    ensures r.store == s
    ensures r.reply.Ok? <==> Skip(q.page.GetOr(1), q.limit.GetOr(20)) >= 0
    ensures r.reply.Fail? ==> r.reply == Fail(500, "Failed to fetch notifications")
    ensures r.reply.Ok? ==>
              var v := r.reply.value;
              && r.reply.code == 200
              && v.unreadCount == Count(s.notifications, UnreadOf(caller.id))
              && v.notifications.pagination.total == Count(s.notifications, InboxFilter(caller.id, q))
              && v.notifications.pagination.page == q.page.GetOr(1)
              && v.notifications.pagination.limit == q.limit.GetOr(20)
              && v.notifications.pagination.pages == Pages(v.notifications.pagination.total, q.limit.GetOr(20))
              && (q.limit.GetOr(20) >= 0 ==> |v.notifications.items| <= q.limit.GetOr(20))
              && forall i :: 0 <= i < |v.notifications.items| ==>
                   && v.notifications.items[i] in s.notifications
                   && v.notifications.items[i].userId == caller.id
                   && (q.unreadOnly == Some("true") ==> !v.notifications.items[i].isRead)
    ensures r.reply.Ok? ==>
              IsPage(Matching(s, caller, q), Skip(q.page.GetOr(1), q.limit.GetOr(20)), q.limit.GetOr(20),
                     r.reply.value.notifications.items)
  {
    var matching := Matching(s, caller, q);
    match Paginate(matching, q.page.GetOr(1), q.limit.GetOr(20))
    case None => Reject(s, 500, "Failed to fetch notifications")
    case Some(l) =>
      assert forall x :: x in matching ==> x in Filter(s.notifications, InboxFilter(caller.id, q));
      Step(Ok(200, Inbox(l, Count(s.notifications, UnreadOf(caller.id)))), s)
  }

  /** A first page at least as long as the result holds every matching notification of the caller. */
  lemma ListComplete(s: Store, caller: Claims, q: NotificationQuery, n: Notification)
    requires q.page.GetOr(1) == 1 && q.limit.GetOr(20) >= Count(s.notifications, InboxFilter(caller.id, q))
    requires n in s.notifications && n.userId == caller.id
    requires q.unreadOnly == Some("true") ==> !n.isRead
    ensures List(s, caller, q).reply.Ok?
    ensures n in List(s, caller, q).reply.value.notifications.items
  {
    var f := Filter(s.notifications, InboxFilter(caller.id, q));
    var matching := Reverse(f);
    assert n in f;
    var j :| 0 <= j < |f| && f[j] == n;
    assert matching[|f| - 1 - j] == n;
  }

  /** The page is newest first: ids strictly descend. */
  lemma ListNewestFirst(s: Store, caller: Claims, q: NotificationQuery)
    requires Ordered(s)
    requires List(s, caller, q).reply.Ok?
    ensures Descending(List(s, caller, q).reply.value.notifications.items, NotificationKey)
  {
    var f := Filter(s.notifications, InboxFilter(caller.id, q));
    var matching := Reverse(f);
    FilterAscending(s.notifications, InboxFilter(caller.id, q), NotificationKey);
    ReverseAscending(f, NotificationKey);
    var l := Paginate(matching, q.page.GetOr(1), q.limit.GetOr(20)).value;
    var lo, hi :| 0 <= lo <= hi <= |matching| && l.items == matching[lo..hi];
    DescendingSlice(matching, lo, hi, NotificationKey);
  }

  // ----- PUT /:id/read -----

  /** The `where` of the single-row update and delete: this id, owned by this user. */
  function Addressed(id: Id, user: Id): Notification -> bool
  {
    (n: Notification) => n.id == id && n.userId == user
  }

  function SetRead(n: Notification): Notification { n.(isRead := true) }

  predicate Owns(s: Store, user: Id, id: Id)
  {
    exists i :: 0 <= i < |s.notifications| && Addressed(id, user)(s.notifications[i])
  }

  /** PUT /:id/read: replies with the updated row. */
  function MarkRead(s: Store, caller: Claims, id: Id): (r: Step<Notification>)
    ensures r.reply.Ok? <==> Owns(s, caller.id, id)
    ensures r.reply.Fail? ==> r == Reject(s, 500, "Failed to update notification")
    ensures r.reply.Ok? ==>
              && r.reply.code == 200
              && r.reply.value.id == id && r.reply.value.userId == caller.id && r.reply.value.isRead
              && (exists i :: 0 <= i < |s.notifications| && Addressed(id, caller.id)(s.notifications[i]) &&
                                r.reply.value == s.notifications[i].(isRead := true))
              && r.store.(notifications := s.notifications) == s
              && |r.store.notifications| == |s.notifications|
              && (forall i :: 0 <= i < |s.notifications| && Addressed(id, caller.id)(s.notifications[i]) ==>
                    r.store.notifications[i] == s.notifications[i].(isRead := true))
              && (forall i :: 0 <= i < |s.notifications| && !Addressed(id, caller.id)(s.notifications[i]) ==>
                    r.store.notifications[i] == s.notifications[i])
  {
    match Find(s.notifications, Addressed(id, caller.id))
    case None => Reject(s, 500, "Failed to update notification")
    case Some(n) =>
      Step(Ok(200, SetRead(n)), s.(notifications := MapWhere(s.notifications, Addressed(id, caller.id), SetRead)))
  }

  /**
   * Marking one notification read lowers the caller's unread count by one
   * when it was unread and leaves it alone when it was already read.
   */
  lemma MarkReadCount(s: Store, caller: Claims, id: Id, k: nat)
    requires Ordered(s)
    requires k < |s.notifications| && Addressed(id, caller.id)(s.notifications[k])
    ensures Count(MarkRead(s, caller, id).store.notifications, UnreadOf(caller.id)) ==
            Count(s.notifications, UnreadOf(caller.id)) - if s.notifications[k].isRead then 0 else 1
  {
    var f := Addressed(id, caller.id);
    AscendingDistinct(s.notifications, NotificationKey);
    forall j | 0 <= j < |s.notifications| && j != k
      ensures !f(s.notifications[j])
    {
      assert NotificationKey(s.notifications[j]) != NotificationKey(s.notifications[k]);
    }
    CountRewriteOne(s.notifications, f, SetRead, UnreadOf(caller.id), k);
  }

  /** A read-marking keeps the store valid. */
  lemma MarkReadValid(s: Store, caller: Claims, id: Id)
    requires Valid(s)
    ensures Valid(MarkRead(s, caller, id).store)
  {
    var t := MarkRead(s, caller, id).store;
    if t != s {
      NotificationsRewritten(s, t);
    }
  }

  // ----- PUT /mark-all-read -----

  /** PUT /mark-all-read: every unread notification of the caller becomes read. */
  function MarkAllRead(s: Store, caller: Claims): (r: Step<string>)
    ensures r.reply == Ok(200, "All notifications marked as read")
    ensures r.store.(notifications := s.notifications) == s
    ensures |r.store.notifications| == |s.notifications|
    ensures forall i :: 0 <= i < |s.notifications| && s.notifications[i].userId == caller.id ==>
              r.store.notifications[i] == s.notifications[i].(isRead := true)
    ensures forall i :: 0 <= i < |s.notifications| && s.notifications[i].userId != caller.id ==>
              r.store.notifications[i] == s.notifications[i]
  {
    Step(Ok(200, "All notifications marked as read"),
         s.(notifications := MapWhere(s.notifications, UnreadOf(caller.id), SetRead)))
  }

  /** After marking all read the caller has no unread notification, and nobody else's count moved. */
  lemma MarkAllReadClears(s: Store, caller: Claims, other: Id)
    requires other != caller.id
    ensures Count(MarkAllRead(s, caller).store.notifications, UnreadOf(caller.id)) == 0
    ensures Count(MarkAllRead(s, caller).store.notifications, UnreadOf(other)) == Count(s.notifications, UnreadOf(other))
  {
    var t := MarkAllRead(s, caller).store.notifications;
    CountZero(t, UnreadOf(caller.id));
    assert Filter(t, UnreadOf(other)) == Filter(s.notifications, UnreadOf(other)) by {
      FilterSame(s.notifications, t, UnreadOf(other));
    }
  }

  /** Filtering two sequences that agree wherever either satisfies `p` gives the same result. */
  lemma {:induction false} FilterSame(a: seq<Notification>, b: seq<Notification>, p: Notification -> bool)
    requires |a| == |b|
    requires forall i :: 0 <= i < |a| && (p(a[i]) || p(b[i])) ==> a[i] == b[i]
    ensures Filter(a, p) == Filter(b, p)
    decreases |a|
  {
    if |a| > 0 {
      var n := |a| - 1;
      assert a == a[..n] + [a[n]] && b == b[..n] + [b[n]];
      FilterSame(a[..n], b[..n], p);
      FilterAppend(a[..n], a[n], p);
      FilterAppend(b[..n], b[n], p);
    }
  }

  /** Marking all read twice leaves the same store as marking once. */
  lemma MarkAllReadIdempotent(s: Store, caller: Claims)
    ensures MarkAllRead(MarkAllRead(s, caller).store, caller) == MarkAllRead(s, caller)
  {
    var t := MarkAllRead(s, caller).store;
    assert MarkAllRead(t, caller).store.notifications == t.notifications;
  }

  lemma MarkAllReadValid(s: Store, caller: Claims)
    requires Valid(s)
    ensures Valid(MarkAllRead(s, caller).store)
  {
    NotificationsRewritten(s, MarkAllRead(s, caller).store);
  }

  // ----- DELETE /:id -----

  function NotAddressed(id: Id, user: Id): Notification -> bool
  {
    (n: Notification) => !Addressed(id, user)(n)
  }

  /** DELETE /:id */
  function Delete(s: Store, caller: Claims, id: Id): (r: Step<string>)
    ensures r.reply.Ok? <==> Owns(s, caller.id, id)
    ensures r.reply.Fail? ==> r == Reject(s, 500, "Failed to delete notification")
    ensures r.reply.Ok? ==>
              && r.reply == Ok(200, "Notification deleted")
              && r.store.(notifications := s.notifications) == s
              && !Owns(r.store, caller.id, id)
              && (forall i :: 0 <= i < |s.notifications| && !Addressed(id, caller.id)(s.notifications[i]) ==>
                    s.notifications[i] in r.store.notifications)
              && (forall i :: 0 <= i < |r.store.notifications| ==> r.store.notifications[i] in s.notifications)
  {
    if !Owns(s, caller.id, id) then Reject(s, 500, "Failed to delete notification")
    else
      var t := s.(notifications := Filter(s.notifications, NotAddressed(id, caller.id)));
      assert !Owns(t, caller.id, id) by {
        forall i | 0 <= i < |t.notifications| ensures !Addressed(id, caller.id)(t.notifications[i]) {
          assert NotAddressed(id, caller.id)(t.notifications[i]);
        }
      }
      Step(Ok(200, "Notification deleted"), t)
  }

  lemma DeleteValid(s: Store, caller: Claims, id: Id)
    requires Valid(s)
    ensures Valid(Delete(s, caller, id).store)
  {
    if Owns(s, caller.id, id) {
      assert Delete(s, caller, id).store == s.(notifications := Filter(s.notifications, NotAddressed(id, caller.id)));
      DropNotificationsValid(s, NotAddressed(id, caller.id));
    }
  }

  /** Keeping only some notification rows keeps the store valid. */
  lemma DropNotificationsValid(s: Store, keep: Notification -> bool)
    requires Valid(s)
    ensures Valid(s.(notifications := Filter(s.notifications, keep)))
  {
    var t := s.(notifications := Filter(s.notifications, keep));
    FilterAscending(s.notifications, keep, NotificationKey);
    DropNotificationsRefs(s, t, keep);
  }

  lemma DropNotificationsRefs(s: Store, t: Store, keep: Notification -> bool)
    requires NoDangling(s)
    requires t == s.(notifications := Filter(s.notifications, keep))
    ensures NoDangling(t)
  {
    forall i | 0 <= i < |t.notifications| ensures HasUser(t, t.notifications[i].userId) {
      assert t.notifications[i] in s.notifications;
    }
  }

  // ----- GET /count -----

  /** GET /count */
  function UnreadCount(s: Store, caller: Claims): (r: Step<nat>)
    ensures r.store == s
    ensures r.reply.Ok? && r.reply.code == 200
    ensures r.reply.value == |set i | 0 <= i < |s.notifications| && s.notifications[i].userId == caller.id && !s.notifications[i].isRead|
    ensures r.reply.value == 0 <==> forall i :: 0 <= i < |s.notifications| ==>
              s.notifications[i].userId != caller.id || s.notifications[i].isRead
  {
    CountZero(s.notifications, UnreadOf(caller.id));
    CountPositions(s.notifications, UnreadOf(caller.id));
    assert Positions(s.notifications, UnreadOf(caller.id)) ==
           set i | 0 <= i < |s.notifications| && s.notifications[i].userId == caller.id && !s.notifications[i].isRead;
    Step(Ok(200, Count(s.notifications, UnreadOf(caller.id))), s)
  }
}

=== FILE: paging.dfy ===
/**
 * The `page`/`limit` pagination shared by the list endpoints of
 * server/src/routes/admin.js and server/src/routes/notifications.js:
 * `skip = (page - 1) * limit`, `take = limit`, and
 * `pages = Math.ceil(total / limit)`.
 */
module Paging {
  import opened Wrappers
  import opened Seqs

  /** The `pagination` object of a list response. */
  datatype Pagination = Pagination(page: int, limit: int, total: nat, pages: Option<int>)

  datatype Listing<T> = Listing(items: seq<T>, pagination: Pagination)

  function Skip(page: int, limit: int): int
  {
    (page - 1) * limit
  }

  function Min(a: int, b: int): int
  {
    if a < b then a else b
  }

  /**
   * `Math.ceil(total / limit)`. A zero limit gives Infinity or NaN, which
   * JSON serialises as null: None.
   */
  function Pages(total: nat, limit: int): (r: Option<int>)
    ensures r.None? <==> limit == 0
    ensures limit > 0 ==> r.value >= 0 && (r.value - 1) * limit < total <= r.value * limit
    ensures limit < 0 ==> r.value <= 0
    ensures limit < 0 ==> (r.value - 1) * limit > total >= r.value * limit
  {
    if limit == 0 then None else Some(CeilDiv(total, limit))
  }

  /**
   * `items` is the page of the ordered rows `m` that skips `skip` rows and
   * takes `limit` (from the far end when `limit` is negative): item `i` is
   * row `PageStart + i`.
   */
  ghost predicate IsPage<T>(m: seq<T>, skip: int, limit: int, items: seq<T>)
  {
    && skip >= 0
    && |items| == PageLength(|m|, skip, limit)
    && forall i :: 0 <= i < |items| ==>
         0 <= PageStart(|m|, skip, limit) + i < |m| && items[i] == m[PageStart(|m|, skip, limit) + i]
  }

  lemma PageIsPage<T>(m: seq<T>, skip: nat, limit: int)
    ensures IsPage(m, skip, limit, Page(m, skip, limit))
  {
    var items := Page(m, skip, limit);
    var start := PageStart(|m|, skip, limit);
    forall i | 0 <= i < |items|
      ensures 0 <= start + i < |m| && items[i] == m[start + i]
    {
    }
  }

  /**
   * One page of the already ordered `matching` rows, or None when the skip
   * is negative (Prisma rejects a negative `skip`, and the route answers 500).
   */
  function Paginate<T>(matching: seq<T>, page: int, limit: int): (r: Option<Listing<T>>)
    ensures r.None? <==> Skip(page, limit) < 0
    ensures r.Some? ==> r.value.pagination == Pagination(page, limit, |matching|, Pages(|matching|, limit))
    ensures r.Some? && limit >= 0 ==> |r.value.items| <= limit
    ensures r.Some? ==> forall x :: x in r.value.items ==> x in matching
    ensures page == 1 && limit >= |matching| ==> r.Some? && r.value.items == matching
    ensures r.Some? && limit >= 0 ==>
              var skip := Skip(page, limit);
              r.value.items == matching[Min(skip, |matching|)..Min(skip + limit, |matching|)]
    ensures r.Some? ==> IsPage(matching, Skip(page, limit), limit, r.value.items)
  {
    var skip := Skip(page, limit);
    if skip < 0 then None
    else
      var items := Page(matching, skip, limit);
      PageIsPage(matching, skip, limit);
      Some(Listing(items, Pagination(page, limit, |matching|, Pages(|matching|, limit))))
  }
}

=== FILE: report_routes.dfy ===
/**
 * server/src/routes/reports.js: the multer upload rules, the stored file
 * name, report submission, and the two report listings.
 *
 * The `Date.now() + '-' + random` part of a stored file name is the input
 * `unique`; the upload arrives already parsed as an `Upload`.
 */
module ReportRoutes {
  import opened Wrappers
  import opened Seqs
  import opened Db

  const PDF_MIME: string := "application/pdf"
  /** multer `limits.fileSize`: 10 MiB. */
  const MAX_FILE_SIZE: nat := 10 * 1024 * 1024
  const UPLOADS_URL: string := "/uploads/"
  /** Status of a new row: the route writes none, so the schema default applies. */
  const INITIAL_STATUS: Status := SUBMITTED

  /** A multipart file part as multer sees it. */
  datatype Upload = Upload(originalName: string, mimetype: string, size: nat)

  /** A report joined with its `staff` relation (the full user row). */
  datatype ReportRow = ReportRow(report: Report, staff: Option<User>)

  // ----- path.extname (POSIX) -----

  /** Length of the prefix `p[..n]` once its trailing '/' characters are dropped. */
  function TrimmedEnd(p: string, n: nat): (e: nat)
    requires n <= |p|
    ensures e <= n
    ensures forall k :: e <= k < n ==> p[k] == '/'
    ensures e == 0 || p[e - 1] != '/'
  {
    if n == 0 || p[n - 1] != '/' then n else TrimmedEnd(p, n - 1)
  }

  /** Greatest index in [lo, hi) holding `c`, or lo - 1 when there is none. */
  function LastIndexIn(p: string, lo: nat, hi: nat, c: char): (j: int)
    requires lo <= hi <= |p|
    ensures lo - 1 <= j < hi
    ensures j >= lo ==> p[j] == c
    ensures forall k :: j < k < hi ==> p[k] != c
    decreases hi - lo
  {
    if hi == lo then lo - 1
    else if p[hi - 1] == c then hi - 1
    else LastIndexIn(p, lo, hi - 1, c)
  }

  /**
   * Node's `path.extname`: from the last '.' of the last path segment
   * (trailing slashes ignored) to its end, or "" when the segment has no
   * '.', starts with its only leading '.', or is "..".
   */
  function ExtName(p: string): (ext: string)
    ensures ext != "" ==> ext[0] == '.'
    ensures forall k :: 0 <= k < |ext| ==> ext[k] != '/'
    ensures forall k :: 1 <= k < |ext| ==> ext[k] != '.'
    ensures '.' !in p ==> ext == ""
    ensures |ext| <= TrimmedEnd(p, |p|) && ext == p[TrimmedEnd(p, |p|) - |ext|..TrimmedEnd(p, |p|)]
  {
    var e := TrimmedEnd(p, |p|);
    var start := LastIndexIn(p, 0, e, '/') + 1;
    var dot := LastIndexIn(p, start, e, '.');
    if dot <= start || p[start..e] == ".." then "" else p[dot..e]
  }

  /**
   * The extension is everything after the last '.': for a file name
   * `base + "." + ext` with a non-empty base (dots allowed, even a leading
   * one) and no '.' in `ext`, it is "." + ext; the one exception is the
   * parent-directory name "..", which has none.
   */
  lemma ExtNameAfterLastDot(base: string, ext: string)
    requires base != "" && '/' !in base
    requires '.' !in ext && '/' !in ext
    requires base + "." + ext != ".."
    ensures ExtName(base + "." + ext) == "." + ext
  {
    var p := base + "." + ext;
    assert p[|p| - 1] != '/';
    var e := TrimmedEnd(p, |p|);
    assert e == |p|;
    assert forall k :: 0 <= k < |p| ==> p[k] != '/';
    assert LastIndexIn(p, 0, e, '/') == -1;
    var dot := LastIndexIn(p, 0, e, '.');
    assert p[|base|] == '.';
    assert forall k :: |base| < k < |p| ==> p[k] == ext[k - |base| - 1];
    assert dot == |base|;
    assert p[0..e] == p;
    assert p[dot..e] == "." + ext;
  }

  /** A name whose only '.' is its first character (".profile") has no extension. */
  lemma ExtNameOfDotFile(rest: string)
    requires '.' !in rest && '/' !in rest
    ensures ExtName("." + rest) == ""
  {
    var p := "." + rest;
    var e := TrimmedEnd(p, |p|);
    assert e == |p|;
    assert forall k :: 0 <= k < |p| ==> p[k] != '/';
    assert LastIndexIn(p, 0, e, '/') == -1;
    assert forall k :: 0 < k < |p| ==> p[k] != '.' by {
      forall k | 0 < k < |p| ensures p[k] != '.' { assert p[k] == rest[k - 1]; }
    }
    assert p[0] == '.';
    assert LastIndexIn(p, 0, e, '.') == 0;
  }

  /** multer's `filename`: the unique prefix and the original extension, ".pdf" when it has none. */
  function StoredFilename(unique: string, originalName: string): (r: string)
    ensures |r| > |unique| && r[..|unique|] == unique && r[|unique|] == '.'
    ensures ExtName(originalName) != "" ==> r == unique + ExtName(originalName)
    ensures ExtName(originalName) == "" ==> r == unique + ".pdf"
  {
    var ext := ExtName(originalName);
    unique + (if ext == "" then ".pdf" else ext)
  }

  /**
   * multer's `fileFilter` and size limit. Its errors carry no HTTP status,
   * so the global error handler answers them with 500 and their message.
   */
  function UploadError(f: Upload): (r: Option<string>)
    ensures r.None? <==> f.mimetype == PDF_MIME && f.size <= MAX_FILE_SIZE
    ensures f.mimetype != PDF_MIME ==> r == Some("Only PDF allowed")
    ensures f.mimetype == PDF_MIME && f.size > MAX_FILE_SIZE ==> r == Some("File too large")
  {
    if f.mimetype != PDF_MIME then Some("Only PDF allowed")
    else if f.size > MAX_FILE_SIZE then Some("File too large")
    else None
  }

  /** POST / after requireAuth: multer, then the handler. */
  function Submit(s: Store, caller: Claims, weekEnding: Option<string>, file: Option<Upload>, unique: string, isDate: string -> bool): (r: Step<Report>)
    ensures r.reply.Fail? ==> r.store == s
    ensures file.Some? && UploadError(file.value).Some? ==> r == Reject(s, 500, UploadError(file.value).value)
    ensures (file.None? || UploadError(file.value).None?) && (!Given(weekEnding) || file.None?) ==>
              r == Reject(s, 400, "Missing weekEnding or file")
    ensures Given(weekEnding) && file.Some? && UploadError(file.value).None? &&
            (!isDate(weekEnding.value) || !HasUser(s, caller.id)) ==>
              r == Reject(s, 500, "Failed to submit report")
    ensures r.reply.Ok? <==>
              Given(weekEnding) && file.Some? && UploadError(file.value).None? && isDate(weekEnding.value) && HasUser(s, caller.id)
    ensures r.reply.Ok? ==>
              var created := r.reply.value;
              && r.reply.code == 201
              && created.id == s.nextReportId
              && created.staffId == caller.id
              && created.fileName == file.value.originalName
              && created.filePath == UPLOADS_URL + StoredFilename(unique, file.value.originalName)
              && created.departmentId.None? && created.fileSize.None?
              && created.status == INITIAL_STATUS
              && created.weekEnding == weekEnding.value
              && r.store == s.(reports := s.reports + [created], nextReportId := s.nextReportId + 1)
  {
    if file.Some? && UploadError(file.value).Some? then Reject(s, 500, UploadError(file.value).value)
    else if !Given(weekEnding) || file.None? then Reject(s, 400, "Missing weekEnding or file")
    else if !isDate(weekEnding.value) || !HasUser(s, caller.id) then Reject(s, 500, "Failed to submit report")
    else
      var created := Report(s.nextReportId, caller.id, None, weekEnding.value, file.value.originalName,
                            UPLOADS_URL + StoredFilename(unique, file.value.originalName), None, INITIAL_STATUS);
      Step(Ok(201, created), s.(reports := s.reports + [created], nextReportId := s.nextReportId + 1))
  }

  /** Submission keeps the store valid. */
  lemma SubmitValid(s: Store, caller: Claims, weekEnding: Option<string>, file: Option<Upload>, unique: string, isDate: string -> bool)
    requires Valid(s)
    ensures Valid(Submit(s, caller, weekEnding, file, unique, isDate).store)
  {
    var r := Submit(s, caller, weekEnding, file, unique, isDate);
    if r.reply.Ok? {
      AppendReportOrdered(s, r.reply.value, r.store);
      AppendReportRefs(s, r.reply.value, r.store);
    }
  }

  lemma AppendReportOrdered(s: Store, x: Report, t: Store)
    requires IdsBelowCounters(s) && Ordered(s)
    requires x.id == s.nextReportId
    requires t == s.(reports := s.reports + [x], nextReportId := s.nextReportId + 1)
    ensures IdsBelowCounters(t) && Ordered(t)
  {
    forall i, j | 0 <= i < j < |t.reports|
      ensures ReportKey(t.reports[i]) < ReportKey(t.reports[j])
    {
      if j < |s.reports| {
        assert ReportKey(s.reports[i]) < ReportKey(s.reports[j]);
      }
    }
  }

  lemma AppendReportRefs(s: Store, x: Report, t: Store)
    requires NoDangling(s)
    requires HasUser(s, x.staffId) && x.departmentId.None?
    requires t == s.(reports := s.reports + [x], nextReportId := s.nextReportId + 1)
    ensures NoDangling(t)
  {
    forall id | HasReport(s, id)
      ensures HasReport(t, id)
    {
      var i :| 0 <= i < |s.reports| && s.reports[i].id == id;
      assert t.reports[i] == s.reports[i];
    }
    forall i | 0 <= i < |t.reports|
      ensures HasUser(t, t.reports[i].staffId)
    {
      if i < |s.reports| { assert t.reports[i] == s.reports[i]; }
    }
  }

  /** Each report with its owner row. */
  function WithStaff(s: Store, rs: seq<Report>): (rows: seq<ReportRow>)
    ensures |rows| == |rs|
    ensures forall i :: 0 <= i < |rs| ==> rows[i].report == rs[i] && rows[i].staff == UserById(s, rs[i].staffId)
  {
    seq(|rs|, i requires 0 <= i < |rs| => ReportRow(rs[i], UserById(s, rs[i].staffId)))
  }

  /** Every report in a valid store joins to its owner's row. */
  lemma WithStaffResolves(s: Store, rs: seq<Report>)
    requires Valid(s)
    requires forall i :: 0 <= i < |rs| ==> rs[i] in s.reports
    ensures forall i :: 0 <= i < |rs| ==> WithStaff(s, rs)[i].staff.Some? && WithStaff(s, rs)[i].staff.value.id == rs[i].staffId
  {
  }

  /** GET / after requireAuth: every report, newest id first, whatever the caller's role. */
  function ListAll(s: Store, caller: Claims): (r: Step<seq<ReportRow>>)
    ensures r.store == s
    ensures r.reply.Ok? && r.reply.code == 200
    ensures |r.reply.value| == |s.reports|
    ensures forall i :: 0 <= i < |s.reports| ==> r.reply.value[i].report == s.reports[|s.reports| - 1 - i]
    ensures forall i :: 0 <= i < |s.reports| ==> r.reply.value[i].staff == UserById(s, s.reports[|s.reports| - 1 - i].staffId)
  {
    Step(Ok(200, WithStaff(s, Reverse(s.reports))), s)
  }

  /** The listing holds every report of the store, in descending id order. */
  lemma ListAllOrder(s: Store, caller: Claims)
    requires Valid(s)
    ensures var rows := ListAll(s, caller).reply.value;
            Descending(seq(|rows|, i requires 0 <= i < |rows| => rows[i].report), ReportKey)
  {
    var rows := ListAll(s, caller).reply.value;
    var rs := seq(|rows|, i requires 0 <= i < |rows| => rows[i].report);
    assert rs == Reverse(s.reports);
    ReverseAscending(s.reports, ReportKey);
  }

  function OwnedBy(id: Id): Report -> bool
  {
    (r: Report) => r.staffId == id
  }

  /** GET /mine after requireAuth. */
  function Mine(s: Store, caller: Claims): (r: Step<seq<Report>>)
    ensures r.store == s
    ensures r.reply.Ok? && r.reply.code == 200
    ensures forall i :: 0 <= i < |r.reply.value| ==> r.reply.value[i] in s.reports && r.reply.value[i].staffId == caller.id
  {
    var mine := Reverse(Filter(s.reports, OwnedBy(caller.id)));
    assert forall x :: x in mine ==> x in Filter(s.reports, OwnedBy(caller.id));
    Step(Ok(200, mine), s)
  }

  /** /mine holds exactly the caller's reports, newest id first. */
  lemma MineExactly(s: Store, caller: Claims)
    requires Ordered(s)
    ensures var mine := Mine(s, caller).reply.value;
            && (forall x :: x in mine <==> x in s.reports && x.staffId == caller.id)
            && Descending(mine, ReportKey)
  {
    var f := Filter(s.reports, OwnedBy(caller.id));
    FilterAscending(s.reports, OwnedBy(caller.id), ReportKey);
    ReverseAscending(f, ReportKey);
    forall x | x in s.reports && x.staffId == caller.id
      ensures x in f
    {
      var k :| 0 <= k < |s.reports| && s.reports[k] == x;
      assert OwnedBy(caller.id)(s.reports[k]);
    }
  }
}

=== FILE: seqs.dfy ===
/**
 * Sequence helpers that stand in for the query operations the route handlers
 * ask of the database: first match, filter, count, update-where, reverse
 * order, skip/take pagination, and case-insensitive substring search.
 */
module Seqs {
  import opened Wrappers

  /** Index of the first element of `s` satisfying `p`. */
  function IndexOf<T>(s: seq<T>, p: T -> bool): (r: Option<nat>)
    ensures r.None? <==> forall i :: 0 <= i < |s| ==> !p(s[i])
    ensures r.Some? ==> r.value < |s| && p(s[r.value])
    ensures r.Some? ==> forall j :: 0 <= j < r.value ==> !p(s[j])
  {
    if |s| == 0 then None
    else if p(s[0]) then Some(0)
    else
      match IndexOf(s[1..], p)
      case None =>
        assert forall i :: 1 <= i < |s| ==> s[i] == s[1..][i - 1];
        None
      case Some(k) => Some(k + 1)
  }

  /** The first element of `s` satisfying `p` (a `findFirst`). */
  function Find<T>(s: seq<T>, p: T -> bool): (r: Option<T>)
    ensures r.Some? <==> exists i :: 0 <= i < |s| && p(s[i])
    ensures r.Some? ==> r.value in s && p(r.value)
  {
    match IndexOf(s, p)
    case None => None
    case Some(k) => Some(s[k])
  }

  /** When exactly one element satisfies `p`, Find returns that element. */
  lemma FindUnique<T>(s: seq<T>, p: T -> bool, i: nat)
    requires i < |s| && p(s[i])
    requires forall j :: 0 <= j < |s| && j != i ==> !p(s[j])
    ensures Find(s, p) == Some(s[i])
  {
    var k := IndexOf(s, p);
    assert k.Some?;
    assert k.value == i;
  }

  /**
   * Rewriting the elements `p` selects, with a rewrite that keeps them
   * selected, makes the first match the rewritten first match.
   */
  lemma FindMapWhere<T>(s: seq<T>, p: T -> bool, f: T -> T)
    requires forall x :: p(x) ==> p(f(x))
    ensures Find(MapWhere(s, p, f), p) == if Find(s, p).Some? then Some(f(Find(s, p).value)) else None
  {
    var m := MapWhere(s, p, f);
    assert forall i :: 0 <= i < |s| ==> (p(m[i]) <==> p(s[i]));
    var a, b := IndexOf(s, p), IndexOf(m, p);
    if a.Some? {
      assert b.Some?;
      assert !(b.value < a.value) && !(a.value < b.value);
    }
  }

  /** The elements of `s` satisfying `p`, in their original order. */
  function Filter<T>(s: seq<T>, p: T -> bool): (r: seq<T>)
    ensures |r| <= |s|
    ensures forall i :: 0 <= i < |r| ==> r[i] in s && p(r[i])
    ensures forall i :: 0 <= i < |s| && p(s[i]) ==> s[i] in r
    decreases |s|
  {
    if |s| == 0 then []
    else
      var rest := Filter(s[..|s| - 1], p);
      assert forall i :: 0 <= i < |s| - 1 ==> s[i] == s[..|s| - 1][i];
      if p(s[|s| - 1]) then rest + [s[|s| - 1]] else rest
  }

  /** The filtered sequence holds exactly the elements of `s` that satisfy `p`. */
  lemma FilterMembers<T>(s: seq<T>, p: T -> bool)
    ensures forall x :: x in Filter(s, p) <==> x in s && p(x)
  {
    forall x ensures x in Filter(s, p) <==> x in s && p(x) {
      if x in s && p(x) {
        var i :| 0 <= i < |s| && s[i] == x;
      }
    }
  }

  /** Filtering an extended sequence filters the prefix and then the new element. */
  lemma FilterAppend<T>(s: seq<T>, x: T, p: T -> bool)
    ensures Filter(s + [x], p) == Filter(s, p) + (if p(x) then [x] else [])
  {
    assert (s + [x])[..|s + [x]| - 1] == s;
  }

  /** Number of elements of `s` satisfying `p` (a `count`). */
  function Count<T>(s: seq<T>, p: T -> bool): nat
  {
    |Filter(s, p)|
  }

  /** Counting a sequence counts its prefix and then its last element. */
  lemma CountSnoc<T>(s: seq<T>, p: T -> bool)
    requires |s| > 0
    ensures Count(s, p) == Count(s[..|s| - 1], p) + if p(s[|s| - 1]) then 1 else 0
  {
  }

  /** A count is zero exactly when no element satisfies the predicate. */
  lemma CountZero<T>(s: seq<T>, p: T -> bool)
    ensures Count(s, p) == 0 <==> forall i :: 0 <= i < |s| ==> !p(s[i])
  {
    if exists i :: 0 <= i < |s| && p(s[i]) {
      var i :| 0 <= i < |s| && p(s[i]);
      assert s[i] in Filter(s, p);
    }
    if Count(s, p) != 0 {
      var x := Filter(s, p)[0];
      var k :| 0 <= k < |s| && s[k] == x;
      assert p(s[k]);
    }
  }

  /** Counts under pairwise-disjoint predicates add up to the count under their union. */
  lemma {:induction false} CountDisjointSum<T>(s: seq<T>, p: T -> bool, q: T -> bool, pq: T -> bool)
    requires forall x :: pq(x) <==> p(x) || q(x)
    requires forall x :: !(p(x) && q(x))
    ensures Count(s, p) + Count(s, q) == Count(s, pq)
    decreases |s|
  {
    if |s| > 0 {
      CountDisjointSum(s[..|s| - 1], p, q, pq);
    }
  }

  /** The positions of the elements satisfying `p`. */
  ghost function Positions<T>(s: seq<T>, p: T -> bool): set<int>
  {
    set i | 0 <= i < |s| && p(s[i])
  }

  /** A count is the number of positions whose element satisfies the predicate. */
  lemma {:induction false} CountPositions<T>(s: seq<T>, p: T -> bool)
    ensures Count(s, p) == |Positions(s, p)|
    decreases |s|
  {
    if |s| > 0 {
      var init := s[..|s| - 1];
      CountPositions(init, p);
      var last := if p(s[|s| - 1]) then {|s| - 1} else {};
      forall i | i in Positions(s, p) ensures i in Positions(init, p) + last {
        if i < |s| - 1 { assert init[i] == s[i]; }
      }
      forall i | i in Positions(init, p) + last ensures i in Positions(s, p) {
        if i < |s| - 1 { assert init[i] == s[i]; }
      }
      assert Positions(s, p) == Positions(init, p) + last;
      assert Count(s, p) == Count(init, p) + |last|;
    }
  }

  /** A count never exceeds the length of the sequence. */
  lemma CountBound<T>(s: seq<T>, p: T -> bool)
    ensures Count(s, p) <= |s|
  {
  }

  /** Elements strictly ascending by `key` (the order of an autoincrement id column). */
  ghost predicate Ascending<T>(s: seq<T>, key: T -> int)
  {
    forall i, j :: 0 <= i < j < |s| ==> key(s[i]) < key(s[j])
  }

  /** Elements strictly descending by `key` (an `orderBy: { id: 'desc' }` result). */
  ghost predicate Descending<T>(s: seq<T>, key: T -> int)
  {
    forall i, j :: 0 <= i < j < |s| ==> key(s[i]) > key(s[j])
  }

  /** No two elements share a `key` (a unique column). */
  ghost predicate Distinct<T, K>(s: seq<T>, key: T -> K)
  {
    forall i, j :: 0 <= i < |s| && 0 <= j < |s| && i != j ==> key(s[i]) != key(s[j])
  }

  /** No value occurs twice in `s`. */
  ghost predicate NoDuplicates<T>(s: seq<T>)
  {
    forall i, j :: 0 <= i < j < |s| ==> s[i] != s[j]
  }

  /** The values occurring in `s`. */
  ghost function Elements<T>(s: seq<T>): set<T>
  {
    set x | x in s
  }

  /** A sequence has at most as many values as entries, and exactly as many when none repeats. */
  lemma {:induction false} ElementsCard<T>(s: seq<T>)
    ensures |Elements(s)| <= |s|
    ensures |Elements(s)| == |s| <==> NoDuplicates(s)
    decreases |s|
  {
    if |s| > 0 {
      var p, x := s[..|s| - 1], s[|s| - 1];
      ElementsCard(p);
      assert s == p + [x];
      assert Elements(s) == Elements(p) + {x};
      if x in p {
        var k :| 0 <= k < |p| && p[k] == x;
        assert s[k] == s[|s| - 1];
        assert Elements(s) == Elements(p);
      } else {
        assert x !in Elements(p);
        assert NoDuplicates(s) <==> NoDuplicates(p) by {
          if NoDuplicates(p) {
            forall i, j | 0 <= i < j < |s| ensures s[i] != s[j] {
              if j < |p| { assert s[i] == p[i] && s[j] == p[j]; } else { assert s[i] in p; }
            }
          }
          if NoDuplicates(s) {
            forall i, j | 0 <= i < j < |p| ensures p[i] != p[j] {
              assert p[i] == s[i] && p[j] == s[j];
            }
          }
        }
      }
    }
  }

  /** Intersecting `a` with `b` keeps all of `a` exactly when `a` lies inside `b`. */
  lemma IntersectionCard<T>(a: set<T>, b: set<T>)
    ensures |a * b| <= |a|
    ensures |a * b| == |a| <==> a <= b
  {
    assert a == (a * b) + (a - b);
    assert (a * b) * (a - b) == {};
    if !(a <= b) {
      var x :| x in a && x !in b;
      assert x in a - b;
    }
  }

  /** Ascending order by key implies the key is unique. */
  lemma AscendingDistinct<T>(s: seq<T>, key: T -> int)
    requires Ascending(s, key)
    ensures Distinct(s, key)
  {
    forall i, j | 0 <= i < |s| && 0 <= j < |s| && i != j
      ensures key(s[i]) != key(s[j])
    {
      if i < j { assert key(s[i]) < key(s[j]); } else { assert key(s[j]) < key(s[i]); }
    }
  }

  /** Filtering keeps the relative order, so it keeps ascending keys. */
  lemma {:induction false} FilterAscending<T>(s: seq<T>, p: T -> bool, key: T -> int)
    requires Ascending(s, key)
    ensures Ascending(Filter(s, p), key)
    decreases |s|
  {
    if |s| > 0 {
      var init := s[..|s| - 1];
      var last := s[|s| - 1];
      assert Ascending(init, key);
      FilterAscending(init, p, key);
      if p(last) {
        var f := Filter(init, p);
        var r := f + [last];
        forall i, j | 0 <= i < j < |r|
          ensures key(r[i]) < key(r[j])
        {
          if j == |r| - 1 {
            assert r[i] in init;
            var k :| 0 <= k < |init| && init[k] == r[i];
            assert key(s[k]) < key(s[|s| - 1]);
          }
        }
      }
    }
  }

  /** Filtering keeps a unique key unique. */
  lemma {:induction false} FilterDistinct<T, K>(s: seq<T>, p: T -> bool, key: T -> K)
    requires Distinct(s, key)
    ensures Distinct(Filter(s, p), key)
    decreases |s|
  {
    if |s| > 0 {
      var init := s[..|s| - 1];
      var last := s[|s| - 1];
      assert Distinct(init, key);
      FilterDistinct(init, p, key);
      if p(last) {
        var f := Filter(init, p);
        var r := f + [last];
        forall i, j | 0 <= i < |r| && 0 <= j < |r| && i != j
          ensures key(r[i]) != key(r[j])
        {
          if j == |r| - 1 || i == |r| - 1 {
            var m := if j == |r| - 1 then i else j;
            assert r[m] in init;
            var k :| 0 <= k < |init| && init[k] == r[m];
            assert key(s[k]) != key(s[|s| - 1]);
          }
        }
      }
    }
  }

  /** Every element satisfying `p` replaced by `f` of it (an `updateMany`). */
  function MapWhere<T>(s: seq<T>, p: T -> bool, f: T -> T): (r: seq<T>)
    ensures |r| == |s|
    ensures forall i :: 0 <= i < |s| ==> r[i] == if p(s[i]) then f(s[i]) else s[i]
  {
    seq(|s|, i requires 0 <= i < |s| => if p(s[i]) then f(s[i]) else s[i])
  }

  /** Rewriting an extended sequence rewrites the prefix and then the new element. */
  lemma MapWhereSnoc<T>(s: seq<T>, p: T -> bool, f: T -> T)
    requires |s| > 0
    ensures var x := s[|s| - 1];
            MapWhere(s, p, f) == MapWhere(s[..|s| - 1], p, f) + [if p(x) then f(x) else x]
  {
  }

  /** Rewriting changes nothing when no element satisfies `p`. */
  lemma MapWhereNone<T>(s: seq<T>, p: T -> bool, f: T -> T)
    requires forall i :: 0 <= i < |s| ==> !p(s[i])
    ensures MapWhere(s, p, f) == s
  {
  }

  /**
   * Rewriting the one element `p` selects, element `k`, changes a count under
   * `q` only by what `q` says of that element before and after.
   */
  lemma {:induction false} CountRewriteOne<T>(s: seq<T>, p: T -> bool, f: T -> T, q: T -> bool, k: nat)
    requires k < |s| && p(s[k])
    requires forall j :: 0 <= j < |s| && j != k ==> !p(s[j])
    ensures Count(MapWhere(s, p, f), q) + (if q(s[k]) then 1 else 0) == Count(s, q) + (if q(f(s[k])) then 1 else 0)
    decreases |s|
  {
    var n := |s| - 1;
    var m := MapWhere(s, p, f);
    MapWhereSnoc(s, p, f);
    CountSnoc(m, q);
    CountSnoc(s, q);
    if k == n {
      assert m[..n] == s[..n] by {
        MapWhereNone(s[..n], p, f);
      }
    } else {
      assert m[..n] == MapWhere(s[..n], p, f);
      CountRewriteOne(s[..n], p, f, q, k);
    }
  }

  /** Rewriting twice is rewriting once when `f` keeps `p` and is idempotent. */
  lemma MapWhereTwice<T>(s: seq<T>, p: T -> bool, f: T -> T)
    requires forall x :: p(x) ==> p(f(x)) && f(f(x)) == f(x)
    ensures MapWhere(MapWhere(s, p, f), p, f) == MapWhere(s, p, f)
  {
  }

  /** `f` applied to every element (a `.map`). */
  function Map<A, B>(s: seq<A>, f: A -> B): (r: seq<B>)
    ensures |r| == |s|
    ensures forall i :: 0 <= i < |s| ==> r[i] == f(s[i])
  {
    seq(|s|, i requires 0 <= i < |s| => f(s[i]))
  }

  /** The elements of `s` in reverse order. */
  function Reverse<T>(s: seq<T>): (r: seq<T>)
    ensures |r| == |s|
    ensures forall i :: 0 <= i < |s| ==> r[i] == s[|s| - 1 - i]
  {
    seq(|s|, i requires 0 <= i < |s| => s[|s| - 1 - i])
  }

  /** The last `k` elements of `s`, or all of them when there are fewer, last first. */
  function LastFirst<T>(s: seq<T>, k: nat): (r: seq<T>)
    ensures |r| == if |s| < k then |s| else k
    ensures forall i :: 0 <= i < |r| ==> r[i] == s[|s| - 1 - i]
  {
    var rev := Reverse(s);
    if |rev| <= k then rev else rev[..k]
  }

  /** Reversing an ascending sequence gives a descending one with the same elements. */
  lemma ReverseAscending<T>(s: seq<T>, key: T -> int)
    requires Ascending(s, key)
    ensures Descending(Reverse(s), key)
    ensures forall x :: x in Reverse(s) <==> x in s
  {
    var r := Reverse(s);
    forall x | x in s ensures x in r {
      var k :| 0 <= k < |s| && s[k] == x;
      assert r[|s| - 1 - k] == x;
    }
  }

  lemma DescendingSlice<T>(s: seq<T>, lo: nat, hi: nat, key: T -> int)
    requires Descending(s, key) && lo <= hi <= |s|
    ensures Descending(s[lo..hi], key)
  {
    forall i, j | 0 <= i < j < hi - lo
      ensures key(s[lo..hi][i]) > key(s[lo..hi][j])
    {
      assert s[lo..hi][i] == s[lo + i] && s[lo..hi][j] == s[lo + j];
    }
  }

  /**
   * Prisma's `skip`/`take` on an already ordered result. A negative `take`
   * counts from the end of the result, with `skip` also counted from the end.
   */
  function Page<T>(s: seq<T>, skip: nat, take: int): (r: seq<T>)
    ensures |r| == PageLength(|s|, skip, take)
    ensures take >= 0 ==> |r| <= take
    ensures take < 0 ==> |r| <= -take
    ensures forall i :: 0 <= i < |r| ==> 0 <= PageStart(|s|, skip, take) + i < |s| && r[i] == s[PageStart(|s|, skip, take) + i]
    ensures forall x :: x in r ==> x in s
    ensures 0 <= take && skip + take <= |s| ==> r == s[skip..skip + take]
    ensures exists lo, hi :: 0 <= lo <= hi <= |s| && r == s[lo..hi]
  {
    if take >= 0 then
      var lo := if skip < |s| then skip else |s|;
      var hi := if skip + take < |s| then skip + take else |s|;
      assert hi - lo == PageLength(|s|, skip, take) && (lo < hi ==> lo == PageStart(|s|, skip, take));
      s[lo..hi]
    else
      var hi := if skip < |s| then |s| - skip else 0;
      var lo := if hi + take > 0 then hi + take else 0;
      assert hi - lo == PageLength(|s|, skip, take) && lo == PageStart(|s|, skip, take);
      s[lo..hi]
  }

  /**
   * The number of rows of a page: `|take|` rows, or fewer when fewer than
   * that remain after skipping `skip` rows from the chosen end.
   */
  function PageLength(n: nat, skip: nat, take: int): nat
  {
    var left := if skip < n then n - skip else 0;
    var want := if take >= 0 then take else -take;
    if want < left then want else left
  }

  /** The position in the ordered rows of a page's first row. */
  function PageStart(n: nat, skip: nat, take: int): int
  {
    if take >= 0 then skip
    else (if skip < n then n - skip else 0) - PageLength(n, skip, take)
  }

  /** `Math.ceil(a / b)` on exact rationals. */
  function CeilDiv(a: int, b: int): (r: int)
    requires b != 0
    ensures b > 0 ==> (r - 1) * b < a <= r * b
    ensures b < 0 ==> (r - 1) * b > a >= r * b
  {
    if b > 0 then (a + b - 1) / b else (-a + -b - 1) / -b
  }

  /** `Math.round(n / d)` for non-negative operands, ties rounded up. */
  function RoundDiv(n: nat, d: nat): (r: nat)
    requires d > 0
    ensures 2 * r * d <= 2 * n + d < 2 * (r + 1) * d
  {
    (2 * n + d) / (2 * d)
  }

  /** ASCII upper case folded to lower case; everything else left alone. */
  function LowerChar(c: char): char
  {
    if 'A' <= c <= 'Z' then (c as int + 32) as char else c
  }

  function Lower(s: string): (r: string)
    ensures |r| == |s|
    ensures forall i :: 0 <= i < |s| ==> r[i] == LowerChar(s[i])
  {
    seq(|s|, i requires 0 <= i < |s| => LowerChar(s[i]))
  }

  /** `needle` occurs in `hay` at some offset, ignoring ASCII case. */
  predicate ContainsIgnoringCase(hay: string, needle: string)
  {
    exists k :: 0 <= k <= |hay| - |needle| && MatchesAt(hay, needle, k)
  }

  /** `needle` occurs in `hay` at offset `k`, ignoring ASCII case. */
  predicate MatchesAt(hay: string, needle: string, k: int)
  {
    0 <= k <= |hay| - |needle| && Lower(hay[k..k + |needle|]) == Lower(needle)
  }

  /** Sum of `f` over the elements of `s`. */
  function Sum<T>(s: seq<T>, f: T -> nat): nat
    decreases |s|
  {
    if |s| == 0 then 0 else Sum(s[..|s| - 1], f) + f(s[|s| - 1])
  }
}

=== FILE: server.dfy ===
/**
 * The routers server/src/index.js mounts: `/api/auth`, `/api/reports` and
 * `/api/hod`. Every route outside `/api/auth` runs `requireAuth` first, so
 * the caller's claims come from the bearer token; the HOD routes then run
 * `requireRole('HOD')`. The admin, department, notification and dashboard
 * routers are not mounted and are not reachable through this dispatcher.
 */
module Server {
  import opened Wrappers
  import opened Db
  import Middleware
  import AuthRoutes
  import ReportRoutes
  import HodRoutes

  datatype Route =
    | Register(registration: AuthRoutes.RegisterBody)
    | Login(credentials: AuthRoutes.LoginBody)
    | SubmitReport(weekEnding: Option<string>, file: Option<ReportRoutes.Upload>, unique: string)
    | AllReports
    | MyReports
    | HodReports
    | ApproveReport(reportId: Id)
    | RejectReport(reportId: Id)
    | HodStaff

  /** A route with the request's Authorization header ("" when absent). */
  datatype Request = Request(route: Route, authorization: string)

  /**
   * The external collaborators: bcrypt, jwt, and JavaScript's date parser
   * (`isDate(w)` when `new Date(w)` is a valid date).
   */
  datatype Oracles = Oracles(
    hash: string -> string,
    matches: (string, string) -> bool,
    sign: Claims -> string,
    verify: string -> Option<Claims>,
    isDate: string -> bool)

  /** The JSON body of a response. */
  datatype Body =
    | Created(userId: Id)
    | SessionBody(session: AuthRoutes.Session)
    | ReportBody(report: Report)
    | Reports(reports: seq<Report>)
    | ReportRows(rows: seq<ReportRoutes.ReportRow>)
    | Users(users: seq<User>)
    | ErrorBody(error: string)

  datatype Response = Response(status: int, body: Body, store: Store)

  predicate IsPublic(r: Route)
  {
    r.Register? || r.Login?
  }

  predicate IsHodRoute(r: Route)
  {
    r.HodReports? || r.ApproveReport? || r.RejectReport? || r.HodStaff?
  }

  /** The GET routes, and login, which only reads. */
  predicate IsRead(r: Route)
  {
    r.Login? || r.AllReports? || r.MyReports? || r.HodReports? || r.HodStaff?
  }

  function Send<T>(step: Step<T>, wrap: T -> Body): (r: Response)
    ensures r.store == step.store
    ensures r.status == step.reply.code
    ensures step.reply.Fail? ==> r.body == ErrorBody(step.reply.error)
  {
    match step.reply
    case Ok(code, value) => Response(code, wrap(value), step.store)
    case Fail(code, error) => Response(code, ErrorBody(error), step.store)
  }

  function Deny(s: Store, code: int, error: string): Response
  {
    Response(code, ErrorBody(error), s)
  }

  /** The handler of an authenticated route. */
  function Handle(s: Store, route: Route, caller: Claims, o: Oracles): Response
    requires !IsPublic(route)
  {
    match route
    case SubmitReport(weekEnding, file, unique) =>
      Send(ReportRoutes.Submit(s, caller, weekEnding, file, unique, o.isDate), (x: Report) => ReportBody(x))
    case AllReports => Send(ReportRoutes.ListAll(s, caller), (rows: seq<ReportRoutes.ReportRow>) => ReportRows(rows))
    case MyReports => Send(ReportRoutes.Mine(s, caller), (rs: seq<Report>) => Reports(rs))
    case HodReports => Send(HodRoutes.Reports(s, caller), (rows: seq<ReportRoutes.ReportRow>) => ReportRows(rows))
    case ApproveReport(id) => Send(HodRoutes.Approve(s, caller, id), (x: Report) => ReportBody(x))
    case RejectReport(id) => Send(HodRoutes.RejectReport(s, caller, id), (x: Report) => ReportBody(x))
    case HodStaff => Send(HodRoutes.Staff(s, caller), (us: seq<User>) => Users(us))
  }

  /** One request against the mounted routers. */
  function Serve(s: Store, req: Request, o: Oracles): (r: Response)
    ensures IsPublic(req.route) || Middleware.Authenticate(req.authorization, o.verify).Deny? ||
            r == Handle(s, req.route, Middleware.Authenticate(req.authorization, o.verify).value, o)
  {
    match req.route
    case Register(body) => Send(AuthRoutes.Register(s, body, o.hash), (id: Id) => Created(id))
    case Login(body) => Send(AuthRoutes.Login(s, body, o.matches, o.sign), (x: AuthRoutes.Session) => SessionBody(x))
    case _ =>
      match Middleware.Authenticate(req.authorization, o.verify)
      case Deny(code, error) => Deny(s, code, error)
      case Pass(caller) => Handle(s, req.route, caller, o)
  }

  /** A protected route without a bearer token is refused with 401 and changes nothing. */
  lemma ProtectedNeedsToken(s: Store, req: Request, o: Oracles)
    requires !IsPublic(req.route)
    requires |req.authorization| <= 7 || req.authorization[..7] != "Bearer "
    ensures Serve(s, req, o) == Response(401, ErrorBody("Missing token"), s)
  {
  }

  /** A token the verifier rejects is refused with 401 and changes nothing. */
  lemma ProtectedNeedsValidToken(s: Store, route: Route, token: string, o: Oracles)
    requires !IsPublic(route) && token != "" && o.verify(token).None?
    ensures Serve(s, Request(route, Middleware.BEARER + token), o) == Response(401, ErrorBody("Invalid token"), s)
  {
    Middleware.BearerRoundTrip(token);
  }

  /**
   * The HOD routes refuse every other role, ADMIN included, with 403 and
   * no change to the store.
   */
  lemma HodRoutesRefuseOthers(s: Store, route: Route, token: string, o: Oracles)
    requires IsHodRoute(route) && token != "" && o.verify(token).Some? && o.verify(token).value.role != HOD
    ensures Serve(s, Request(route, Middleware.BEARER + token), o) == Response(403, ErrorBody("Forbidden"), s)
  {
    Middleware.BearerRoundTrip(token);
  }

  /** Read routes never change the store, whoever calls them. */
  lemma ReadsChangeNothing(s: Store, req: Request, o: Oracles)
    requires IsRead(req.route)
    ensures Serve(s, req, o).store == s
  {
  }

  /** Every request keeps a valid store valid. */
  lemma ServeValid(s: Store, req: Request, o: Oracles)
    requires Valid(s)
    ensures Valid(Serve(s, req, o).store)
  {
    if req.route.Register? {
      assert Serve(s, req, o).store == AuthRoutes.Register(s, req.route.registration, o.hash).store;
      AuthRoutes.RegisterValid(s, req.route.registration, o.hash);
    } else if !req.route.Login? {
      var v := Middleware.Authenticate(req.authorization, o.verify);
      if v.Pass? {
        HandleValid(s, req.route, v.value, o);
      }
    }
  }

  lemma HandleValid(s: Store, route: Route, caller: Claims, o: Oracles)
    requires Valid(s) && !IsPublic(route)
    ensures Valid(Handle(s, route, caller, o).store)
  {
    match route
    case SubmitReport(weekEnding, file, unique) => ReportRoutes.SubmitValid(s, caller, weekEnding, file, unique, o.isDate);
    case ApproveReport(id) => HodRoutes.DecisionsValid(s, caller, id);
    case RejectReport(id) => HodRoutes.DecisionsValid(s, caller, id);
    case _ =>
  }

  /**
   * When `verify` inverts `sign`, the token a successful login returns
   * authenticates as that account's `{ id, role }`.
   */
  lemma LoginTokenAuthenticates(s: Store, body: AuthRoutes.LoginBody, o: Oracles)
    requires forall c: Claims :: o.verify(o.sign(c)) == Some(c)
    requires forall c: Claims :: o.sign(c) != ""
    requires Serve(s, Request(Login(body), ""), o).body.SessionBody?
    ensures var session := Serve(s, Request(Login(body), ""), o).body.session;
            Middleware.Authenticate(Middleware.BEARER + session.token, o.verify) ==
              Middleware.Pass(Claims(session.user.id, session.user.role))
  {
    var step := AuthRoutes.Login(s, body, o.matches, o.sign);
    var session := step.reply.value;
    Middleware.BearerRoundTrip(session.token);
  }
}

=== FILE: wrappers.dfy ===
/** Optional values: the model's stand-in for JavaScript's `undefined`/`null`. */
module Wrappers {

  datatype Option<+T> = None | Some(value: T) {

    /** Returns the value held in Some, or `default` for None. */
    function GetOr(default: T): T {
      match this
      case Some(v) => v
      case None => default
    }
  }
}
